=== FILE: README.md ===
# Restaurant back end: orders, delivery auction, discipline and reputation

This project models the core of a restaurant back end written as pseudocode in
`system_pseudocode.py`, and proves properties of the model in Dafny.

- **Order lifecycle.** A customer places an order. The account must be ACTIVE,
  have fewer than three warnings and name only available items. The total is
  the subtotal, less a 5% VIP discount, plus tax and a delivery fee; the fee is
  waived on every third order of a VIP. The balance is debited, the order and
  its items are recorded, the customer's aggregates grow, the VIP upgrade is
  checked, and the order goes to auction.
- **Delivery auction.** Delivery persons bid on an order while its window is
  open. The window closes at three bids or when bidding is closed. The manager
  gets the bids sorted by amount and assigns one. Choosing a bid dearer than
  the lowest needs an override memo. Only the assigned delivery person may mark
  the order OUT_FOR_DELIVERY or DELIVERED. DELIVERED credits their balance with
  the order's delivery price.
- **Discipline and reputation.** Customers rate delivered orders, with VIP
  ratings weighted twice, and file complaints and compliments. The manager
  resolves complaints.
  - Warnings raise a user's count. A VIP at two warnings loses VIP and starts
    again from zero. Three warnings terminate a customer: the balance is
    refunded and the email and phone are blacklisted. Three warnings fire an
    employee.
  - Employee evaluation recommends a demotion or a bonus. A second demotion
    fires the employee.
  - The manager can close a customer's account.
- **Knowledge base and menu.** Answers in the knowledge base are rated 0..5, and
  a single 0 deactivates the answer. The menu can be filtered by chef, price
  range and rating.

## How the model is organised

The database is one value, `StoreState.Tables`, with one field per table:
menu, tariff, users, customers, employees, orders, order items, bids, bidding
windows, warnings, manager memos, complaints, compliments, ratings, the
blacklist, the notification outbox and the refunds issued.

Each operation of the source is a function from one `Tables` to the next. These
functions live in the modules `Ordering`, `Auction`, `Feedback` and `Cascade`.
They return a `Step` pairing the new state with the operation's outcome. An
operation that fails with an error changes nothing, with two exceptions.
`place_order` with a short balance adds a warning, which runs the warning
cascade. Some operations keep the writes they made before a failing fetch;
these are listed under "Left out".

`Restaurant.Store` is the imperative side: a class with one field per table.
Its methods update the fields row by row, in the order the source does. Each
method is proved to leave exactly the state that the matching function
computes from the old state. The properties proved of the functions therefore
hold of the methods.

The loops of the source are methods with loop invariants, each proved against a
specification function:

| method | loop |
|---|---|
| `Pricing.CalculateOrderTotal` | the subtotal |
| `Menu.FilterMenu` | the menu filter |
| `Store.PlaceOrder` | the availability check |
| `Store.RecordItems` | the order items |
| `Store.IsBlacklisted` | the blacklist lookup |
| `Store.BidsOn` | the bids of an order |
| `Store.Lowest` | the lowest bid |
| `Store.HasRating` | the duplicate-rating check |
| `Store.PendingComplaintAgainst` | the pending-complaint check |

### The invariant

The state invariant `StoreState.Inv` is preserved by every operation. It says:

- **Accounts.** Every customer user has a customer record. Every chef and
  delivery person has an employee record. No record exists without its user.
- **Books.** No customer balance is negative. Each balance is its opening
  balance moved by exactly the ledger's movements for that account. Every
  ledger movement is backed by an order of a known customer: a debit of the
  order's total, or a credit of its delivery price. Every order was charged
  exactly once.
- **Prices.** Each order's total is what its recorded items, discount, tax
  and delivery fee come to. Items belong to known orders.
- **Auction.**
  - Bids and windows belong to known orders.
  - A selected bid's order no longer awaits bids.
  - A selected bid that is dearer than another bid on its order is backed by an
    override memo.
- **Ratings.** Every rating carries a positive weight.
- **Warning cascade.** A customer with three or more warnings is blacklisted,
  is not ACTIVE, and their email or phone is listed.

The ledger (`Ledger.Movement`) and the opening balances are ghost
bookkeeping. They let "money is conserved" be stated. `Restaurant.OpenedInv`
shows that a store opened on consistent, solvent accounts, with no customer at
three warnings, starts in a state satisfying the invariant.

Money is integer cents. Tax and discount are basis points, and the total is
rounded half up to the cent. The tax rate and the base delivery fee are the
`Pricing.Tariff` parameter, because the source does not fix their values.

## Model

| member | source | states |
|---|---|---|
| Pricing.CalculateOrderTotal | system_pseudocode.py:375-404 | the accumulated subtotal is the catalog subtotal of the cart, and the result is that subtotal less the VIP discount, plus tax and delivery fee, rounded half up to the cent |
| Pricing.DeliveryFee | system_pseudocode.py:395-399 | a paid delivery costs exactly the base fee; the fee is zero exactly when delivery is free (or the base fee is zero), and never above the base fee |
| Pricing.DiscountBp | system_pseudocode.py:346 | a discount is applied exactly to VIP orders |
| Pricing.FreeDeliverySavesBaseFee | system_pseudocode.py:395-402 | waiving the fee lowers the rounded total by exactly the base fee |
| Pricing.VipNeverPaysMore | system_pseudocode.py:387-401 | the VIP discount never makes an order dearer |
| Pricing.UntaxedTotalIsExact | system_pseudocode.py:380-402 | with no tax and no discount the total is the subtotal plus the fee, exactly |
| Pricing.OneFreeDeliveryInThree | system_pseudocode.py:407-421 | a customer who is not VIP never gets free delivery; of any three consecutive VIP orders exactly one ships free |
| Pricing.Snapshot | system_pseudocode.py:352-360 | one order item per cart line, with the cart's item and quantity and the catalog price of the moment |
| Pricing.SnapshotReproducesSubtotal | system_pseudocode.py:352-360 | the recorded unit prices reproduce the subtotal the order was charged on |
| Ordering.PlaceOrderGuards | system_pseudocode.py:310-335 | an order is placed exactly when the customer is known, ACTIVE, below three warnings, every item is available and the balance covers the total; each refusal but the short balance changes nothing |
| Ordering.PlaceOrderShortBalance | system_pseudocode.py:332-335 | a short balance creates no order, items or other account change; the customer gets one ORDER warning "Insufficient balance" through the warning cascade |
| Ordering.RecordedEffects | system_pseudocode.py:337-366 | recording debits the balance by the total, adds the ledger debit, creates the PLACED order with its total, discount, fee and items |
| Ordering.PlaceOrderPlaced | system_pseudocode.py:342-371 | a placed order gets the next id, ends AWAITING_BIDS with an open window, and no other order changes |
| Ordering.PlacedCharges | system_pseudocode.py:339-368 | the balance falls by exactly the total and never below zero, total_orders grows by one and total_spent by the total, a VIP stays VIP, the ledger records the debit and the items are the cart at catalog prices |
| Ordering.PlaceOrderKeepsInv | system_pseudocode.py:305-372 | place_order preserves the invariant, including money conservation and "every order charged once" |
| Ordering.AvailableInCatalog | system_pseudocode.py:321-326 | items that pass the availability check are all on the menu, so the order can be priced |
| Restaurant.Store.PlaceOrder | system_pseudocode.py:305-372 | the store is left exactly as the place_order function says, so the guards, the short-balance warning and the placed-order effects above hold of the class |
| Restaurant.Store.ChargeAndPlace | system_pseudocode.py:328-371 | past the account and availability guards, the result and new state are place_order's |
| Restaurant.Store.Place | system_pseudocode.py:337-371 | returns the next order id; the new state is the order recorded, the VIP upgrade checked and the auction opened |
| Restaurant.Store.RecordOrder | system_pseudocode.py:337-366 | the new state is the debit, the order, its items and the aggregates recorded, as RecordedEffects states |
| Restaurant.Store.RecordItems | system_pseudocode.py:352-360 | the order items table grows by exactly the cart's snapshot |
| Auction.OpenBidding | system_pseudocode.py:425-440 | only the order (now AWAITING_BIDS), the outbox and the windows change |
| Auction.SubmitBid | system_pseudocode.py:443-473 | only the bids and windows change |
| Auction.QuorumShut | system_pseudocode.py:466-470 | the order's window is closed afterwards exactly when it was closed or the order has three bids or more; no other window changes |
| Auction.SubmitBidRefusals | system_pseudocode.py:448-456 | submit_bid refuses, changing nothing, exactly when the window is not open, or the order is unknown or no longer AWAITING_BIDS |
| Auction.SubmitBidAccepted | system_pseudocode.py:458-472 | an accepted bid is appended unselected; afterwards the window is closed exactly when the order has at least three bids |
| Auction.SubmitBidKeepsInv | system_pseudocode.py:443-473 | submit_bid preserves the invariant |
| Auction.CloseBidding | system_pseudocode.py:476-490 | only the windows and the outbox change |
| Auction.BidSummary | system_pseudocode.py:482-489 | nothing is sent for an order without bids, otherwise one list of the order's bids |
| Auction.ShutWindowIdempotent | system_pseudocode.py:481 | closing a window twice is closing it once |
| Auction.CloseBiddingTwice | system_pseudocode.py:476-490 | closing twice leaves the windows and bids as closing once; the manager gets the same sorted list again |
| Auction.CloseBiddingKeepsInv | system_pseudocode.py:476-490 | close_bidding preserves the invariant |
| Auction.OpenBiddingKeepsInv | system_pseudocode.py:425-440 | open_bidding on an order with no selected bid preserves the invariant |
| Bidding.SortByAmount | system_pseudocode.py:488 | the list sent to the manager is sorted by amount and is a permutation of the order's bids |
| Bidding.SortIdempotent | system_pseudocode.py:488 | sorting a sorted list changes nothing |
| Bidding.SortedHeadIsLowest | system_pseudocode.py:488-489 | the first bid on the manager's list is a lowest bid |
| Bidding.LowestAmount | system_pseudocode.py:514 | the lowest amount is the amount of some bid and no bid is cheaper |
| Bidding.OverrideIffCheaperBid | system_pseudocode.py:514-516 | a bid is dearer than the lowest exactly when another bid on the order is cheaper |
| Bidding.BidsFor | system_pseudocode.py:466-484 | the bids of an order are exactly the bids naming it, in placement order |
| Bidding.InBidsFor | system_pseudocode.py:504-513 | a bid is one of the order's bids exactly when it names the order |
| Auction.AssignRefusals | system_pseudocode.py:499-518 | only a manager may assign; the choice is refused for want of a memo exactly when the order has bids, the selected one is dearer than the lowest and the memo is empty; every refusal except an unknown order changes nothing (for an unknown order the override memo is already saved) |
| Auction.AssignFromBids | system_pseudocode.py:512-542 | the order goes to the selected bid's delivery person and becomes READY_FOR_DELIVERY, every other order unchanged, the bid is marked selected, an override memo is recorded exactly when the selection is dearer than the lowest, and a missing memo then refuses |
| Auction.AssignWithoutBids | system_pseudocode.py:506-537 | with no bids the available delivery person takes the order; with none available the call fails |
| Auction.AsWrittenAwardsForeignBid | system_pseudocode.py:513-541 | as written, a bid of another order that still awaits bids can be marked selected, breaking auction consistency |
| Auction.AssignRefusesForeignBid | system_pseudocode.py:513 | the corrected assignment refuses a bid of another order and changes nothing |
| Auction.AssignDelivery | system_pseudocode.py:494-543 | the corrected assign_delivery; its frame says only orders, bids and memos change |
| Auction.AssignDeliveryKeepsInv | system_pseudocode.py:494-543 | assign_delivery preserves the invariant, in particular that a dearer selected bid is backed by an override memo |
| Auction.UpdateOrderStatus | system_pseudocode.py:547-570 | only orders, employees and the ledger change |
| Auction.StatusRefusals | system_pseudocode.py:552-556 | only the assigned delivery person moves the order; any status other than OUT_FOR_DELIVERY or DELIVERED changes nothing |
| Auction.PickedUp | system_pseudocode.py:557-560 | OUT_FOR_DELIVERY stamps the pickup and moves no money |
| Auction.DeliveredAndPaid | system_pseudocode.py:561-568 | DELIVERED stamps the delivery, leaving every other order unchanged, and credits exactly the order's delivery price to the delivery person; no other employee or customer record changes |
| Auction.UpdateOrderStatusKeepsInv | system_pseudocode.py:547-570 | update_order_status preserves the invariant; the credit is backed by the order in the ledger |
| Restaurant.Store.OpenBidding | system_pseudocode.py:425-440 | the new state is open_bidding's |
| Restaurant.Store.SubmitBid | system_pseudocode.py:443-473 | the outcome and new state are submit_bid's, so SubmitBidRefusals and SubmitBidAccepted hold of the class |
| Restaurant.Store.BidsOn | system_pseudocode.py:466-484 | the loop collects exactly the order's bids |
| Restaurant.Store.CloseBidding | system_pseudocode.py:476-490 | the new state is close_bidding's |
| Restaurant.Store.Lowest | system_pseudocode.py:514 | the loop finds the lowest amount |
| Restaurant.Store.AssignDelivery | system_pseudocode.py:494-543 | the outcome and new state are the corrected assign_delivery's |
| Restaurant.Store.AwardBid | system_pseudocode.py:513-542 | for a bid of the order, the outcome and new state are assign_delivery's |
| Restaurant.Store.UpdateOrderStatus | system_pseudocode.py:547-570 | the outcome and new state are update_order_status's |
| Ledger.NetIsChargedWithoutPayouts | system_pseudocode.py:337-341 | with no refunds or credits, an account has moved by exactly minus what it was charged |
| Feedback.WeightOf | system_pseudocode.py:598-603 | the weight is 2 exactly for a VIP customer and 1 otherwise |
| Feedback.SubmitOrderRating | system_pseudocode.py:574-619 | only the ratings and the outbox change |
| Feedback.RatingRefusals | system_pseudocode.py:579-596 | an unknown order, another customer's order, an order not DELIVERED, an order already rated and a score outside 1..5 are refused, in that order, each changing nothing |
| Feedback.RatingAccepted | system_pseudocode.py:598-617 | the rating is appended with the VIP weight and the order's delivery person, and the manager gets that delivery person's evaluation counting the new rating |
| Feedback.RatedOnce | system_pseudocode.py:589-592 | once an order is rated, every further rating of it is refused |
| Feedback.SubmitOrderRatingKeepsInv | system_pseudocode.py:574-619 | submit_order_rating preserves the invariant |
| Feedback.EvaluateEmployee | system_pseudocode.py:771-792 | only the outbox changes |
| Feedback.FileComplaint | system_pseudocode.py:659-681 | only the complaints change |
| Feedback.ComplaintFiled | system_pseudocode.py:659-681 | a known filer appends exactly one complaint carrying the given parties, types, description and order, PENDING, stamped now, with the filer's VIP weight and no decision yet, so a complaint is pending against its target; an unknown filer is refused |
| Feedback.FileCompliment | system_pseudocode.py:684-696 | only the compliments change, gaining one compliment with the given parties, comment and order, stamped now |
| Feedback.ComplimentCounted | system_pseudocode.py:684-696 | a filed compliment counts once towards the evaluation of the user it names and towards no one else's |
| Feedback.ResolveRefusals | system_pseudocode.py:704-716 | a caller who is not a manager and a complaint already handled are refused, changing nothing; otherwise exactly that complaint is decided and stamped with manager, note and time |
| Feedback.ResolveDismissed | system_pseudocode.py:725-726 | a dismissed complaint changes nothing but the complaint |
| Feedback.ResolveUpheld | system_pseudocode.py:718-724 | an upheld complaint warns its target with the complaint type as reason, suspends them when critical and counts against them once more |
| Feedback.UpheldReachesThreshold | system_pseudocode.py:718-724 | after an upheld complaint, a chef or delivery person brought to three warnings is FIRED with a TERMINATION memo "Too many warnings", and a customer the warning terminates is blacklisted and listed; either ends TERMINATED, or SUSPENDED when critical |
| Feedback.SanctionReachesThreshold | system_pseudocode.py:720-724 | the same for the warning, threshold check and suspension of the sanction itself |
| Feedback.ResolveComplaintKeepsInv | system_pseudocode.py:699-730 | resolve_complaint preserves the invariant |
| Feedback.Sanctioned | system_pseudocode.py:720-724 | the sanction keeps every account and its registration |
| Feedback.Suspend | system_pseudocode.py:722-724 | suspension keeps every account and its registration |
| Restaurant.Store.HasRating | system_pseudocode.py:589 | the loop finds whether the order is already rated |
| Restaurant.Store.SubmitOrderRating | system_pseudocode.py:574-619 | the outcome and new state are submit_order_rating's |
| Restaurant.Store.EvaluateEmployee | system_pseudocode.py:771-792 | the new state is evaluate_employee's |
| Restaurant.Store.FileComplaint | system_pseudocode.py:659-681 | the outcome and new state are file_complaint's |
| Restaurant.Store.FileCompliment | system_pseudocode.py:684-696 | the new state is file_compliment's |
| Restaurant.Store.ResolveComplaint | system_pseudocode.py:699-730 | the outcome and new state are resolve_complaint's |
| Restaurant.Store.Sanction | system_pseudocode.py:720-724 | the new state is the warning, threshold check and suspension of an upheld complaint |
| Discipline.Evaluate | system_pseudocode.py:778-791 | no recommendation exactly without ratings; demotion exactly when the weighted average is below 2 or net complaints reach 3; a bonus only for an average above 4 or three compliments |
| Discipline.EvaluateByAverage | system_pseudocode.py:782-791 | the same decision stated on the real weighted average: demote iff average < 2 or net complaints ≥ 3, bonus iff otherwise average > 4 or compliments ≥ 3 |
| Discipline.AverageWithinScale | system_pseudocode.py:782 | with scores in 1..5 the weighted average is in 1..5 |
| Discipline.AverageComparison | system_pseudocode.py:787-789 | comparing the weighted average with a threshold is comparing the weighted sum with threshold × weight |
| Reputation.Notice | system_pseudocode.py:787-791 | the manager is sent a demotion notice exactly on Demote, a bonus notice exactly on Bonus, else nothing |
| Reputation.ScoresWeighted | system_pseudocode.py:776 | every score an employee received carries a positive weight |
| Reputation.UpheldAgainst | system_pseudocode.py:783 | the count of upheld complaints never exceeds the complaints |
| Reputation.UpheldAfterDecision | system_pseudocode.py:718-726 | deciding one complaint changes the upheld count against an employee by exactly that decision |
| Reputation.ComplimentsTo | system_pseudocode.py:784 | the count of compliments never exceeds the compliments |
| Discipline.CustomerWarningResponse | system_pseudocode.py:900-909 | terminate exactly when not VIP and at least three warnings; VIP kept exactly when VIP and below two warnings; the count never rises and stays below three unless terminating |
| Discipline.VipSecondChance | system_pseudocode.py:900-909 | a VIP with c warnings (c below two) is terminated after k more exactly when k ≥ (2 − c) + 3: VIP is lost at the (2 − c)-th and three more terminate |
| Discipline.WarningsToTermination | system_pseudocode.py:907-909 | a regular customer with c warnings is terminated after k more exactly when c + k ≥ 3 |
| Discipline.VipUpgradeDue | system_pseudocode.py:863-879 | upgrade only for an ACTIVE customer who is not VIP and has no pending complaint, and then exactly when spending exceeds 100.00 or there are three orders and no warnings |
| Discipline.AddEntry | system_pseudocode.py:979-992 | afterwards the contact is listed, the old entries are kept as a prefix, at most one entry is added and everything listed stays listed |
| Discipline.AddEntryIdempotent | system_pseudocode.py:984-985 | adding the same contact twice is adding it once |
| Discipline.AddEntryListsOnlyItsContact | system_pseudocode.py:984-990 | adding a contact lists nothing new that shares neither its email nor its phone |
| Cascade.RefundEffects | system_pseudocode.py:921-924 | a refund pays out exactly the positive balance and zeroes it; a balance that is not positive is left alone |
| Cascade.WarningRecorded | system_pseudocode.py:739-748 | the warning is appended, the count raised, and no other user, customer, employee or order changes |
| Cascade.WarningToOtherRole | system_pseudocode.py:894-896 | a warning to anyone but a customer only raises their count |
| Cascade.WarningSparesCustomer | system_pseudocode.py:900-905 | a VIP at two warnings loses VIP and restarts at zero, others have the count raised; no money moves and nothing is blacklisted |
| Cascade.WarningTerminates | system_pseudocode.py:907-931 | a terminating warning makes the customer TERMINATED and blacklisted, refunds the balance to zero and lists the email and phone |
| Cascade.HandleWarningChangesOnlyItsUser | system_pseudocode.py:887-910 | the cascade changes only the warned user |
| Cascade.TerminateChangesOnlyItsUser | system_pseudocode.py:913-932 | termination changes only that customer |
| Cascade.AddWarningKeepsInv | system_pseudocode.py:734-752 | add_warning_to_user preserves the invariant, so the cascade keeps every customer below three warnings or terminated and listed |
| Cascade.HandleWarningKeepsInv | system_pseudocode.py:887-910 | the customer warning handler restores the cascade for the warned user |
| Cascade.TerminateKeepsInv | system_pseudocode.py:913-932 | terminate_and_blacklist_customer preserves the invariant, money conservation included |
| Cascade.ThresholdReached | system_pseudocode.py:755-767 | below three warnings, or for a manager, nothing changes; at three or more a customer is refunded (no other customer record changing), TERMINATED, blacklisted and listed, and a chef or delivery person is FIRED, TERMINATED and given a TERMINATION memo "Too many warnings" |
| Cascade.CustomerWarningListed | system_pseudocode.py:900-931 | a warning that terminates a customer leaves them TERMINATED, blacklisted and listed, whatever their balance |
| Cascade.CheckWarningThresholdKeepsInv | system_pseudocode.py:755-767 | check_warning_threshold preserves the invariant |
| Cascade.FireKeepsInv | system_pseudocode.py:831-851 | fire_employee preserves the invariant |
| Cascade.Demotion | system_pseudocode.py:807-851 | a demotion sets DEMOTED, counts, cuts the salary to 80% and records the performance memo; the second demotion fires the employee, makes the user TERMINATED and adds the TERMINATION memo "Max demotions", and otherwise no user changes and only the performance memo is added; no other employee changes |
| Cascade.Bonus | system_pseudocode.py:811-823 | a bonus raises the salary by 10%, changes no other employee and no user, and adds exactly the performance memo |
| Cascade.ApplyDemotionOrBonus | system_pseudocode.py:795-828 | the accounts and registrations are kept |
| Cascade.ApplyDemotionOrBonusKeepsInv | system_pseudocode.py:795-828 | apply_demotion_or_bonus preserves the invariant |
| Cascade.VipUpgrade | system_pseudocode.py:855-884 | a VIP stays VIP; a customer becomes VIP exactly when the upgrade rule says so, stamped now |
| Cascade.CheckVipUpgradeKeepsInv | system_pseudocode.py:855-884 | check_vip_upgrade preserves the invariant |
| Cascade.CloseAccountEffects | system_pseudocode.py:935-956 | only a manager may close an account; a closed account is refunded to zero and CLOSED, and no other user or customer changes |
| Cascade.CloseCustomerAccountKeepsInv | system_pseudocode.py:935-956 | close_customer_account preserves the invariant |
| Cascade.Refunded | system_pseudocode.py:921-923 | a refund is issued exactly for a positive balance, at most one |
| Restaurant.Store.AddWarningToUser | system_pseudocode.py:734-752 | the new state is add_warning_to_user's, cascade included |
| Restaurant.Store.HandleWarningAddedToCustomer | system_pseudocode.py:887-910 | the new state is the customer warning handler's |
| Restaurant.Store.TerminateAndBlacklistCustomer | system_pseudocode.py:913-932 | the new state is terminate_and_blacklist_customer's |
| Restaurant.Store.RefundBalance | system_pseudocode.py:921-924 | the new state is the refund's |
| Restaurant.Store.CheckWarningThreshold | system_pseudocode.py:755-767 | the new state is check_warning_threshold's |
| Restaurant.Store.FireEmployee | system_pseudocode.py:831-851 | the new state is fire_employee's |
| Restaurant.Store.ApplyDemotionOrBonus | system_pseudocode.py:795-828 | the outcome and new state are apply_demotion_or_bonus's |
| Restaurant.Store.PendingComplaintAgainst | system_pseudocode.py:871 | the loop finds whether a complaint against the customer is pending |
| Restaurant.Store.CheckVipUpgrade | system_pseudocode.py:855-884 | the new state is check_vip_upgrade's |
| Restaurant.Store.CloseCustomerAccount | system_pseudocode.py:935-956 | the outcome and new state are close_customer_account's |
| Restaurant.Store.IsBlacklisted | system_pseudocode.py:960-976 | the loop answers exactly whether the email or the phone is listed |
| Restaurant.Store.AddToBlacklist | system_pseudocode.py:979-992 | the blacklist becomes AddEntry of the old one |
| Menu.FilterMenu | system_pseudocode.py:28-52 | the loop keeps exactly the items matching chef, price range and minimum rating, in menu order; the price bounds and ratings are exact rationals, as the source's decimals are |
| Menu.FilteredMembership | system_pseudocode.py:35-48 | an item is in the filtered menu exactly when it is on the menu and matches |
| Menu.FilteredIdempotent | system_pseudocode.py:28-52 | filtering twice with the same criteria is filtering once |
| Knowledge.KnowledgeBase.RateAnswer | system_pseudocode.py:145-177 | a value outside 0..5 or an unknown answer is refused, changing nothing; otherwise the rating is recorded, the average and flag count are recomputed from all the answer's ratings, a 0 deactivates the answer, and a flagged answer is never active |
| Knowledge.ZeroCountPositive | system_pseudocode.py:168 | the flag count is positive exactly when some rating is 0 |

## Left out

- `update_employee_stats_after_rating` (system_pseudocode.py:622-655): the model only re-evaluates the delivery person (654). It does not store the chef and delivery averages and counts (631-646), because those fields feed nothing else in the core. It does not raise the rater's abuse flag (648-652), because ABUSE_THRESHOLD and "flag for abuse" are not defined.
- `HANDLE warning added to employee` (system_pseudocode.py:751) is called but never defined, so it is not modelled. Employees are fired for warnings only through `check_warning_threshold`.
- `SUSPEND user immediately` (system_pseudocode.py:723) is not defined. It is modelled as setting the user's status to Suspended.
- The payment gateway (system_pseudocode.py:922, 949) is not modelled. A refund is recorded in a refunds table and always succeeds.
- Notifications (system_pseudocode.py:434-437, 489, 788-790) are appended to an outbox sequence and not sent.
- The five-minute bidding timer and the race between it and the quorum close are left out: a timeout is an explicit `CloseBidding` call, and operations run one at a time. Database transactions (337, 362) are atomic because every operation is.
- "FETCH any available delivery person" (system_pseudocode.py:507) is a parameter of `AssignDelivery`, because availability is not defined in the core.
- Timestamps are opaque values passed in by the caller.
- Rounding and fractions: the total is rounded half up to whole cents from an exact value in 1/10000 cent. The source says only "ROUND to 2 decimal places". Salaries, menu ratings and the menu filter's bounds are exact `real` values, and weighted averages are exact rationals. The tax rate and base delivery fee are parameters, because the source leaves them unset.
- Restaurant.Store methods: their contracts tie the new state to the operation functions and do not restate the invariant. The `KeepsInv` lemmas carry it.
- The ledger and the opening balances are ghost state that exists only to state money conservation. The source has no such table.
- Registration, login, deposits, chat, the LLM answerer and recommendations (system_pseudocode.py:1-142, 181-301) are not part of this model.
- Where the source fetches a record that may not exist, the model reports not found. It keeps the writes the source makes before that fetch and changes nothing otherwise:
  - `AssignDelivery` keeps the override memo it saved before fetching an unknown order (system_pseudocode.py:516-534);
  - `UpdateOrderStatus` keeps the DELIVERED stamp on the order when the delivery person has no employee record (system_pseudocode.py:561-566);
  - `ApplyDemotionOrBonus` keeps the appraisal and its memo when a user to fire is not registered (system_pseudocode.py:805-826).
- Feedback.ResolveComplaint: for an upheld complaint against an unknown user the model fails and changes nothing. The source saves the warning (system_pseudocode.py:739-744) before it fetches the user (746), so it leaves that warning behind. The model keeps "a refusal changes nothing" instead.
- Filing a complaint or compliment (system_pseudocode.py:659-696) does not check the target user, so the invariant says nothing about complaints or compliments. `Feedback.ComplaintFiled` states what filing a complaint appends.
- Where the source reads a missing record as a value, the model does the same:
  - a cart line naming an item missing from the menu counts as unavailable;
  - a bidding window that does not exist counts as closed.

## Behaviour that follows the code

These behaviours follow the code as written, not the specification:

- `update_order_status` does not check the current status. A second DELIVERED call credits the delivery person again.
- `assign_delivery` does not clear an earlier selection. Assigning an order twice can leave two of its bids selected.
- `close_bidding` called twice sends the manager the sorted list again. The windows and the bids are the same as after one call.
- Bids are sorted by amount alone, and bids of equal amount keep no particular order.
- A critical upheld complaint suspends its target even when the warning it added just terminated or fired them.
- `apply_demotion_or_bonus` sets DEMOTED on an employee without checking their status (system_pseudocode.py:807-809), so an employee already FIRED for warnings can become DEMOTED again. FIRED is therefore promised for each operation that fires, not as an invariant.
- The insufficient-balance warning in `place_order` runs the whole warning cascade. It can terminate the customer and refund the balance, so "the balance is unchanged" holds only when the warning does not terminate.

## Findings

| source | as written | input that shows it | evidently intended | confidence | as-written member | corrected member |
|---|---|---|---|---|---|---|
| system_pseudocode.py:513-541 | assign_delivery fetches the selected bid by id without checking that it belongs to the order being assigned | bids: order 0 has a 400 bid by delivery person 5, order 1 has a 300 bid by delivery person 7, and order 1 still awaits bids; the manager assigns order 0 selecting the bid of order 1 with a memo. Order 0 goes to delivery person 7 and order 1's bid is marked selected while order 1 still awaits bids | the selected bid must be one of the order's own bids, otherwise the call fails as not found | not executed | Auction.AsWrittenAwardsForeignBid | Auction.AssignRefusesForeignBid |


=== FILE: auction.dfy ===
/** The delivery auction and the delivery itself on the whole state:
    opening a window for a new order, accepting bids while it is open,
    closing it and sending the manager the sorted bids, the manager's
    assignment with its override memo, and the assigned delivery person's
    status updates with the delivery fee credited on delivery. */
module Auction {
  import opened Domain
  import opened Ledger
  import opened Bidding
  import opened StoreState

  // ---------------------------------------------------------------- operations

  /** open_bidding: the order awaits bids, delivery persons are told, and a
      five-minute window opens. */
  function OpenBidding(s: Tables, o: OrderId, now: Time): (s': Tables)
    requires o in s.orders
    ensures s' == s.(orders := s'.orders, outbox := s'.outbox, windows := s'.windows)
    ensures s'.orders.Keys == s.orders.Keys
  {
    s.(orders := s.orders[o := s.orders[o].(status := AwaitingBids)],
       outbox := s.outbox + [NewOrderBroadcast(o)],
       windows := s.windows[o := Window(now, WINDOW_MINUTES, false)])
  }

  /** submit_bid: refused once the window is closed (a missing window counts
      as closed) or the order no longer awaits bids; otherwise the bid is
      appended unselected, and the window closes when the order has three. */
  function SubmitBid(s: Tables, dp: UserId, o: OrderId, amount: Cents, eta: int, now: Time): (r: Step<Outcome>)
    ensures r.state == s.(bids := r.state.bids, windows := r.state.windows)
  {
    if !WindowOpen(s.windows, o) then Step(s, Fail(WindowClosed))
    else if o !in s.orders then Step(s, Fail(NotFound))
    else if s.orders[o].status != AwaitingBids then Step(s, Fail(NotAccepting))
    else
      var bids := s.bids + [Bid(o, dp, amount, eta, now, false)];
      Step(s.(bids := bids, windows := QuorumShut(s.windows, bids, o)), Ok)
  }

  /** The windows once order `o` has `bids`: its window closes at the quorum. */
  function QuorumShut(windows: map<OrderId, Window>, bids: seq<Bid>, o: OrderId): (w: map<OrderId, Window>)
    requires o in windows
    ensures w.Keys == windows.Keys
    ensures w[o].closed <==> windows[o].closed || |BidsFor(bids, o)| >= QUORUM
    ensures forall p :: p in windows && p != o ==> w[p] == windows[p]
  {
    if |BidsFor(bids, o)| >= QUORUM then windows[o := windows[o].(closed := true)] else windows
  }

  /** close_bidding: closes the window, then sends the manager the order's
      bids ascending by amount, unless there are none. */
  function CloseBidding(s: Tables, o: OrderId): (s': Tables)
    ensures s' == s.(windows := s'.windows, outbox := s'.outbox)
  {
    s.(windows := ShutWindow(s.windows, o), outbox := s.outbox + BidSummary(s.bids, o))
  }

  /** The windows with order `o`'s closed, if it has one. */
  function ShutWindow(windows: map<OrderId, Window>, o: OrderId): (w: map<OrderId, Window>)
    ensures w.Keys == windows.Keys
    ensures o in windows ==> w[o] == windows[o].(closed := true)
    ensures forall p :: p in windows && p != o ==> w[p] == windows[p]
  {
    if o in windows then windows[o := windows[o].(closed := true)] else windows
  }

  /** What close_bidding sends the manager: nothing for an order without
      bids, else one list of the order's bids ascending by amount. */
  function BidSummary(bids: seq<Bid>, o: OrderId): (n: seq<Notification>)
    ensures BidsFor(bids, o) == [] ==> n == []
    ensures BidsFor(bids, o) != [] ==>
      && |n| == 1 && n[0].SortedBidsToManager? && n[0].orderId == o
      && SortedByAmount(n[0].bids) && multiset(n[0].bids) == multiset(BidsFor(bids, o))
  {
    var bs := BidsFor(bids, o);
    if bs == [] then [] else [SortedBidsToManager(o, SortByAmount(bs))]
  }

  /** The bid `assign_delivery` acts on, as written: any bid the id names. */
  function PickAsWritten(bids: seq<Bid>, selected: Option<nat>): (k: Option<nat>)
    ensures k.Some? ==> k.value < |bids|
  {
    if selected.Some? && selected.value < |bids| then selected else None
  }

  /** The bid `assign_delivery` should act on: one of the order's own bids. */
  function Pick(bids: seq<Bid>, o: OrderId, selected: Option<nat>): (k: Option<nat>)
    ensures k.Some? ==> k.value < |bids| && bids[k.value].orderId == o
    ensures k.Some? <==> PickAsWritten(bids, selected).Some? && bids[selected.value].orderId == o
  {
    if selected.Some? && selected.value < |bids| && bids[selected.value].orderId == o then selected else None
  }

  /** assign_delivery once the selected bid id has been resolved to `pick`:
      manager only; with no bids the available delivery person (if any)
      takes the order; otherwise the selected bid's delivery person does,
      and a selection dearer than the lowest bid needs a memo, which is
      recorded as an override memo. The order becomes READY_FOR_DELIVERY
      and the bid is marked selected. */
  function AssignPicked(s: Tables, managerId: UserId, o: OrderId, pick: Option<nat>, memoText: string,
                        available: Option<UserId>, now: Time): (r: Step<Outcome>)
    requires pick.Some? ==> pick.value < |s.bids|
    ensures r.state == s.(memos := r.state.memos, orders := r.state.orders, bids := r.state.bids)
  {
    if !IsManager(s.users, managerId) then Step(s, Fail(NoPermission))
    else if BidsFor(s.bids, o) == [] then
      if available.None? then Step(s, Fail(NoDeliveryPerson))
      else if o !in s.orders then Step(s, Fail(NotFound))
      else Step(s.(orders := s.orders[o := s.orders[o].(deliveryId := available, status := ReadyForDelivery)]), Ok)
    else if pick.None? then Step(s, Fail(NotFound))
    else
      var k := pick.value;
      var b := s.bids[k];
      var overridden := b.amount > LowestAmount(BidsFor(s.bids, o));
      if overridden && memoText == "" then Step(s, Fail(MemoNeeded))
      else
        var s1 := if overridden then s.(memos := s.memos + [OverrideMemo(managerId, o, b, memoText, now)]) else s;
        if o !in s1.orders then Step(s1, Fail(NotFound))
        else Step(Awarded(s1, o, k), Ok)
  }

  /** The memo the manager leaves when choosing a bid dearer than the lowest. */
  function OverrideMemo(managerId: UserId, o: OrderId, b: Bid, memoText: string, now: Time): (m: Memo)
    ensures m.memoType == DeliveryBidOverride && m.orderId == Some(o) && m.employeeId == b.deliveryId
  {
    Memo(managerId, Some(o), b.deliveryId, DeliveryBidOverride, memoText, now)
  }

  /** Order `o` handed to the delivery person of bid `k`, which is marked
      selected. */
  function Awarded(s: Tables, o: OrderId, k: nat): (s': Tables)
    requires o in s.orders && k < |s.bids|
    ensures s' == s.(orders := s'.orders, bids := s'.bids)
    ensures s'.orders.Keys == s.orders.Keys && |s'.bids| == |s.bids|
  {
    s.(orders := s.orders[o := s.orders[o].(deliveryId := Some(s.bids[k].deliveryId), status := ReadyForDelivery)],
       bids := s.bids[k := s.bids[k].(isSelected := true)])
  }

  /** assign_delivery as written: the selected bid may belong to any order. */
  function AssignDeliveryAsWritten(s: Tables, managerId: UserId, o: OrderId, selected: Option<nat>, memoText: string,
                                   available: Option<UserId>, now: Time): Step<Outcome>
  {
    AssignPicked(s, managerId, o, PickAsWritten(s.bids, selected), memoText, available, now)
  }

  /** assign_delivery with the selected bid required to be on the order. */
  function AssignDelivery(s: Tables, managerId: UserId, o: OrderId, selected: Option<nat>, memoText: string,
                          available: Option<UserId>, now: Time): (r: Step<Outcome>)
    ensures r.state == s.(memos := r.state.memos, orders := r.state.orders, bids := r.state.bids)
  {
    AssignPicked(s, managerId, o, Pick(s.bids, o, selected), memoText, available, now)
  }

  /** update_order_status: only the assigned delivery person may move the
      order; OUT_FOR_DELIVERY stamps the pickup, DELIVERED stamps the
      delivery and credits the delivery person the order's delivery price;
      any other status changes nothing. The current status is not checked. */
  function UpdateOrderStatus(s: Tables, dp: UserId, o: OrderId, newStatus: OrderStatus, now: Time): (r: Step<Outcome>)
    ensures r.state == s.(orders := r.state.orders, employees := r.state.employees, ledger := r.state.ledger)
  {
    if o !in s.orders then Step(s, Fail(NotFound))
    else
      var order := s.orders[o];
      if order.deliveryId != Some(dp) then Step(s, Fail(NotAssigned))
      else if newStatus == OutForDelivery then
        Step(s.(orders := s.orders[o := order.(status := OutForDelivery, pickedUpAt := Some(now))]), Ok)
      else if newStatus == Delivered then
        var s1 := s.(orders := s.orders[o := order.(status := Delivered, deliveredAt := Some(now))]);
        if dp !in s.employees then Step(s1, Fail(NotFound))
        else Step(Credited(s1, dp, o), Ok)
      else Step(s, Ok)
  }

  /** Delivery person `dp` paid order `o`'s delivery price, and the ledger
      records the credit. */
  function Credited(s: Tables, dp: UserId, o: OrderId): (s': Tables)
    requires dp in s.employees && o in s.orders
    ensures s' == s.(employees := s'.employees, ledger := s'.ledger)
    ensures s'.employees.Keys == s.employees.Keys
  {
    var e := s.employees[dp];
    s.(employees := s.employees[dp := e.(balance := e.balance + s.orders[o].deliveryPrice)],
       ledger := s.ledger + [Credit(dp, o, s.orders[o].deliveryPrice)])
  }

  // ---------------------------------------------------------------- what the operations promise

  /** submit_bid refuses, changing nothing, exactly when the window is not
      open or the order is unknown or no longer awaits bids. */
  lemma SubmitBidRefusals(s: Tables, dp: UserId, o: OrderId, amount: Cents, eta: int, now: Time)
    ensures var r := SubmitBid(s, dp, o, amount, eta, now);
      && (r.result == Fail(WindowClosed) <==> !WindowOpen(s.windows, o))
      && (r.result == Fail(NotFound) <==> WindowOpen(s.windows, o) && o !in s.orders)
      && (r.result == Fail(NotAccepting) <==> WindowOpen(s.windows, o) && o in s.orders && s.orders[o].status != AwaitingBids)
      && (r.result.Fail? ==> r.state == s)
  {
  }

  /** An accepted bid is appended unselected, and afterwards the order's
      window is closed exactly when the order has three bids or more; no
      other window changes. */
  lemma SubmitBidAccepted(s: Tables, dp: UserId, o: OrderId, amount: Cents, eta: int, now: Time)
    requires WindowOpen(s.windows, o) && o in s.orders && s.orders[o].status == AwaitingBids
    ensures var r := SubmitBid(s, dp, o, amount, eta, now);
      && r.result == Ok
      && r.state.bids == s.bids + [Bid(o, dp, amount, eta, now, false)]
      && r.state.windows.Keys == s.windows.Keys
      && (r.state.windows[o].closed <==> |BidsFor(r.state.bids, o)| >= QUORUM)
      && (forall p :: p in s.windows && p != o ==> r.state.windows[p] == s.windows[p])
  {
  }

  /** Closing a window twice is closing it once. */
  lemma ShutWindowIdempotent(windows: map<OrderId, Window>, o: OrderId)
    ensures ShutWindow(ShutWindow(windows, o), o) == ShutWindow(windows, o)
  {
    if o in windows {
      var w := ShutWindow(windows, o);
      assert w[o := w[o].(closed := true)] == w;
    }
  }

  /** Closing twice leaves the windows and the bids as closing once; the
      second call sends the manager the same list again. */
  lemma CloseBiddingTwice(s: Tables, o: OrderId)
    ensures var s1 := CloseBidding(s, o);
      var s2 := CloseBidding(s1, o);
      && s2.windows == s1.windows && s2.bids == s1.bids
      && s2.outbox == s1.outbox + BidSummary(s.bids, o)
      && s1.outbox == s.outbox + BidSummary(s.bids, o)
  {
    ShutWindowIdempotent(s.windows, o);
  }

  /** assign_delivery: only a manager may assign, and a refusal changes
      nothing but, for an unknown order, the recorded memo. */
  lemma AssignRefusals(s: Tables, managerId: UserId, o: OrderId, selected: Option<nat>, memoText: string,
                       available: Option<UserId>, now: Time)
    ensures var r := AssignDelivery(s, managerId, o, selected, memoText, available, now);
      && (!IsManager(s.users, managerId) ==> r == Step(s, Fail(NoPermission)))
      && (r.result.Fail? && r.result != Fail(NotFound) ==> r.state == s)
      && (r.result == Fail(MemoNeeded) <==>
            && IsManager(s.users, managerId) && BidsFor(s.bids, o) != [] && Pick(s.bids, o, selected).Some?
            && s.bids[selected.value].amount > LowestAmount(BidsFor(s.bids, o)) && memoText == "")
  {
  }

  /** assign_delivery as written awards order `o` a bid placed on another
      order `p` that is still AWAITING_BIDS: the bid is marked selected
      while its own order still awaits bids, so the auction is no longer
      consistent. */
  lemma AsWrittenAwardsForeignBid(s: Tables, managerId: UserId, o: OrderId, k: nat, memoText: string,
                                  available: Option<UserId>, now: Time)
    requires IsManager(s.users, managerId) && o in s.orders && BidsFor(s.bids, o) != [] && memoText != ""
    requires k < |s.bids| && s.bids[k].orderId != o
    requires s.bids[k].orderId in s.orders && s.orders[s.bids[k].orderId].status == AwaitingBids
    ensures var r := AssignDeliveryAsWritten(s, managerId, o, Some(k), memoText, available, now);
      && r.result == Ok
      && r.state.bids[k].isSelected && r.state.orders[s.bids[k].orderId].status == AwaitingBids
      && !AuctionConsistent(r.state.bids, r.state.orders, r.state.windows, r.state.memos)
  {
    var r := AssignDeliveryAsWritten(s, managerId, o, Some(k), memoText, available, now);
    var p := s.bids[k].orderId;
    var overridden := s.bids[k].amount > LowestAmount(BidsFor(s.bids, o));
    var s1 := if overridden then s.(memos := s.memos + [OverrideMemo(managerId, o, s.bids[k], memoText, now)]) else s;
    assert r.state == Awarded(s1, o, k);
    assert r.state.orders[p] == s.orders[p];
    assert r.state.bids[k] == s.bids[k].(isSelected := true);
  }

  /** The corrected assign_delivery refuses that bid as not found and
      changes nothing. */
  lemma AssignRefusesForeignBid(s: Tables, managerId: UserId, o: OrderId, k: nat, memoText: string,
                                available: Option<UserId>, now: Time)
    requires IsManager(s.users, managerId) && BidsFor(s.bids, o) != []
    requires k < |s.bids| && s.bids[k].orderId != o
    ensures AssignDelivery(s, managerId, o, Some(k), memoText, available, now) == Step(s, Fail(NotFound))
  {
  }

  /** An assignment from the bids: the order goes to the selected bid's
      delivery person, READY_FOR_DELIVERY, and that bid is marked
      selected; an override memo is recorded exactly when another bid on
      the order is cheaper, and a missing memo then refuses the choice. */
  lemma AssignFromBids(s: Tables, managerId: UserId, o: OrderId, k: nat, memoText: string,
                       available: Option<UserId>, now: Time)
    requires IsManager(s.users, managerId) && o in s.orders && k < |s.bids| && s.bids[k].orderId == o
    ensures var r := AssignDelivery(s, managerId, o, Some(k), memoText, available, now);
      var b := s.bids[k];
      var cheaper := exists j :: 0 <= j < |s.bids| && s.bids[j].orderId == o && s.bids[j].amount < b.amount;
      && (cheaper && memoText == "" ==> r == Step(s, Fail(MemoNeeded)))
      && (!cheaper || memoText != "" ==>
            && r.result == Ok
            && r.state.orders == s.orders[o := s.orders[o].(deliveryId := Some(b.deliveryId), status := ReadyForDelivery)]
            && r.state.bids == s.bids[k := b.(isSelected := true)]
            && r.state.memos == s.memos + (if cheaper then [OverrideMemo(managerId, o, b, memoText, now)] else []))
  {
    OverrideIffCheaperBid(s.bids, k);
  }

  /** With no bids the available delivery person, if any, takes the order. */
  lemma AssignWithoutBids(s: Tables, managerId: UserId, o: OrderId, selected: Option<nat>, memoText: string,
                          available: Option<UserId>, now: Time)
    requires IsManager(s.users, managerId) && BidsFor(s.bids, o) == []
    ensures var r := AssignDelivery(s, managerId, o, selected, memoText, available, now);
      && (available == None ==> r == Step(s, Fail(NoDeliveryPerson)))
      && (available != None && o in s.orders ==>
            r == Step(s.(orders := s.orders[o := s.orders[o].(deliveryId := available, status := ReadyForDelivery)]), Ok))
  {
  }

  /** update_order_status: only the assigned delivery person moves the
      order, and a status other than OUT_FOR_DELIVERY or DELIVERED changes
      nothing. */
  lemma StatusRefusals(s: Tables, dp: UserId, o: OrderId, newStatus: OrderStatus, now: Time)
    ensures var r := UpdateOrderStatus(s, dp, o, newStatus, now);
      && (o !in s.orders ==> r == Step(s, Fail(NotFound)))
      && (o in s.orders && s.orders[o].deliveryId != Some(dp) ==> r == Step(s, Fail(NotAssigned)))
      && (newStatus != OutForDelivery && newStatus != Delivered ==> r.state == s)
  {
  }

  /** OUT_FOR_DELIVERY stamps the pickup and moves no money. */
  lemma PickedUp(s: Tables, dp: UserId, o: OrderId, now: Time)
    requires o in s.orders && s.orders[o].deliveryId == Some(dp)
    ensures var r := UpdateOrderStatus(s, dp, o, OutForDelivery, now);
      && r.result == Ok
      && r.state == s.(orders := s.orders[o := s.orders[o].(status := OutForDelivery, pickedUpAt := Some(now))])
  {
  }

  /** DELIVERED stamps the delivery and credits the delivery person exactly
      the order's delivery price; no other balance moves. */
  lemma DeliveredAndPaid(s: Tables, dp: UserId, o: OrderId, now: Time)
    requires o in s.orders && s.orders[o].deliveryId == Some(dp) && dp in s.employees
    ensures var r := UpdateOrderStatus(s, dp, o, Delivered, now);
      var price := s.orders[o].deliveryPrice;
      && r.result == Ok
      && r.state.orders == s.orders[o := s.orders[o].(status := Delivered, deliveredAt := Some(now))]
      && r.state.employees == s.employees[dp := s.employees[dp].(balance := s.employees[dp].balance + price)]
      && r.state.customers == s.customers
      && r.state.ledger == s.ledger + [Credit(dp, o, price)]
  {
  }

  // ---------------------------------------------------------------- the invariant is kept

  lemma OpenBiddingKeepsInv(s: Tables, o: OrderId, now: Time)
    requires Inv(s) && o in s.orders
    requires forall i :: 0 <= i < |s.bids| && s.bids[i].isSelected ==> s.bids[i].orderId != o
    ensures Inv(OpenBidding(s, o, now))
  {
    var no := s.orders[o].(status := AwaitingBids);
    var s' := OpenBidding(s, o, now);
    RecastKeepsBooksAndPrices(s, o, no);
    RecastKeepsAuction(s.bids, s.orders, s.windows, s.memos, o, no);
    WindowKeepsAuction(s.bids, s.orders[o := no], s.windows, s.memos, o, Window(now, WINDOW_MINUTES, false));
    assert s'.orders == s.orders[o := no];
  }

  lemma SubmitBidKeepsInv(s: Tables, dp: UserId, o: OrderId, amount: Cents, eta: int, now: Time)
    requires Inv(s)
    ensures Inv(SubmitBid(s, dp, o, amount, eta, now).state)
  {
    if WindowOpen(s.windows, o) && o in s.orders && s.orders[o].status == AwaitingBids {
      var b := Bid(o, dp, amount, eta, now, false);
      BidAndQuorumKeepAuction(s.bids, s.orders, s.windows, s.memos, b);
      BiddingKeepsInv(s, s.bids + [b], QuorumShut(s.windows, s.bids + [b], o));
    }
  }

  lemma BidAndQuorumKeepAuction(bids: seq<Bid>, orders: map<OrderId, Order>, windows: map<OrderId, Window>, memos: seq<Memo>, b: Bid)
    requires AuctionConsistent(bids, orders, windows, memos) && b.orderId in windows
    requires b.orderId in orders && orders[b.orderId].status == AwaitingBids && !b.isSelected
    ensures AuctionConsistent(bids + [b], orders, QuorumShut(windows, bids + [b], b.orderId), memos)
  {
    var o := b.orderId;
    BidKeepsAuction(bids, orders, windows, memos, b);
    if |BidsFor(bids + [b], o)| >= QUORUM {
      WindowKeepsAuction(bids + [b], orders, windows, memos, o, windows[o].(closed := true));
    }
  }

  lemma CloseBiddingKeepsInv(s: Tables, o: OrderId)
    requires Inv(s)
    ensures Inv(CloseBidding(s, o))
  {
    var s' := CloseBidding(s, o);
    if o in s.windows {
      WindowKeepsAuction(s.bids, s.orders, s.windows, s.memos, o, s.windows[o].(closed := true));
      assert s'.windows == s.windows[o := s.windows[o].(closed := true)];
    }
  }

  /** Awarding a bid on the order whose selection is justified keeps the
      invariant. */
  lemma AwardedKeepsInv(s: Tables, o: OrderId, k: nat)
    requires Inv(s) && o in s.orders && k < |s.bids| && s.bids[k].orderId == o
    requires (exists j :: 0 <= j < |s.bids| && s.bids[j].orderId == o && s.bids[j].amount < s.bids[k].amount)
             ==> OverrideMemoed(s.memos, o)
    ensures Inv(Awarded(s, o, k))
  {
    var no := s.orders[o].(deliveryId := Some(s.bids[k].deliveryId), status := ReadyForDelivery);
    RecastKeepsBooksAndPrices(s, o, no);
    AwardKeepsAuction(s.bids, s.orders, s.windows, s.memos, o, k, no);
    AwardingKeepsInv(s, s.orders[o := no], s.bids[k := s.bids[k].(isSelected := true)]);
  }

  /** With no bids, handing the order to the available delivery person
      keeps the invariant. */
  lemma AssignWithoutBidsKeepsInv(s: Tables, managerId: UserId, o: OrderId, selected: Option<nat>, memoText: string,
                                  available: Option<UserId>, now: Time)
    requires Inv(s) && BidsFor(s.bids, o) == []
    ensures Inv(AssignDelivery(s, managerId, o, selected, memoText, available, now).state)
  {
    if IsManager(s.users, managerId) && available.Some? && o in s.orders {
      var no := s.orders[o].(deliveryId := available, status := ReadyForDelivery);
      RecastKeepsBooksAndPrices(s, o, no);
      RecastKeepsAuction(s.bids, s.orders, s.windows, s.memos, o, no);
    }
  }

  /** A dearer bid chosen with a memo: the memo justifies the selection. */
  lemma AssignOverrideKeepsInv(s: Tables, managerId: UserId, o: OrderId, k: nat, memoText: string, now: Time)
    requires Inv(s) && o in s.orders && k < |s.bids| && s.bids[k].orderId == o
    ensures var s1 := s.(memos := s.memos + [OverrideMemo(managerId, o, s.bids[k], memoText, now)]);
      Inv(s1) && Inv(Awarded(s1, o, k))
  {
    var m := OverrideMemo(managerId, o, s.bids[k], memoText, now);
    var s1 := s.(memos := s.memos + [m]);
    MemoKeepsSelectionsJustified(s.bids, s.memos, m);
    assert s1.memos[|s.memos|] == m;
    assert OverrideMemoed(s1.memos, o);
    AwardedKeepsInv(s1, o, k);
  }

  /** The state assign_delivery leaves when the manager picks bid `k` of
      the order. */
  lemma AssignFromBidsState(s: Tables, managerId: UserId, o: OrderId, k: nat, memoText: string,
                            available: Option<UserId>, now: Time)
    requires IsManager(s.users, managerId) && o in s.orders && k < |s.bids| && s.bids[k].orderId == o
    ensures BidsFor(s.bids, o) != []
    ensures var b := s.bids[k];
      var overridden := b.amount > LowestAmount(BidsFor(s.bids, o));
      AssignDelivery(s, managerId, o, Some(k), memoText, available, now).state ==
        if !overridden then Awarded(s, o, k)
        else if memoText == "" then s
        else Awarded(s.(memos := s.memos + [OverrideMemo(managerId, o, b, memoText, now)]), o, k)
  {
    OverrideIffCheaperBid(s.bids, k);
  }

  lemma AssignFromBidsKeepsInv(s: Tables, managerId: UserId, o: OrderId, selected: Option<nat>, memoText: string,
                               available: Option<UserId>, now: Time)
    requires Inv(s) && IsManager(s.users, managerId) && Pick(s.bids, o, selected).Some?
    ensures Inv(AssignDelivery(s, managerId, o, selected, memoText, available, now).state)
  {
    var k := selected.value;
    assert o in s.orders;
    AssignFromBidsState(s, managerId, o, k, memoText, available, now);
    OverrideIffCheaperBid(s.bids, k);
    if s.bids[k].amount > LowestAmount(BidsFor(s.bids, o)) {
      if memoText != "" {
        AssignOverrideKeepsInv(s, managerId, o, k, memoText, now);
      }
    } else {
      AwardedKeepsInv(s, o, k);
    }
  }

  lemma AssignDeliveryKeepsInv(s: Tables, managerId: UserId, o: OrderId, selected: Option<nat>, memoText: string,
                               available: Option<UserId>, now: Time)
    requires Inv(s)
    ensures Inv(AssignDelivery(s, managerId, o, selected, memoText, available, now).state)
  {
    if !IsManager(s.users, managerId) {
    } else if BidsFor(s.bids, o) == [] {
      AssignWithoutBidsKeepsInv(s, managerId, o, selected, memoText, available, now);
    } else if Pick(s.bids, o, selected).Some? {
      AssignFromBidsKeepsInv(s, managerId, o, selected, memoText, available, now);
    }
  }

  /** Crediting the delivery price keeps the books: the balance rises by
      exactly the credit the ledger records, backed by the order. */
  lemma CreditedKeepsBooks(s: Tables, dp: UserId, o: OrderId)
    requires Books(s) && dp in s.employees && dp !in s.customers && o in s.orders
    ensures Books(Credited(s, dp, o))
  {
    var m := Credit(dp, o, s.orders[o].deliveryPrice);
    var s' := Credited(s, dp, o);
    assert s'.ledger == s.ledger + [m] && s'.customers == s.customers && s'.orders == s.orders;
    forall u | u in s'.customers
      ensures u in s'.opening && s'.customers[u].balance == s'.opening[u] + Net(s'.ledger, u)
    {
      NetAppend(s.ledger, m, u);
    }
    forall u | u in s'.employees
      ensures u in s'.opening && s'.employees[u].balance == s'.opening[u] + Net(s'.ledger, u)
    {
      NetAppend(s.ledger, m, u);
      if u != dp {
        assert s'.employees[u] == s.employees[u];
      }
    }
    forall p | p in s'.orders
      ensures DebitsOf(s'.ledger, p) == DebitsOf(s.ledger, p)
    {
      DebitsAppend(s.ledger, m, p);
    }
    forall i | 0 <= i < |s'.ledger|
      ensures Backed(s'.ledger[i], s'.orders)
    {
      if i < |s.ledger| {
        assert s'.ledger[i] == s.ledger[i];
      }
    }
  }

  lemma CreditedKeepsInv(s: Tables, dp: UserId, o: OrderId)
    requires Inv(s) && dp in s.employees && o in s.orders
    ensures Inv(Credited(s, dp, o))
  {
    CreditedKeepsBooks(s, dp, o);
  }

  lemma UpdateOrderStatusKeepsInv(s: Tables, dp: UserId, o: OrderId, newStatus: OrderStatus, now: Time)
    requires Inv(s)
    ensures Inv(UpdateOrderStatus(s, dp, o, newStatus, now).state)
  {
    if o in s.orders && s.orders[o].deliveryId == Some(dp) {
      var order := s.orders[o];
      if newStatus == OutForDelivery {
        var no := order.(status := OutForDelivery, pickedUpAt := Some(now));
        RecastKeepsBooksAndPrices(s, o, no);
        RecastKeepsAuction(s.bids, s.orders, s.windows, s.memos, o, no);
      } else if newStatus == Delivered {
        var no := order.(status := Delivered, deliveredAt := Some(now));
        var s1 := s.(orders := s.orders[o := no]);
        RecastKeepsBooksAndPrices(s, o, no);
        RecastKeepsAuction(s.bids, s.orders, s.windows, s.memos, o, no);
        assert Inv(s1);
        if dp in s.employees {
          CreditedKeepsInv(s1, dp, o);
        }
      }
    }
  }
}

=== FILE: bidding.dfy ===
/** The delivery auction's pure side: the bids of one order, the list the
    manager receives (sorted ascending by amount) and the lowest bid that
    decides whether a selection needs an override memo. */
module Bidding {
  import opened Domain

  /** The window closes as soon as an order has this many bids. */
  const QUORUM: nat := 3

  /** A window's fixed duration. */
  const WINDOW_MINUTES: nat := 5

  /** The bids placed on order `o`, in the order they were placed. */
  function BidsFor(bids: seq<Bid>, o: OrderId): (r: seq<Bid>)
    ensures |r| <= |bids|
    ensures forall i :: 0 <= i < |r| ==> r[i].orderId == o
  {
    if bids == [] then []
    else
      var last := bids[|bids| - 1];
      BidsFor(bids[..|bids| - 1], o) + (if last.orderId == o then [last] else [])
  }

  lemma BidsForAppend(bids: seq<Bid>, b: Bid, o: OrderId)
    ensures BidsFor(bids + [b], o) == BidsFor(bids, o) + (if b.orderId == o then [b] else [])
  {
    assert (bids + [b])[..|bids|] == bids;
  }

  /** A bid is one of order `o`'s bids exactly when it is a bid on `o`. */
  lemma {:induction false} InBidsFor(bids: seq<Bid>, o: OrderId, b: Bid)
    ensures b in BidsFor(bids, o) <==> b in bids && b.orderId == o
  {
    if bids != [] {
      InBidsFor(bids[..|bids| - 1], o, b);
      assert bids == bids[..|bids| - 1] + [bids[|bids| - 1]];
    }
  }

  /** Changing a bid's selection flag keeps the order's bid amounts and
      their number: only that bid's flag changes in the order's list. */
  lemma {:induction false} BidsForSelect(bids: seq<Bid>, k: nat, o: OrderId)
    requires k < |bids|
    ensures |BidsFor(bids[k := bids[k].(isSelected := true)], o)| == |BidsFor(bids, o)|
    ensures forall i :: 0 <= i < |BidsFor(bids, o)| ==>
      BidsFor(bids[k := bids[k].(isSelected := true)], o)[i].amount == BidsFor(bids, o)[i].amount
  {
    var bids' := bids[k := bids[k].(isSelected := true)];
    var n := |bids| - 1;
    assert bids'[..n] == if k < n then bids[..n][k := bids[k].(isSelected := true)] else bids[..n];
    if k < n {
      BidsForSelect(bids[..n], k, o);
    }
  }

  /** No bid on `o` among `bids` means `o` has no bids. */
  lemma {:induction false} BidsForNone(bids: seq<Bid>, o: OrderId)
    requires forall i :: 0 <= i < |bids| ==> bids[i].orderId != o
    ensures BidsFor(bids, o) == []
  {
    if bids != [] {
      BidsForNone(bids[..|bids| - 1], o);
    }
  }

  // ---------------------------------------------------------------- ordering

  predicate SortedByAmount(s: seq<Bid>) {
    forall i, j :: 0 <= i < j < |s| ==> s[i].amount <= s[j].amount
  }

  /** Inserts `b` in front of the first bid that is not cheaper. */
  function InsertByAmount(b: Bid, s: seq<Bid>): (r: seq<Bid>)
    requires SortedByAmount(s)
    ensures SortedByAmount(r)
    ensures multiset(r) == multiset(s) + multiset{b}
  {
    if s == [] then [b]
    else if b.amount <= s[0].amount then
      assert forall k :: 0 <= k < |s| ==> s[0].amount <= s[k].amount;
      ConsSorted(b, s);
      [b] + s
    else
      var rest := InsertByAmount(b, s[1..]);
      var t := s[1..] + [b];
      assert multiset(t) == multiset(s[1..]) + multiset{b};
      assert forall k :: 0 <= k < |s[1..]| ==> s[1..][k] == s[k + 1];
      assert forall k :: 0 <= k < |t| ==> s[0].amount <= t[k].amount;
      BoundedByMultiset(s[0].amount, rest, t);
      ConsSorted(s[0], rest);
      assert s == [s[0]] + s[1..];
      assert multiset([s[0]] + rest) == multiset{s[0]} + multiset(rest);
      [s[0]] + rest
  }

  /** Every amount of `rest` is at least `lo` when `rest` holds the bids of
      `t`, all of which are. */
  lemma BoundedByMultiset(lo: int, rest: seq<Bid>, t: seq<Bid>)
    requires multiset(rest) == multiset(t)
    requires forall k :: 0 <= k < |t| ==> lo <= t[k].amount
    ensures forall k :: 0 <= k < |rest| ==> lo <= rest[k].amount
  {
    forall k | 0 <= k < |rest|
      ensures lo <= rest[k].amount
    {
      assert rest[k] in multiset(t);
      var j :| 0 <= j < |t| && t[j] == rest[k];
    }
  }

  /** A bid no dearer than any of a sorted list goes in front of it. */
  lemma ConsSorted(x: Bid, rest: seq<Bid>)
    requires SortedByAmount(rest)
    requires forall k :: 0 <= k < |rest| ==> x.amount <= rest[k].amount
    ensures SortedByAmount([x] + rest)
  {
    forall i, j | 0 <= i < j < |[x] + rest|
      ensures ([x] + rest)[i].amount <= ([x] + rest)[j].amount
    {
      if i > 0 {
        assert ([x] + rest)[i] == rest[i - 1];
      }
      assert ([x] + rest)[j] == rest[j - 1];
    }
  }

  /** The list the manager is sent: the bids ascending by amount. Ties keep
      no particular order, as the source sorts by amount alone. */
  function SortByAmount(s: seq<Bid>): (r: seq<Bid>)
    ensures SortedByAmount(r)
    ensures multiset(r) == multiset(s)
  {
    if s == [] then []
    else
      assert s == [s[0]] + s[1..];
      InsertByAmount(s[0], SortByAmount(s[1..]))
  }

  /** The amount of the cheapest bid. */
  function LowestAmount(s: seq<Bid>): (m: Cents)
    requires s != []
    ensures exists i :: 0 <= i < |s| && s[i].amount == m
    ensures forall i :: 0 <= i < |s| ==> m <= s[i].amount
  {
    if |s| == 1 then s[0].amount
    else
      var m := LowestAmount(s[1..]);
      assert forall i :: 1 <= i < |s| ==> s[i] == s[1..][i - 1];
      if s[0].amount <= m then s[0].amount else m
  }

  /** The first bid on the manager's list is a lowest bid: choosing it never
      needs an override memo. */
  lemma SortedHeadIsLowest(s: seq<Bid>)
    requires s != []
    ensures SortByAmount(s) != [] && SortByAmount(s)[0].amount == LowestAmount(s)
  {
    var r := SortByAmount(s);
    assert |r| == |multiset(r)| == |multiset(s)| == |s|;
    assert r[0] in multiset(s);
    var i :| 0 <= i < |s| && s[i].amount == LowestAmount(s);
    assert s[i] in multiset(r);
    var j :| 0 <= j < |r| && r[j] == s[i];
    assert r[0].amount <= r[j].amount;
  }

  /** Inserting into a list whose head is not cheaper puts the bid first. */
  lemma InsertBeforeHead(b: Bid, s: seq<Bid>)
    requires SortedByAmount(s)
    requires s == [] || b.amount <= s[0].amount
    ensures InsertByAmount(b, s) == [b] + s
  {
  }

  /** Sorting a list that is already sorted changes nothing, so the manager
      receives the same list however often the window is closed. */
  lemma {:induction false} SortSortedIsIdentity(s: seq<Bid>)
    requires SortedByAmount(s)
    ensures SortByAmount(s) == s
  {
    if s != [] {
      SortSortedIsIdentity(s[1..]);
      InsertBeforeHead(s[0], s[1..]);
      assert s == [s[0]] + s[1..];
    }
  }

  /** Sorting twice is sorting once. */
  lemma SortIdempotent(s: seq<Bid>)
    ensures SortByAmount(SortByAmount(s)) == SortByAmount(s)
  {
    SortSortedIsIdentity(SortByAmount(s));
  }

  /** Bid `k` is dearer than the lowest bid on its order exactly when some
      other bid on that order is cheaper: then choosing it needs a memo. */
  lemma OverrideIffCheaperBid(bids: seq<Bid>, k: nat)
    requires k < |bids|
    ensures BidsFor(bids, bids[k].orderId) != []
    ensures bids[k].amount > LowestAmount(BidsFor(bids, bids[k].orderId)) <==>
      exists j :: 0 <= j < |bids| && bids[j].orderId == bids[k].orderId && bids[j].amount < bids[k].amount
  {
    var o := bids[k].orderId;
    var bs := BidsFor(bids, o);
    InBidsFor(bids, o, bids[k]);
    if bids[k].amount > LowestAmount(bs) {
      var i :| 0 <= i < |bs| && bs[i].amount == LowestAmount(bs);
      InBidsFor(bids, o, bs[i]);
      var j :| 0 <= j < |bids| && bids[j] == bs[i];
    }
    forall j | 0 <= j < |bids| && bids[j].orderId == o
      ensures LowestAmount(bs) <= bids[j].amount
    {
      InBidsFor(bids, o, bids[j]);
      var i :| 0 <= i < |bs| && bs[i] == bids[j];
    }
  }
}

=== FILE: cascade.dfy ===
/** The discipline operations on the whole state: warnings and the customer
    cascade (VIP revoke or termination with refund and blacklisting), the
    warning threshold, firing, demotion and bonus, the VIP upgrade and the
    manager closing a customer account. */
module Cascade {
  import opened Domain
  import opened Ledger
  import opened Discipline
  import opened StoreState

  // ---------------------------------------------------------------- operations

  /** Refunds a positive customer balance through the payment gateway and
      zeroes it; a balance that is not positive is left alone. */
  function RefundBalance(s: Tables, uid: UserId): (s': Tables)
    requires uid in s.customers
    ensures s' == s.(customers := s'.customers, refunds := s'.refunds, ledger := s'.ledger)
    ensures s'.customers.Keys == s.customers.Keys
  {
    var c := s.customers[uid];
    if c.balance > 0 then
      s.(customers := s.customers[uid := c.(balance := 0)],
         refunds := s.refunds + [Refund(uid, c.balance)],
         ledger := s.ledger + [Payout(uid, c.balance)])
    else s
  }

  /** terminate_and_blacklist_customer: refund, TERMINATED and blacklisted,
      contact listed. */
  function Terminate(s: Tables, uid: UserId, now: Time): (s': Tables)
    requires uid in s.users && uid in s.customers
    ensures s' == s.(users := s'.users, customers := s'.customers, refunds := s'.refunds, ledger := s'.ledger, blacklist := s'.blacklist)
    ensures SameAccounts(s, s')
  {
    var u := s.users[uid];
    RefundBalance(s, uid).(users := s.users[uid := u.(status := Terminated, isBlacklisted := true)],
                           blacklist := AddEntry(s.blacklist, u.email, u.phone, now))
  }

  /** handle_warning_added_to_customer, run after the count was raised: a
      VIP at two warnings loses VIP and restarts from zero; then three or
      more warnings terminate the account. Other roles are left alone. */
  function HandleWarning(s: Tables, uid: UserId, now: Time): (s': Tables)
    requires Registered(s, uid)
    ensures s' == s.(users := s'.users, customers := s'.customers, refunds := s'.refunds, ledger := s'.ledger, blacklist := s'.blacklist)
    ensures SameAccounts(s, s')
  {
    if s.users[uid].role != Customer then s
    else
      var s1 := if s.customers[uid].isVip && s.users[uid].warningCount >= VIP_WARNING_LIMIT then Revoked(s, uid) else s;
      if s1.users[uid].warningCount >= WARNING_LIMIT then Terminate(s1, uid, now) else s1
  }

  /** A VIP's second chance: VIP revoked and the warnings forgiven. */
  function Revoked(s: Tables, uid: UserId): (s': Tables)
    requires uid in s.users && uid in s.customers
    ensures s' == s.(users := s'.users, customers := s'.customers)
    ensures SameAccounts(s, s')
  {
    s.(customers := s.customers[uid := s.customers[uid].(isVip := false)],
       users := s.users[uid := s.users[uid].(warningCount := 0)])
  }

  /** add_warning_to_user: records the warning, raises the count and lets
      the customer handler react. No employee handler exists. */
  function AddWarning(s: Tables, uid: UserId, source: WarningSource, reason: string, now: Time): (s': Tables)
    requires Registered(s, uid)
    ensures s' == s.(warnings := s'.warnings, users := s'.users, customers := s'.customers, refunds := s'.refunds,
                     ledger := s'.ledger, blacklist := s'.blacklist)
    ensures SameAccounts(s, s')
  {
    HandleWarning(Warned(s, uid, source, reason, now), uid, now)
  }

  /** The warning recorded and the user's count raised by one. */
  function Warned(s: Tables, uid: UserId, source: WarningSource, reason: string, now: Time): (s': Tables)
    requires uid in s.users
    ensures Registered(s, uid) ==> Registered(s', uid)
  {
    var u := s.users[uid];
    s.(warnings := s.warnings + [Warning(uid, source, reason, now)],
       users := s.users[uid := u.(warningCount := u.warningCount + 1)])
  }

  /** fire_employee: FIRED, TERMINATED, and a termination memo. */
  function Fire(s: Tables, emp: UserId, reason: string, managerId: UserId, now: Time): (s': Tables)
    requires emp in s.employees && emp in s.users
    ensures s' == s.(employees := s'.employees, users := s'.users, memos := s'.memos)
    ensures SameAccounts(s, s')
  {
    s.(employees := s.employees[emp := s.employees[emp].(employmentStatus := Fired)],
       users := s.users[emp := s.users[emp].(status := Terminated)],
       memos := s.memos + [Memo(managerId, None, emp, Termination, reason, now)])
  }

  /** check_warning_threshold: three warnings terminate a customer and fire
      a chef or delivery person. */
  function CheckWarningThreshold(s: Tables, uid: UserId, managerId: UserId, now: Time): (s': Tables)
    requires Registered(s, uid)
    ensures s' == s.(users := s'.users, customers := s'.customers, refunds := s'.refunds, ledger := s'.ledger,
                     blacklist := s'.blacklist, employees := s'.employees, memos := s'.memos)
    ensures SameAccounts(s, s')
  {
    var u := s.users[uid];
    if u.role == Customer && u.warningCount >= WARNING_LIMIT then Terminate(s, uid, now)
    else if u.role.IsEmployee() && u.warningCount >= WARNING_LIMIT then Fire(s, uid, "Too many warnings", managerId, now)
    else s
  }

  /** The employee record after a "DEMOTE" or "BONUS" decision; any other
      action leaves it as it was. */
  function Appraised(e: Employee, action: string): Employee {
    if action == "DEMOTE" then e.(employmentStatus := Demoted, demotionCount := e.demotionCount + 1, salary := e.salary * 0.8)
    else if action == "BONUS" then e.(salary := e.salary * 1.1)
    else e
  }

  /** The decision applied to the employee record and the performance memo
      recorded. */
  function Appraise(s: Tables, emp: UserId, managerId: UserId, action: string, memoText: string, now: Time): (s': Tables)
    requires emp in s.employees
    ensures s' == s.(employees := s'.employees, memos := s'.memos)
    ensures s'.employees.Keys == s.employees.Keys
  {
    s.(employees := s.employees[emp := Appraised(s.employees[emp], action)],
       memos := s.memos + [Memo(managerId, None, emp, Performance(action), memoText, now)])
  }

  /** apply_demotion_or_bonus: manager only; applies the decision, records a
      performance memo, and fires at the second demotion. */
  function ApplyDemotionOrBonus(s: Tables, emp: UserId, managerId: UserId, action: string, memoText: string, now: Time): (r: Step<Outcome>)
    ensures SameAccounts(s, r.state)
  {
    if !IsManager(s.users, managerId) then Step(s, Fail(NoPermission))
    else if emp !in s.employees then Step(s, Fail(NotFound))
    else
      var s1 := Appraise(s, emp, managerId, action, memoText, now);
      if action == "DEMOTE" && FiredAfterDemotion(s.employees[emp].demotionCount) then
        if emp in s.users then Step(Fire(s1, emp, "Max demotions", managerId, now), Ok)
        else Step(s1, Fail(NotFound))
      else Step(s1, Ok)
  }

  /** check_vip_upgrade: grants VIP, stamped now, when VipUpgradeDue. */
  function CheckVipUpgrade(s: Tables, cid: UserId, now: Time): (s': Tables)
    requires cid in s.customers && cid in s.users
    ensures s' == s.(customers := s'.customers)
    ensures SameAccounts(s, s')
  {
    var c := s.customers[cid];
    if VipUpgradeDue(c, s.users[cid], HasPendingComplaint(s.complaints, cid)) then
      s.(customers := s.customers[cid := c.(isVip := true, vipActivatedAt := Some(now))])
    else s
  }

  /** The account refunded and CLOSED. */
  function ClosedAccount(s: Tables, cid: UserId): (s': Tables)
    requires cid in s.customers && cid in s.users
    ensures s' == s.(users := s'.users, customers := s'.customers, refunds := s'.refunds, ledger := s'.ledger)
    ensures SameAccounts(s, s')
  {
    RefundBalance(s, cid).(users := s.users[cid := s.users[cid].(status := Closed)])
  }

  /** close_customer_account: manager only; refunds a positive balance and
      marks the account CLOSED. */
  function CloseCustomerAccount(s: Tables, managerId: UserId, cid: UserId): (r: Step<Outcome>)
    ensures SameAccounts(s, r.state)
  {
    if !IsManager(s.users, managerId) then Step(s, Fail(NoPermission))
    else if cid !in s.customers || cid !in s.users then Step(s, Fail(NotFound))
    else Step(ClosedAccount(s, cid), Ok)
  }

  // ---------------------------------------------------------------- what the operations promise

  /** The refund issued when an account with this balance is terminated or
      closed: the whole balance, if there is any. */
  function Refunded(uid: UserId, balance: Cents): (r: seq<Refund>)
    ensures |r| <= 1
    ensures r != [] <==> balance > 0
  {
    if balance > 0 then [Refund(uid, balance)] else []
  }

  /** A refund pays out exactly the balance it zeroes. */
  lemma RefundEffects(s: Tables, uid: UserId)
    requires uid in s.customers && s.customers[uid].balance >= 0
    ensures var s' := RefundBalance(s, uid);
      && s'.customers[uid] == s.customers[uid].(balance := 0)
      && s'.refunds == s.refunds + Refunded(uid, s.customers[uid].balance)
      && OthersUnchanged(s, s', uid)
  {
  }

  lemma TerminateChangesOnlyItsUser(s: Tables, uid: UserId, now: Time)
    requires uid in s.users && uid in s.customers
    ensures OthersUnchanged(s, Terminate(s, uid, now), uid)
  {
    var u := s.users[uid];
    var r := RefundBalance(s, uid);
    var t := Terminate(s, uid, now);
    assert t.customers == r.customers;
    assert t.users == s.users[uid := u.(status := Terminated, isBlacklisted := true)];
  }

  /** The warning cascade changes only the warned user. */
  lemma HandleWarningChangesOnlyItsUser(s: Tables, uid: UserId, now: Time)
    requires Registered(s, uid)
    ensures OthersUnchanged(s, HandleWarning(s, uid, now), uid)
  {
    var u := s.users[uid];
    if u.role == Customer && s.customers[uid].isVip && u.warningCount >= VIP_WARNING_LIMIT {
      assert OthersUnchanged(s, Revoked(s, uid), uid);
    } else if u.role == Customer && u.warningCount >= WARNING_LIMIT {
      TerminateChangesOnlyItsUser(s, uid, now);
    }
  }

  /** add_warning_to_user records the warning and touches no other user,
      no other customer, no employee and no order. */
  lemma WarningRecorded(s: Tables, uid: UserId, source: WarningSource, reason: string, now: Time)
    requires Registered(s, uid)
    ensures var s' := AddWarning(s, uid, source, reason, now);
      && s'.warnings == s.warnings + [Warning(uid, source, reason, now)]
      && OthersUnchanged(s, s', uid)
      && s'.employees == s.employees && s'.orders == s.orders
  {
    var s0 := Warned(s, uid, source, reason, now);
    HandleWarningChangesOnlyItsUser(s0, uid, now);
    OthersUnchangedChain(s, s0, HandleWarning(s0, uid, now), uid);
  }

  /** A warning to anyone but a customer only raises their count. */
  lemma WarningToOtherRole(s: Tables, uid: UserId, source: WarningSource, reason: string, now: Time)
    requires Registered(s, uid) && s.users[uid].role != Customer
    ensures var s' := AddWarning(s, uid, source, reason, now);
      var u := s.users[uid];
      s' == s.(warnings := s.warnings + [Warning(uid, source, reason, now)],
               users := s.users[uid := u.(warningCount := u.warningCount + 1)])
  {
  }

  /** A warning that does not terminate the customer: a VIP at two warnings
      loses VIP and restarts at zero, anyone else has the count raised; no
      money moves and nobody is blacklisted. */
  lemma WarningSparesCustomer(s: Tables, uid: UserId, source: WarningSource, reason: string, now: Time)
    requires Registered(s, uid) && s.users[uid].role == Customer
    requires !CustomerWarningResponse(s.customers[uid].isVip, s.users[uid].warningCount + 1).terminate
    ensures var s' := AddWarning(s, uid, source, reason, now);
      var u := s.users[uid];
      var c := s.customers[uid];
      var response := CustomerWarningResponse(c.isVip, u.warningCount + 1);
      && s'.users[uid] == u.(warningCount := response.warningCount)
      && s'.customers[uid] == c.(isVip := response.isVip)
      && s'.blacklist == s.blacklist && s'.refunds == s.refunds && s'.ledger == s.ledger
  {
  }

  /** A warning that terminates the customer: TERMINATED and blacklisted,
      the balance refunded to zero, email and phone listed. */
  lemma WarningTerminates(s: Tables, uid: UserId, source: WarningSource, reason: string, now: Time)
    requires Registered(s, uid) && s.users[uid].role == Customer && s.customers[uid].balance >= 0
    requires CustomerWarningResponse(s.customers[uid].isVip, s.users[uid].warningCount + 1).terminate
    ensures var s' := AddWarning(s, uid, source, reason, now);
      var u := s.users[uid];
      var c := s.customers[uid];
      && s'.users[uid] == u.(warningCount := u.warningCount + 1, status := Terminated, isBlacklisted := true)
      && s'.customers[uid] == c.(balance := 0)
      && Listed(s'.blacklist, u.email, u.phone)
      && s'.refunds == s.refunds + Refunded(uid, c.balance)
  {
    var s0 := Warned(s, uid, source, reason, now);
    assert HandleWarning(s0, uid, now) == Terminate(s0, uid, now);
    RefundEffects(s0, uid);
  }

  /** A warning that terminates a customer leaves them blacklisted, listed
      and holding at least three warnings, whatever their balance. */
  lemma CustomerWarningListed(s: Tables, uid: UserId, source: WarningSource, reason: string, now: Time)
    requires Registered(s, uid) && s.users[uid].role == Customer
    requires CustomerWarningResponse(s.customers[uid].isVip, s.users[uid].warningCount + 1).terminate
    ensures var s' := AddWarning(s, uid, source, reason, now);
      var u := s.users[uid];
      && s'.users[uid] == u.(warningCount := u.warningCount + 1, status := Terminated, isBlacklisted := true)
      && Listed(s'.blacklist, u.email, u.phone)
      && Registered(s', uid)
  {
    var s0 := Warned(s, uid, source, reason, now);
    assert HandleWarning(s0, uid, now) == Terminate(s0, uid, now);
  }

  /** check_warning_threshold: below three warnings, or for a manager,
      nothing changes. At three or more a customer is refunded, TERMINATED,
      blacklisted and listed, and a chef or delivery person is FIRED, their
      user TERMINATED and a TERMINATION memo "Too many warnings" recorded;
      no other user and no other account changes. */
  lemma ThresholdReached(s: Tables, uid: UserId, managerId: UserId, now: Time)
    requires Registered(s, uid)
    ensures var s' := CheckWarningThreshold(s, uid, managerId, now);
      var u := s.users[uid];
      && (u.warningCount < WARNING_LIMIT || u.role == Manager ==> s' == s)
      && (u.role == Customer && u.warningCount >= WARNING_LIMIT ==>
            && s'.users == s.users[uid := u.(status := Terminated, isBlacklisted := true)]
            && Listed(s'.blacklist, u.email, u.phone)
            && s'.refunds == s.refunds + Refunded(uid, s.customers[uid].balance)
            && s'.customers == s.customers[uid := s.customers[uid].(balance := if s.customers[uid].balance > 0 then 0 else s.customers[uid].balance)]
            && s'.employees == s.employees && s'.memos == s.memos)
      && (u.role.IsEmployee() && u.warningCount >= WARNING_LIMIT ==>
            && s'.employees == s.employees[uid := s.employees[uid].(employmentStatus := Fired)]
            && s'.users == s.users[uid := u.(status := Terminated)]
            && s'.memos == s.memos + [Memo(managerId, None, uid, Termination, "Too many warnings", now)]
            && s'.customers == s.customers && s'.blacklist == s.blacklist)
  {
  }

  /** A demotion cuts the salary to 80% and counts, and the performance memo
      is recorded; the demotion that brings the count to two fires the
      employee, whose user is TERMINATED with a TERMINATION memo "Max
      demotions". Otherwise no user changes. */
  lemma Demotion(s: Tables, emp: UserId, managerId: UserId, memoText: string, now: Time)
    requires IsManager(s.users, managerId) && emp in s.employees && emp in s.users
    ensures var r := ApplyDemotionOrBonus(s, emp, managerId, "DEMOTE", memoText, now);
      var e := s.employees[emp];
      var e' := r.state.employees[emp];
      && r.result == Ok
      && r.state.memos[|s.memos|] == Memo(managerId, None, emp, Performance("DEMOTE"), memoText, now)
      && e'.salary == e.salary * 0.8 && e'.demotionCount == e.demotionCount + 1
      && (e'.employmentStatus == Fired <==> e'.demotionCount >= MAX_DEMOTIONS)
      && (e'.employmentStatus != Fired ==> e'.employmentStatus == Demoted)
    ensures var r := ApplyDemotionOrBonus(s, emp, managerId, "DEMOTE", memoText, now);
      var e := s.employees[emp];
      var perf := Memo(managerId, None, emp, Performance("DEMOTE"), memoText, now);
      && (FiredAfterDemotion(e.demotionCount) ==>
            && r.state.users == s.users[emp := s.users[emp].(status := Terminated)]
            && r.state.memos == s.memos + [perf, Memo(managerId, None, emp, Termination, "Max demotions", now)])
      && (!FiredAfterDemotion(e.demotionCount) ==>
            r.state.users == s.users && r.state.memos == s.memos + [perf])
      && r.state.employees == s.employees[emp := e.(
           employmentStatus := if FiredAfterDemotion(e.demotionCount) then Fired else Demoted,
           demotionCount := e.demotionCount + 1, salary := e.salary * 0.8)]
  {
    var s1 := Appraise(s, emp, managerId, "DEMOTE", memoText, now);
    assert s1.employees[emp] == Appraised(s.employees[emp], "DEMOTE");
    assert s1.memos[|s.memos|] == Memo(managerId, None, emp, Performance("DEMOTE"), memoText, now);
  }

  /** A bonus raises the salary by 10% and touches no user; the performance
      memo is recorded. */
  lemma Bonus(s: Tables, emp: UserId, managerId: UserId, memoText: string, now: Time)
    requires IsManager(s.users, managerId) && emp in s.employees
    ensures var r := ApplyDemotionOrBonus(s, emp, managerId, "BONUS", memoText, now);
      var e := s.employees[emp];
      && r.result == Ok
      && r.state.memos == s.memos + [Memo(managerId, None, emp, Performance("BONUS"), memoText, now)]
      && r.state.employees == s.employees[emp := e.(salary := e.salary * 1.1)]
      && r.state.users == s.users
  {
  }

  /** A VIP stays VIP; a customer becomes VIP exactly when the upgrade rule
      says so, and then from `now`. */
  lemma VipUpgrade(s: Tables, cid: UserId, now: Time)
    requires cid in s.customers && cid in s.users
    ensures var c := s.customers[cid];
      var c' := CheckVipUpgrade(s, cid, now).customers[cid];
      && (c.isVip ==> c' == c)
      && (!c.isVip ==> (c'.isVip <==> VipUpgradeDue(c, s.users[cid], HasPendingComplaint(s.complaints, cid))))
      && (c'.isVip && !c.isVip ==> c'.vipActivatedAt == Some(now))
  {
  }

  /** Only a manager may close an account; a closed account is refunded to
      zero and CLOSED. */
  lemma CloseAccountEffects(s: Tables, managerId: UserId, cid: UserId)
    requires Solvent(s.customers)
    ensures var r := CloseCustomerAccount(s, managerId, cid);
      && (r.result == Fail(NoPermission) <==> !IsManager(s.users, managerId))
      && (r.result == Fail(NotFound) <==> IsManager(s.users, managerId) && (cid !in s.customers || cid !in s.users))
      && (r.result.Fail? ==> r.state == s)
      && (r.result.Ok? ==>
            && r.state.users[cid] == s.users[cid].(status := Closed)
            && r.state.customers[cid] == s.customers[cid].(balance := 0)
            && r.state.refunds == s.refunds + Refunded(cid, s.customers[cid].balance)
            && OthersUnchanged(s, r.state, cid))
  {
    if IsManager(s.users, managerId) && cid in s.customers && cid in s.users {
      RefundEffects(s, cid);
    }
  }

  // ---------------------------------------------------------------- the invariant is kept

  /** A refund moves the balance by exactly the payout the ledger records. */
  lemma RefundConserves(s: Tables, uid: UserId)
    requires uid in s.customers && uid !in s.employees
    requires Conserved(s.customers, s.employees, s.opening, s.ledger)
    ensures var s' := RefundBalance(s, uid); Conserved(s'.customers, s'.employees, s'.opening, s'.ledger)
  {
    var c := s.customers[uid];
    if c.balance > 0 {
      var m := Payout(uid, c.balance);
      var s' := RefundBalance(s, uid);
      assert s'.ledger == s.ledger + [m] && s'.opening == s.opening && s'.employees == s.employees;
      forall u | u in s'.customers
        ensures u in s'.opening && s'.customers[u].balance == s'.opening[u] + Net(s'.ledger, u)
      {
        NetAppend(s.ledger, m, u);
        if u != uid {
          assert s'.customers[u] == s.customers[u];
        }
      }
      forall u | u in s'.employees
        ensures u in s'.opening && s'.employees[u].balance == s'.opening[u] + Net(s'.ledger, u)
      {
        NetAppend(s.ledger, m, u);
      }
    }
  }

  /** A payout is backed and is no debit. */
  lemma RefundKeepsLedgerBacked(s: Tables, uid: UserId)
    requires uid in s.customers && LedgerBacked(s.ledger, s.orders)
    ensures var s' := RefundBalance(s, uid); LedgerBacked(s'.ledger, s'.orders)
  {
    var c := s.customers[uid];
    if c.balance > 0 {
      var m := Payout(uid, c.balance);
      var s' := RefundBalance(s, uid);
      forall o | o in s'.orders
        ensures DebitsOf(s'.ledger, o) == DebitsOf(s.ledger, o)
      {
        DebitsAppend(s.ledger, m, o);
      }
      forall i | 0 <= i < |s'.ledger|
        ensures Backed(s'.ledger[i], s'.orders)
      {
        if i < |s.ledger| {
          assert s'.ledger[i] == s.ledger[i];
        }
      }
    }
  }

  /** A refund keeps the books. */
  lemma RefundKeepsBooks(s: Tables, uid: UserId)
    requires Books(s) && uid in s.customers && uid !in s.employees
    ensures Books(RefundBalance(s, uid))
  {
    RefundConserves(s, uid);
    RefundKeepsLedgerBacked(s, uid);
  }

  /** A record change that leaves the balance alone keeps the books. */
  lemma BooksAfterCustomerUpdate(s: Tables, uid: UserId, nc: CustomerAccount)
    requires Books(s) && uid in s.customers && nc.balance == s.customers[uid].balance
    ensures Books(s.(customers := s.customers[uid := nc]))
  {
  }

  lemma BooksAfterEmployeeUpdate(s: Tables, uid: UserId, ne: Employee)
    requires Books(s) && uid in s.employees && ne.balance == s.employees[uid].balance
    ensures Books(s.(employees := s.employees[uid := ne]))
  {
  }

  lemma TerminateKeepsAccounts(s: Tables, uid: UserId, now: Time)
    requires AccountsConsistent(s.users, s.customers, s.employees) && uid in s.users && s.users[uid].role == Customer
    ensures var s' := Terminate(s, uid, now); AccountsConsistent(s'.users, s'.customers, s'.employees)
  {
    var u := s.users[uid];
    AccountsAfterUserUpdate(s.users, s.customers, s.employees, uid, u.(status := Terminated, isBlacklisted := true));
  }

  /** The terminated customer is blacklisted and listed, and a longer
      blacklist still lists everyone it listed. */
  lemma TerminateKeepsCascade(s: Tables, uid: UserId, now: Time)
    requires uid in s.users && uid in s.customers
    requires forall v :: v in s.users && v != uid ==> Disciplined(s.users[v], s.blacklist)
    ensures var s' := Terminate(s, uid, now); CascadeHolds(s'.users, s'.blacklist)
  {
    var s' := Terminate(s, uid, now);
    forall v | v in s'.users
      ensures Disciplined(s'.users[v], s'.blacklist)
    {
      if v != uid {
        assert Disciplined(s.users[v], s.blacklist);
      }
    }
  }

  lemma TerminateKeepsInv(s: Tables, uid: UserId, now: Time)
    requires Core(s) && uid in s.users && s.users[uid].role == Customer
    requires forall v :: v in s.users && v != uid ==> Disciplined(s.users[v], s.blacklist)
    ensures Inv(Terminate(s, uid, now))
  {
    RefundKeepsBooks(s, uid);
    TerminateKeepsAccounts(s, uid, now);
    TerminateKeepsCascade(s, uid, now);
  }

  lemma RevokedKeepsCore(s: Tables, uid: UserId)
    requires Core(s) && uid in s.users && uid in s.customers
    ensures Core(Revoked(s, uid))
  {
    var c := s.customers[uid];
    BooksAfterCustomerUpdate(s, uid, c.(isVip := false));
    AccountsAfterUserUpdate(s.users, s.customers, s.employees, uid, s.users[uid].(warningCount := 0));
  }

  lemma HandleWarningKeepsInv(s: Tables, uid: UserId, now: Time)
    requires Core(s) && Registered(s, uid)
    requires forall v :: v in s.users && v != uid ==> Disciplined(s.users[v], s.blacklist)
    requires s.users[uid].role != Customer ==> Disciplined(s.users[uid], s.blacklist)
    ensures Inv(HandleWarning(s, uid, now))
  {
    var u := s.users[uid];
    if u.role == Customer && s.customers[uid].isVip && u.warningCount >= VIP_WARNING_LIMIT {
      RevokedKeepsCore(s, uid);
      CascadeAfterUserUpdate(s.users, s.blacklist, uid, u.(warningCount := 0));
    } else if u.role == Customer && u.warningCount >= WARNING_LIMIT {
      TerminateKeepsInv(s, uid, now);
    } else {
      CascadeFromOthers(s.users, s.blacklist, uid);
    }
  }

  lemma WarnedKeepsCore(s: Tables, uid: UserId, source: WarningSource, reason: string, now: Time)
    requires Core(s) && uid in s.users
    ensures Core(Warned(s, uid, source, reason, now))
  {
    var u := s.users[uid];
    var nu := u.(warningCount := u.warningCount + 1);
    var w := Warned(s, uid, source, reason, now);
    AccountsAfterUserUpdate(s.users, s.customers, s.employees, uid, nu);
    assert w.users == s.users[uid := nu];
    assert Books(w) by {
      assert w.customers == s.customers && w.employees == s.employees && w.opening == s.opening;
      assert w.ledger == s.ledger && w.orders == s.orders;
    }
  }

  lemma AddWarningKeepsInv(s: Tables, uid: UserId, source: WarningSource, reason: string, now: Time)
    requires Inv(s) && uid in s.users
    ensures Registered(s, uid) && Inv(AddWarning(s, uid, source, reason, now))
  {
    var s0 := Warned(s, uid, source, reason, now);
    KnownIsRegistered(s, uid);
    WarnedKeepsCore(s, uid, source, reason, now);
    WarnedKeepsOthersDisciplined(s, uid, source, reason, now);
    HandleWarningKeepsInv(s0, uid, now);
  }

  lemma WarnedKeepsOthersDisciplined(s: Tables, uid: UserId, source: WarningSource, reason: string, now: Time)
    requires CascadeHolds(s.users, s.blacklist) && uid in s.users
    ensures var w := Warned(s, uid, source, reason, now);
      forall v :: v in w.users && v != uid ==> Disciplined(w.users[v], w.blacklist)
  {
    var w := Warned(s, uid, source, reason, now);
    assert w.blacklist == s.blacklist;
    forall v | v in w.users && v != uid
      ensures Disciplined(w.users[v], w.blacklist)
    {
      assert w.users[v] == s.users[v];
    }
  }

  lemma FireKeepsCore(s: Tables, emp: UserId, reason: string, managerId: UserId, now: Time)
    requires Core(s) && emp in s.employees && emp in s.users
    ensures Core(Fire(s, emp, reason, managerId, now))
  {
    var e := s.employees[emp];
    var u := s.users[emp];
    BooksAfterEmployeeUpdate(s, emp, e.(employmentStatus := Fired));
    AccountsAfterUserUpdate(s.users, s.customers, s.employees, emp, u.(status := Terminated));
    MemoKeepsSelectionsJustified(s.bids, s.memos, Memo(managerId, None, emp, Termination, reason, now));
  }

  lemma FireKeepsInv(s: Tables, emp: UserId, reason: string, managerId: UserId, now: Time)
    requires Inv(s) && emp in s.employees
    ensures emp in s.users && Inv(Fire(s, emp, reason, managerId, now))
  {
    FireKeepsCore(s, emp, reason, managerId, now);
    CascadeAfterUserUpdate(s.users, s.blacklist, emp, s.users[emp].(status := Terminated));
  }

  lemma CheckWarningThresholdKeepsInv(s: Tables, uid: UserId, managerId: UserId, now: Time)
    requires Inv(s) && uid in s.users
    ensures Registered(s, uid) && Inv(CheckWarningThreshold(s, uid, managerId, now))
  {
    var u := s.users[uid];
    if u.role == Customer && u.warningCount >= WARNING_LIMIT {
      TerminateKeepsInv(s, uid, now);
    } else if u.role.IsEmployee() && u.warningCount >= WARNING_LIMIT {
      FireKeepsInv(s, uid, "Too many warnings", managerId, now);
    }
  }

  lemma AppraiseKeepsInv(s: Tables, emp: UserId, managerId: UserId, action: string, memoText: string, now: Time)
    requires Inv(s) && emp in s.employees
    ensures Inv(Appraise(s, emp, managerId, action, memoText, now))
  {
    var e := s.employees[emp];
    BooksAfterEmployeeUpdate(s, emp, Appraised(e, action));
    MemoKeepsSelectionsJustified(s.bids, s.memos, Memo(managerId, None, emp, Performance(action), memoText, now));
  }

  lemma ApplyDemotionOrBonusKeepsInv(s: Tables, emp: UserId, managerId: UserId, action: string, memoText: string, now: Time)
    requires Inv(s)
    ensures Inv(ApplyDemotionOrBonus(s, emp, managerId, action, memoText, now).state)
  {
    if IsManager(s.users, managerId) && emp in s.employees {
      var s1 := Appraise(s, emp, managerId, action, memoText, now);
      AppraiseKeepsInv(s, emp, managerId, action, memoText, now);
      if action == "DEMOTE" && FiredAfterDemotion(s.employees[emp].demotionCount) {
        FireKeepsInv(s1, emp, "Max demotions", managerId, now);
      }
    }
  }

  lemma CheckVipUpgradeKeepsInv(s: Tables, cid: UserId, now: Time)
    requires Inv(s) && cid in s.customers
    ensures cid in s.users && Inv(CheckVipUpgrade(s, cid, now))
  {
    var c := s.customers[cid];
    BooksAfterCustomerUpdate(s, cid, c.(isVip := true, vipActivatedAt := Some(now)));
  }

  lemma ClosedAccountKeepsBooks(s: Tables, cid: UserId)
    requires Books(s) && cid in s.customers && cid in s.users && cid !in s.employees
    ensures Books(ClosedAccount(s, cid))
  {
    var r := RefundBalance(s, cid);
    var s' := ClosedAccount(s, cid);
    RefundKeepsBooks(s, cid);
    assert s'.customers == r.customers && s'.employees == r.employees && s'.opening == r.opening;
    assert s'.ledger == r.ledger && s'.orders == r.orders;
  }

  lemma ClosedAccountKeepsAccounts(s: Tables, cid: UserId)
    requires AccountsConsistent(s.users, s.customers, s.employees) && cid in s.customers && cid in s.users
    ensures var s' := ClosedAccount(s, cid); AccountsConsistent(s'.users, s'.customers, s'.employees)
  {
    var u := s.users[cid];
    AccountsAfterUserUpdate(s.users, s.customers, s.employees, cid, u.(status := Closed));
  }

  lemma ClosedAccountKeepsInv(s: Tables, cid: UserId)
    requires Inv(s) && cid in s.customers
    ensures cid in s.users && Inv(ClosedAccount(s, cid))
  {
    var u := s.users[cid];
    ClosedAccountKeepsBooks(s, cid);
    ClosedAccountKeepsAccounts(s, cid);
    CascadeAfterUserUpdate(s.users, s.blacklist, cid, u.(status := Closed));
  }

  lemma CloseCustomerAccountKeepsInv(s: Tables, managerId: UserId, cid: UserId)
    requires Inv(s)
    ensures Inv(CloseCustomerAccount(s, managerId, cid).state)
  {
    if IsManager(s.users, managerId) && cid in s.customers && cid in s.users {
      ClosedAccountKeepsInv(s, cid);
    }
  }
}

=== FILE: discipline.dfy ===
/** The decisions of the discipline rules: how a customer's account reacts
    to one more warning, when a customer becomes VIP, how an employee's
    ratings, complaints and compliments turn into a demotion or bonus
    recommendation, and when demotions end in firing. */
module Discipline {
  import opened Domain

  /** Warnings at which a customer is terminated or an employee fired. */
  const WARNING_LIMIT: nat := 3

  /** Warnings at which a VIP loses VIP status instead. */
  const VIP_WARNING_LIMIT: nat := 2

  /** Spending above which a customer qualifies for VIP: 100.00, in cents. */
  const VIP_SPEND_THRESHOLD: Cents := 10000

  /** Orders at which a customer without warnings qualifies for VIP. */
  const VIP_ORDER_THRESHOLD: nat := 3

  /** Demotions at which an employee is fired. */
  const MAX_DEMOTIONS: nat := 2

  // ---------------------------------------------------------------- customer warnings

  /** A customer's VIP flag and warning count after the warning handler has
      run, and whether it goes on to terminate and blacklist the account. */
  datatype WarningResponse = WarningResponse(isVip: bool, warningCount: nat, terminate: bool)

  /** handle_warning_added_to_customer, given the VIP flag and the already
      incremented warning count: first a VIP at two warnings loses VIP and
      starts again from zero, then a count of three or more terminates. */
  function CustomerWarningResponse(isVip: bool, count: nat): (r: WarningResponse)
    ensures r.terminate <==> !isVip && count >= WARNING_LIMIT
    ensures r.isVip <==> isVip && count < VIP_WARNING_LIMIT
    ensures r.warningCount <= count
    ensures r.warningCount < WARNING_LIMIT || r.terminate
  {
    var (vip, n) := if isVip && count >= VIP_WARNING_LIMIT then (false, 0) else (isVip, count);
    WarningResponse(vip, n, n >= WARNING_LIMIT)
  }

  /** Warnings added one at a time to a customer with the given VIP flag and
      count, stopping at termination: the VIP and count afterwards, and
      whether the account was terminated. */
  function AfterWarnings(isVip: bool, count: nat, k: nat): (r: WarningResponse)
    ensures r.terminate || r.warningCount < WARNING_LIMIT || (k == 0 && count >= WARNING_LIMIT)
    decreases k
  {
    if k == 0 then WarningResponse(isVip, count, false)
    else
      var step := CustomerWarningResponse(isVip, count + 1);
      if step.terminate then step
      else AfterWarnings(step.isVip, step.warningCount, k - 1)
  }

  /** A customer who is not VIP and has c warnings (c below the limit)
      survives fewer than 3 − c further warnings and is terminated by the
      3 − c-th. */
  lemma {:induction false} WarningsToTermination(count: nat, k: nat)
    requires count < WARNING_LIMIT
    ensures AfterWarnings(false, count, k).terminate <==> count + k >= WARNING_LIMIT
    decreases k
  {
    if k > 0 && count + 1 < WARNING_LIMIT {
      WarningsToTermination(count + 1, k - 1);
    }
  }

  /** A VIP gets a second chance: a VIP with c warnings (c below two) first
      loses VIP status at the (2 − c)-th further warning, starting again
      from zero, and is then terminated by exactly the third warning after
      that, so by the (2 − c + 3)-th further warning in all. */
  lemma {:induction false} VipSecondChance(count: nat, k: nat)
    requires count < VIP_WARNING_LIMIT
    ensures AfterWarnings(true, count, k).terminate <==> k >= (VIP_WARNING_LIMIT - count) + WARNING_LIMIT
    decreases k
  {
    if k > 0 {
      if count + 1 < VIP_WARNING_LIMIT {
        VipSecondChance(count + 1, k - 1);
      } else {
        WarningsToTermination(0, k - 1);
      }
    }
  }

  // ---------------------------------------------------------------- VIP upgrade

  /** check_vip_upgrade's decision: a customer who is not yet VIP, whose
      account is ACTIVE and who has no pending complaint becomes VIP when
      they have spent more than 100.00, or have three orders and no warning. */
  function VipUpgradeDue(c: CustomerAccount, u: User, hasPendingComplaint: bool): (due: bool)
    ensures due ==> !c.isVip && u.status == Active && !hasPendingComplaint
    ensures !c.isVip && u.status == Active && !hasPendingComplaint && c.totalSpent > VIP_SPEND_THRESHOLD ==> due
    ensures (!c.isVip && u.status == Active && !hasPendingComplaint
             && c.totalOrders >= VIP_ORDER_THRESHOLD && u.warningCount == 0) ==> due
    ensures due ==> c.totalSpent > VIP_SPEND_THRESHOLD || (c.totalOrders >= VIP_ORDER_THRESHOLD && u.warningCount == 0)
  {
    if c.isVip || u.status != Active || hasPendingComplaint then false
    else
      var bigSpender := c.totalSpent > VIP_SPEND_THRESHOLD;
      var loyalAndClean := c.totalOrders >= VIP_ORDER_THRESHOLD && u.warningCount == 0;
      bigSpender || loyalAndClean
  }

  // ---------------------------------------------------------------- employee evaluation

  /** One rating an employee received: its weight (2 from a VIP, 1
      otherwise) and its score. */
  datatype Score = Score(weight: nat, value: int)

  function TotalWeight(s: seq<Score>): nat {
    if s == [] then 0 else TotalWeight(s[..|s| - 1]) + s[|s| - 1].weight
  }

  function WeightedSum(s: seq<Score>): int {
    if s == [] then 0 else WeightedSum(s[..|s| - 1]) + s[|s| - 1].weight * s[|s| - 1].value
  }

  predicate PositiveWeights(s: seq<Score>) {
    forall i :: 0 <= i < |s| ==> s[i].weight > 0
  }

  /** The weighted average Σ(weight × value) / Σ weight, exactly. */
  function WeightedAverage(s: seq<Score>): real
    requires TotalWeight(s) > 0
  {
    WeightedSum(s) as real / TotalWeight(s) as real
  }

  lemma {:induction false} TotalWeightPositive(s: seq<Score>)
    requires s != [] && PositiveWeights(s)
    ensures TotalWeight(s) > 0
  {
    if |s| > 1 {
      TotalWeightPositive(s[..|s| - 1]);
    }
  }

  /** With every score between 1 and 5, so is the weighted average. */
  lemma {:induction false} WeightedSumBounds(s: seq<Score>)
    requires forall i :: 0 <= i < |s| ==> 1 <= s[i].value <= 5
    ensures TotalWeight(s) <= WeightedSum(s) <= 5 * TotalWeight(s)
  {
    if s != [] {
      var last := s[|s| - 1];
      WeightedSumBounds(s[..|s| - 1]);
      assert last.weight <= last.weight * last.value <= 5 * last.weight;
    }
  }

  lemma AverageWithinScale(s: seq<Score>)
    requires forall i :: 0 <= i < |s| ==> 1 <= s[i].value <= 5
    requires TotalWeight(s) > 0
    ensures 1.0 <= WeightedAverage(s) <= 5.0
  {
    WeightedSumBounds(s);
    QuotientComparison(WeightedSum(s), TotalWeight(s), 1);
    QuotientComparison(WeightedSum(s), TotalWeight(s), 5);
  }

  /** a / w against k, for a positive w, is a against k × w. */
  lemma QuotientComparison(a: int, w: int, k: int)
    requires w > 0
    ensures (a as real / w as real < k as real) <==> a < k * w
    ensures (a as real / w as real > k as real) <==> a > k * w
  {
    var q := a as real / w as real;
    assert q * w as real == a as real;
    assert (k * w) as real == k as real * w as real;
    if q < k as real {
      assert q * w as real < k as real * w as real;
    }
    if q > k as real {
      assert q * w as real > k as real * w as real;
    }
    if q >= k as real {
      assert q * w as real >= k as real * w as real;
    }
    if q <= k as real {
      assert q * w as real <= k as real * w as real;
    }
  }

  /** Comparing the weighted average with a threshold is comparing the
      weighted sum with the threshold times the total weight; the model
      decides with the latter and loses nothing by it. */
  lemma AverageComparison(s: seq<Score>, k: int)
    requires TotalWeight(s) > 0
    ensures WeightedAverage(s) < k as real <==> WeightedSum(s) < k * TotalWeight(s)
    ensures WeightedAverage(s) > k as real <==> WeightedSum(s) > k * TotalWeight(s)
  {
    QuotientComparison(WeightedSum(s), TotalWeight(s), k);
  }

  datatype Recommendation = NoRatings | Demote | Bonus | NoAction

  /** complaints − compliments, but never below zero. */
  function NetComplaints(upheld: nat, compliments: nat): nat {
    if upheld > compliments then upheld - compliments else 0
  }

  /** evaluate_employee's decision: nothing without ratings; demotion when
      the weighted average is below 2 or net complaints reach 3; otherwise a
      bonus when the average is above 4 or compliments reach 3. */
  function Evaluate(scores: seq<Score>, upheld: nat, compliments: nat): (r: Recommendation)
    requires PositiveWeights(scores)
    ensures r == NoRatings <==> scores == []
    ensures r == Demote <==>
      scores != [] && (WeightedSum(scores) < 2 * TotalWeight(scores) || NetComplaints(upheld, compliments) >= 3)
    ensures r == Bonus ==> compliments >= 3 || WeightedSum(scores) > 4 * TotalWeight(scores)
  {
    if scores == [] then NoRatings
    else if WeightedSum(scores) < 2 * TotalWeight(scores) || NetComplaints(upheld, compliments) >= 3 then Demote
    else if WeightedSum(scores) > 4 * TotalWeight(scores) || compliments >= 3 then Bonus
    else NoAction
  }

  /** The recommendation stated on the averages themselves. */
  lemma EvaluateByAverage(scores: seq<Score>, upheld: nat, compliments: nat)
    requires scores != [] && PositiveWeights(scores)
    ensures TotalWeight(scores) > 0
    ensures Evaluate(scores, upheld, compliments) == Demote <==>
      WeightedAverage(scores) < 2.0 || NetComplaints(upheld, compliments) >= 3
    ensures Evaluate(scores, upheld, compliments) == Bonus <==>
      !(WeightedAverage(scores) < 2.0 || NetComplaints(upheld, compliments) >= 3)
      && (WeightedAverage(scores) > 4.0 || compliments >= 3)
  {
    TotalWeightPositive(scores);
    AverageComparison(scores, 2);
    AverageComparison(scores, 4);
  }

  /** A demotion that brings the count to two fires the employee. */
  function FiredAfterDemotion(demotionCount: nat): bool {
    demotionCount + 1 >= MAX_DEMOTIONS
  }

  // ---------------------------------------------------------------- blacklist

  /** is_blacklisted: the email or the phone appears in some entry. */
  predicate Listed(blacklist: seq<BlacklistEntry>, email: string, phone: string) {
    exists i :: 0 <= i < |blacklist| && (blacklist[i].email == email || blacklist[i].phone == phone)
  }

  /** add_to_blacklist: a new entry only when neither the email nor the
      phone is already listed. */
  function AddEntry(blacklist: seq<BlacklistEntry>, email: string, phone: string, now: Time): (r: seq<BlacklistEntry>)
    ensures Listed(r, email, phone)
    ensures |blacklist| <= |r| <= |blacklist| + 1
    ensures r[..|blacklist|] == blacklist
    ensures forall e, p :: Listed(blacklist, e, p) ==> Listed(r, e, p)
  {
    if Listed(blacklist, email, phone) then blacklist
    else
      var r := blacklist + [BlacklistEntry(email, phone, now)];
      assert r[|blacklist|].email == email;
      r
  }

  /** The warning cascade's guarantee for one user: a customer with three
      or more warnings is blacklisted, not ACTIVE, and listed by email or
      phone. */
  predicate Disciplined(u: User, blacklist: seq<BlacklistEntry>) {
    u.role == Customer && u.warningCount >= WARNING_LIMIT ==>
      u.isBlacklisted && u.status != Active && Listed(blacklist, u.email, u.phone)
  }

  /** Adding the same contact twice leaves the blacklist as adding it once. */
  lemma AddEntryIdempotent(blacklist: seq<BlacklistEntry>, email: string, phone: string, now: Time, later: Time)
    ensures AddEntry(AddEntry(blacklist, email, phone, now), email, phone, later) == AddEntry(blacklist, email, phone, now)
  {
  }

  /** Adding one contact lists no other contact that shares neither its
      email nor its phone. */
  lemma AddEntryListsOnlyItsContact(blacklist: seq<BlacklistEntry>, email: string, phone: string, now: Time, e: string, p: string)
    requires e != email && p != phone
    ensures Listed(AddEntry(blacklist, email, phone, now), e, p) <==> Listed(blacklist, e, p)
  {
    var r := AddEntry(blacklist, email, phone, now);
    if Listed(r, e, p) {
      var i :| 0 <= i < |r| && (r[i].email == e || r[i].phone == p);
      assert i < |blacklist|;
    }
  }
}

=== FILE: domain.dfy ===
/** Records, enumerations and result types shared by the restaurant back end:
    users and their role-specific accounts, orders and their items, delivery
    bids and bidding windows, warnings, memos, complaints, ratings, the
    blacklist and the knowledge base. Money is held in integer cents;
    timestamps are opaque values supplied by the caller. */
module Domain {

  type UserId = nat
  type OrderId = nat
  type ItemId = nat
  type KbId = nat

  /** An opaque timestamp ("current timestamp" in the source). */
  type Time = nat

  /** An amount of money in cents. */
  type Cents = int

  datatype Option<T> = None | Some(value: T)

  // ---------------------------------------------------------------- users

  datatype Role = Customer | Chef | DeliveryPerson | Manager
  {
    /** Chefs and delivery persons are employees; they have an Employee record. */
    predicate IsEmployee() { this == Chef || this == DeliveryPerson }
  }

  /** Account status. `Suspended` is the state an upheld critical complaint
      puts a user in; every other value is one the source names. */
  datatype UserStatus = Pending | Active | Rejected | Terminated | Closed | Suspended

  datatype User = User(
    role: Role,
    status: UserStatus,
    warningCount: nat,
    isBlacklisted: bool,
    email: string,
    phone: string)

  datatype CustomerAccount = CustomerAccount(
    balance: Cents,
    totalOrders: nat,
    totalSpent: Cents,
    isVip: bool,
    vipActivatedAt: Option<Time>)

  datatype EmploymentStatus = Employed | Demoted | Fired

  /** A chef or delivery person. Salary is exact (a real number), because
      demotion and bonus scale it by 0.8 and 1.1. */
  datatype Employee = Employee(
    employmentStatus: EmploymentStatus,
    demotionCount: nat,
    salary: real,
    balance: Cents)

  // ---------------------------------------------------------------- catalog and orders

  /** A catalog entry. The average rating is an exact rational number of stars. */
  datatype MenuItem = MenuItem(
    chefId: UserId,
    price: nat,
    isAvailable: bool,
    isVipOnly: bool,
    averageRating: real)

  datatype CartItem = CartItem(itemId: ItemId, quantity: nat)

  datatype OrderStatus = Placed | AwaitingBids | ReadyForDelivery | OutForDelivery | Delivered

  /** An order. `discountBp` is the discount rate applied, in basis points
      (500 for a VIP, 0 otherwise). */
  datatype Order = Order(
    customerId: UserId,
    status: OrderStatus,
    totalPrice: Cents,
    discountBp: nat,
    isFreeDelivery: bool,
    deliveryPrice: Cents,
    deliveryId: Option<UserId>,
    createdAt: Time,
    pickedUpAt: Option<Time>,
    deliveredAt: Option<Time>)

  /** One line of an order; `unitPrice` is the catalog price at placement time. */
  datatype OrderItem = OrderItem(orderId: OrderId, itemId: ItemId, quantity: nat, unitPrice: nat)

  // ---------------------------------------------------------------- auction

  datatype Bid = Bid(
    orderId: OrderId,
    deliveryId: UserId,
    amount: Cents,
    etaMinutes: int,
    createdAt: Time,
    isSelected: bool)

  datatype Window = Window(openedAt: Time, durationMinutes: nat, closed: bool)

  // ---------------------------------------------------------------- discipline

  datatype WarningSource = OrderSource | ComplaintSource

  datatype Warning = Warning(userId: UserId, source: WarningSource, reason: string, createdAt: Time)

  datatype MemoType = DeliveryBidOverride | Performance(action: string) | Termination

  datatype Memo = Memo(
    managerId: UserId,
    orderId: Option<OrderId>,
    employeeId: UserId,
    memoType: MemoType,
    content: string,
    createdAt: Time)

  datatype ComplaintStatus = ComplaintPending | Upheld | Dismissed

  datatype Complaint = Complaint(
    fromUserId: UserId,
    againstUserId: UserId,
    targetType: string,
    complaintType: string,
    description: string,
    orderId: OrderId,
    status: ComplaintStatus,
    createdAt: Time,
    weight: nat,
    managerId: Option<UserId>,
    decisionNote: string,
    resolvedAt: Option<Time>)

  datatype Compliment = Compliment(fromUserId: UserId, toUserId: UserId, comment: string, orderId: OrderId, createdAt: Time)

  /** A rating of a delivered order: a food score and a delivery score,
      weighted 2 when the rater is a VIP and 1 otherwise. */
  datatype Rating = Rating(
    orderId: OrderId,
    deliveryId: Option<UserId>,
    raterId: UserId,
    food: int,
    delivery: int,
    weight: nat,
    comment: string,
    createdAt: Time)

  datatype BlacklistEntry = BlacklistEntry(email: string, phone: string, createdAt: Time)

  // ---------------------------------------------------------------- knowledge base

  /** A knowledge-base answer. Its average rating is kept as the exact pair
      (sum of ratings, number of ratings); `flagCount` counts zero ratings. */
  datatype KbEntry = KbEntry(ratingSum: int, ratingCount: nat, flagCount: nat, isActive: bool, updatedAt: Time)

  datatype KbRating = KbRating(userId: UserId, kbId: KbId, value: int, createdAt: Time)

  // ---------------------------------------------------------------- effects and results

  /** Fire-and-forget messages: the broadcast of a new order to delivery
      persons and what the manager's inbox receives. */
  datatype Notification =
    | NewOrderBroadcast(orderId: OrderId)
    | SortedBidsToManager(orderId: OrderId, bids: seq<Bid>)
    | RecommendDemotion(employeeId: UserId)
    | RecommendBonus(employeeId: UserId)

  /** A refund issued through the payment gateway. */
  datatype Refund = Refund(customerId: UserId, amount: Cents)

  datatype Failure =
    | AccountInactive
    | AccountSuspended
    | ItemUnavailable
    | NotEnoughBalance
    | WindowClosed
    | NotAccepting
    | NoPermission
    | NoDeliveryPerson
    | MemoNeeded
    | NotAssigned
    | NotYourOrder
    | NotDelivered
    | AlreadyRated
    | InvalidRating
    | NotFound
    | AlreadyHandled

  datatype Outcome = Ok | Fail(failure: Failure)

  datatype Result<T> = Success(value: T) | Error(failure: Failure)
}

=== FILE: feedback.dfy ===
/** Ratings, complaints and compliments on the whole state: a customer rates
    a delivered order (weighted 2 for a VIP), which re-evaluates the
    delivery person; complaints and compliments are filed; and the manager
    resolves a complaint, an upheld one warning the user it was against. */
module Feedback {
  import opened Domain
  import opened Discipline
  import opened Reputation
  import opened StoreState
  import opened Cascade

  /** A rating's or complaint's weight: 2 from a VIP customer, 1 otherwise. */
  function WeightOf(s: Tables, uid: UserId): (w: nat)
    ensures w == 1 || w == 2
    ensures w == 2 <==> uid in s.customers && s.customers[uid].isVip
  {
    if uid in s.customers && s.customers[uid].isVip then 2 else 1
  }

  /** evaluate_employee: the manager is told to demote or to reward `emp`,
      or told nothing. */
  function EvaluateEmployee(s: Tables, emp: UserId): (s': Tables)
    requires RatingsWeighted(s.ratings)
    ensures s' == s.(outbox := s'.outbox)
  {
    s.(outbox := s.outbox + Notice(emp, Evaluation(s, emp)))
  }

  /** submit_order_rating: only the order's customer, only once it is
      DELIVERED, only once, and only with both scores within 1..5. The
      rating is recorded with the delivery person of the order, and that
      delivery person is evaluated afresh. */
  function SubmitOrderRating(s: Tables, cid: UserId, o: OrderId, food: int, delivery: int, comment: string, now: Time): (r: Step<Outcome>)
    requires RatingsWeighted(s.ratings)
    ensures r.state == s.(ratings := r.state.ratings, outbox := r.state.outbox)
  {
    if o !in s.orders then Step(s, Fail(NotFound))
    else
      var order := s.orders[o];
      if order.customerId != cid then Step(s, Fail(NotYourOrder))
      else if order.status != Delivered then Step(s, Fail(NotDelivered))
      else if Rated(s.ratings, o) then Step(s, Fail(AlreadyRated))
      else if food < 1 || food > 5 || delivery < 1 || delivery > 5 then Step(s, Fail(InvalidRating))
      else
        var s1 := s.(ratings := s.ratings + [Rating(o, order.deliveryId, cid, food, delivery, WeightOf(s, cid), comment, now)]);
        if order.deliveryId.Some? then Step(EvaluateEmployee(s1, order.deliveryId.value), Ok)
        else Step(s1, Ok)
  }

  /** file_complaint: a pending complaint, stamped now and weighted by the
      filer's VIP status. */
  function FileComplaint(s: Tables, from: UserId, against: UserId, targetType: string, complaintType: string,
                         description: string, o: OrderId, now: Time): (r: Step<Outcome>)
    ensures r.state == s.(complaints := r.state.complaints)
  {
    if from !in s.users then Step(s, Fail(NotFound))
    else
      Step(s.(complaints := s.complaints + [Complaint(from, against, targetType, complaintType, description, o,
                                                      ComplaintPending, now, WeightOf(s, from), None, "", None)]), Ok)
  }

  /** file_compliment. */
  function FileCompliment(s: Tables, from: UserId, to: UserId, comment: string, o: OrderId, now: Time): (s': Tables)
    ensures s' == s.(compliments := s'.compliments)
    ensures s'.compliments == s.compliments + [Compliment(from, to, comment, o, now)]
  {
    s.(compliments := s.compliments + [Compliment(from, to, comment, o, now)])
  }

  /** A compliment counts once towards the evaluation of the user it names
      and towards no one else's. */
  lemma ComplimentCounted(s: Tables, from: UserId, to: UserId, comment: string, o: OrderId, now: Time, emp: UserId)
    ensures ComplimentsTo(FileCompliment(s, from, to, comment, o, now).compliments, emp)
         == ComplimentsTo(s.compliments, emp) + (if emp == to then 1 else 0)
  {
    var added := s.compliments + [Compliment(from, to, comment, o, now)];
    assert added[..|added| - 1] == s.compliments;
  }

  /** The user an upheld critical complaint was against, suspended at once. */
  function Suspend(s: Tables, uid: UserId): (s': Tables)
    requires uid in s.users
    ensures s' == s.(users := s'.users)
    ensures SameAccounts(s, s')
  {
    s.(users := s.users[uid := s.users[uid].(status := Suspended)])
  }

  /** What upholding a complaint does to the user it was against: a
      COMPLAINT warning with the complaint type as reason, the warning
      threshold checked, and a suspension when the complaint is critical. */
  function Sanctioned(s: Tables, uid: UserId, reason: string, managerId: UserId, critical: bool, now: Time): (s': Tables)
    requires Registered(s, uid)
    ensures SameAccounts(s, s')
  {
    var warned := AddWarning(s, uid, ComplaintSource, reason, now);
    var checked := CheckWarningThreshold(warned, uid, managerId, now);
    if critical then Suspend(checked, uid) else checked
  }

  /** The complaint as the manager decided it. */
  function Decided(c: Complaint, managerId: UserId, uphold: bool, note: string, now: Time): (d: Complaint)
    ensures d.status != ComplaintPending
  {
    c.(status := if uphold then Upheld else Dismissed, managerId := Some(managerId), decisionNote := note, resolvedAt := Some(now))
  }

  /** resolve_complaint: manager only, an existing complaint, still pending.
      Dismissed complaints change nothing else. An upheld complaint warns
      the user it was against (reason: the complaint type), checks their
      warning threshold and, when critical, suspends them. */
  function ResolveComplaint(s: Tables, managerId: UserId, k: nat, uphold: bool, note: string, critical: bool, now: Time): (r: Step<Outcome>)
  {
    if !IsManager(s.users, managerId) then Step(s, Fail(NoPermission))
    else if k >= |s.complaints| then Step(s, Fail(NotFound))
    else if s.complaints[k].status != ComplaintPending then Step(s, Fail(AlreadyHandled))
    else
      var c := s.complaints[k];
      var decided := s.complaints[k := Decided(c, managerId, uphold, note, now)];
      if !uphold then Step(s.(complaints := decided), Ok)
      else if !Registered(s, c.againstUserId) then Step(s, Fail(NotFound))
      else Step(Sanctioned(s, c.againstUserId, c.complaintType, managerId, critical, now).(complaints := decided), Ok)
  }

  // ---------------------------------------------------------------- what the operations do

  /** submit_order_rating refuses, in this order, an unknown order, another
      customer's order, an order not DELIVERED, an order already rated and
      a score outside 1..5; a refusal changes nothing. */
  lemma RatingRefusals(s: Tables, cid: UserId, o: OrderId, food: int, delivery: int, comment: string, now: Time)
    requires RatingsWeighted(s.ratings)
    ensures var r := SubmitOrderRating(s, cid, o, food, delivery, comment, now);
      && (r.result == Fail(NotFound) <==> o !in s.orders)
      && (r.result == Fail(NotYourOrder) <==> o in s.orders && s.orders[o].customerId != cid)
      && (r.result == Fail(NotDelivered) <==>
            o in s.orders && s.orders[o].customerId == cid && s.orders[o].status != Delivered)
      && (r.result == Fail(AlreadyRated) <==>
            o in s.orders && s.orders[o].customerId == cid && s.orders[o].status == Delivered && Rated(s.ratings, o))
      && (r.result.Ok? <==>
            && o in s.orders && s.orders[o].customerId == cid && s.orders[o].status == Delivered
            && !Rated(s.ratings, o) && 1 <= food <= 5 && 1 <= delivery <= 5)
      && (r.result.Fail? ==> r.state == s)
  {
  }

  /** An accepted rating is appended, weighted 2 from a VIP and 1
      otherwise, and names the order's delivery person; the manager is
      then told that delivery person's evaluation, which already counts
      the new rating. */
  lemma RatingAccepted(s: Tables, cid: UserId, o: OrderId, food: int, delivery: int, comment: string, now: Time)
    requires RatingsWeighted(s.ratings)
    requires o in s.orders && s.orders[o].customerId == cid && s.orders[o].status == Delivered
    requires !Rated(s.ratings, o) && 1 <= food <= 5 && 1 <= delivery <= 5
    ensures var r := SubmitOrderRating(s, cid, o, food, delivery, comment, now);
      var dp := s.orders[o].deliveryId;
      && r.result == Ok && RatingsWeighted(r.state.ratings)
      && r.state.ratings == s.ratings + [Rating(o, dp, cid, food, delivery, WeightOf(s, cid), comment, now)]
      && r.state.outbox == s.outbox + (if dp.Some? then Notice(dp.value, Evaluation(r.state, dp.value)) else [])
  {
    var r := SubmitOrderRating(s, cid, o, food, delivery, comment, now);
    var dp := s.orders[o].deliveryId;
    var s1 := s.(ratings := s.ratings + [Rating(o, dp, cid, food, delivery, WeightOf(s, cid), comment, now)]);
    assert RatingsWeighted(s1.ratings);
    if dp.Some? {
      assert r.state == EvaluateEmployee(s1, dp.value);
      assert Evaluation(r.state, dp.value) == Evaluation(s1, dp.value) by {
        assert r.state.ratings == s1.ratings && r.state.orderItems == s1.orderItems && r.state.menu == s1.menu;
        assert r.state.complaints == s1.complaints && r.state.compliments == s1.compliments;
      }
    }
  }

  /** An order is rated at most once: once a rating is accepted, every
      further rating of the order is refused. */
  lemma RatedOnce(s: Tables, cid: UserId, o: OrderId, food: int, delivery: int, comment: string, now: Time,
                  cid2: UserId, food2: int, delivery2: int, comment2: string, later: Time)
    requires RatingsWeighted(s.ratings)
    requires SubmitOrderRating(s, cid, o, food, delivery, comment, now).result == Ok
    ensures var s1 := SubmitOrderRating(s, cid, o, food, delivery, comment, now).state;
      RatingsWeighted(s1.ratings) && SubmitOrderRating(s1, cid2, o, food2, delivery2, comment2, later).result.Fail?
  {
    var s1 := SubmitOrderRating(s, cid, o, food, delivery, comment, now).state;
    RatingAccepted(s, cid, o, food, delivery, comment, now);
    assert s1.ratings[|s.ratings|].orderId == o;
  }

  /** file_complaint from an unknown user is refused; otherwise one PENDING
      complaint, stamped now and weighted 2 from a VIP and 1 otherwise, is
      appended with the details given, so a complaint is pending against
      its target. */
  lemma ComplaintFiled(s: Tables, from: UserId, against: UserId, targetType: string, complaintType: string,
                       description: string, o: OrderId, now: Time)
    ensures var r := FileComplaint(s, from, against, targetType, complaintType, description, o, now);
      && (r.result.Ok? <==> from in s.users)
      && (r.result.Fail? ==> r.state == s)
      && (r.result.Ok? ==>
            && r.state.complaints == s.complaints + [Complaint(from, against, targetType, complaintType, description, o,
                                                               ComplaintPending, now, WeightOf(s, from), None, "", None)]
            && HasPendingComplaint(r.state.complaints, against))
  {
    var r := FileComplaint(s, from, against, targetType, complaintType, description, o, now);
    if from in s.users {
      assert r.state.complaints[|s.complaints|].againstUserId == against;
    }
  }

  /** resolve_complaint refuses, in this order, a caller who is not a
      manager, an unknown complaint and a complaint already handled, and an
      upheld complaint against an unknown user; a refusal changes nothing.
      Otherwise exactly that complaint is decided, stamped with the
      manager, the note and the time. */
  lemma ResolveRefusals(s: Tables, managerId: UserId, k: nat, uphold: bool, note: string, critical: bool, now: Time)
    ensures var r := ResolveComplaint(s, managerId, k, uphold, note, critical, now);
      && (r.result == Fail(NoPermission) <==> !IsManager(s.users, managerId))
      && (r.result == Fail(AlreadyHandled) <==>
            IsManager(s.users, managerId) && k < |s.complaints| && s.complaints[k].status != ComplaintPending)
      && (r.result.Fail? ==> r.state == s)
      && (r.result.Ok? ==>
            && k < |s.complaints| && s.complaints[k].status == ComplaintPending
            && r.state.complaints == s.complaints[k := Decided(s.complaints[k], managerId, uphold, note, now)])
  {
  }

  /** A dismissed complaint changes nothing but the complaint. */
  lemma ResolveDismissed(s: Tables, managerId: UserId, k: nat, note: string, critical: bool, now: Time)
    requires IsManager(s.users, managerId) && k < |s.complaints| && s.complaints[k].status == ComplaintPending
    ensures var r := ResolveComplaint(s, managerId, k, false, note, critical, now);
      && r.result == Ok && r.state.complaints[k].status == Dismissed
      && r.state.(complaints := s.complaints) == s
  {
  }

  /** An upheld complaint against a known user warns that user with the
      complaint type as reason, suspends them when critical, and counts
      against them once more. */
  lemma ResolveUpheld(s: Tables, managerId: UserId, k: nat, note: string, critical: bool, now: Time)
    requires IsManager(s.users, managerId) && k < |s.complaints| && s.complaints[k].status == ComplaintPending
    requires Registered(s, s.complaints[k].againstUserId)
    ensures var r := ResolveComplaint(s, managerId, k, true, note, critical, now);
      var c := s.complaints[k];
      && r.result == Ok && r.state.complaints[k].status == Upheld
      && r.state.warnings == s.warnings + [Warning(c.againstUserId, ComplaintSource, c.complaintType, now)]
      && (critical ==> r.state.users[c.againstUserId].status == Suspended)
      && UpheldAgainst(r.state.complaints, c.againstUserId) == UpheldAgainst(s.complaints, c.againstUserId) + 1
  {
    var c := s.complaints[k];
    var a := c.againstUserId;
    var warned := AddWarning(s, a, ComplaintSource, c.complaintType, now);
    WarningRecorded(s, a, ComplaintSource, c.complaintType, now);
    var checked := CheckWarningThreshold(warned, a, managerId, now);
    assert checked.warnings == warned.warnings;
    UpheldAfterDecision(s.complaints, k, Decided(c, managerId, true, note, now), a);
  }

  /** After an upheld complaint the warning threshold is checked: a chef
      or delivery person brought to three warnings is FIRED with a
      TERMINATION memo, and a customer the warning terminates stays
      blacklisted and listed; their status ends TERMINATED, or SUSPENDED
      when the complaint is critical. */
  lemma UpheldReachesThreshold(s: Tables, managerId: UserId, k: nat, note: string, critical: bool, now: Time)
    requires IsManager(s.users, managerId) && k < |s.complaints| && s.complaints[k].status == ComplaintPending
    requires Registered(s, s.complaints[k].againstUserId)
    ensures var r := ResolveComplaint(s, managerId, k, true, note, critical, now);
      var a := s.complaints[k].againstUserId;
      var u := s.users[a];
      && (u.role.IsEmployee() && u.warningCount + 1 >= WARNING_LIMIT ==>
            && r.state.employees[a].employmentStatus == Fired
            && r.state.memos == s.memos + [Memo(managerId, None, a, Termination, "Too many warnings", now)]
            && r.state.users[a].status == (if critical then Suspended else Terminated))
      && (u.role == Customer && CustomerWarningResponse(s.customers[a].isVip, u.warningCount + 1).terminate ==>
            && r.state.users[a].isBlacklisted && Listed(r.state.blacklist, u.email, u.phone)
            && r.state.users[a].status == (if critical then Suspended else Terminated))
  {
    var c := s.complaints[k];
    SanctionReachesThreshold(s, c.againstUserId, c.complaintType, managerId, critical, now);
  }

  /** A sanction that brings a chef or delivery person to three warnings
      fires them with a TERMINATION memo; one that terminates a customer
      leaves them blacklisted and listed. Either ends TERMINATED, or
      SUSPENDED when the sanction is critical. */
  lemma SanctionReachesThreshold(s: Tables, uid: UserId, reason: string, managerId: UserId, critical: bool, now: Time)
    requires Registered(s, uid)
    ensures var s' := Sanctioned(s, uid, reason, managerId, critical, now);
      var u := s.users[uid];
      && (u.role.IsEmployee() && u.warningCount + 1 >= WARNING_LIMIT ==>
            && s'.employees[uid].employmentStatus == Fired
            && s'.memos == s.memos + [Memo(managerId, None, uid, Termination, "Too many warnings", now)]
            && s'.users[uid].status == (if critical then Suspended else Terminated))
      && (u.role == Customer && CustomerWarningResponse(s.customers[uid].isVip, u.warningCount + 1).terminate ==>
            && s'.users[uid].isBlacklisted && Listed(s'.blacklist, u.email, u.phone)
            && s'.users[uid].status == (if critical then Suspended else Terminated))
  {
    var warned := AddWarning(s, uid, ComplaintSource, reason, now);
    WarningRecorded(s, uid, ComplaintSource, reason, now);
    ThresholdReached(warned, uid, managerId, now);
    var u := s.users[uid];
    if u.role.IsEmployee() {
      WarningToOtherRole(s, uid, ComplaintSource, reason, now);
    }
    if u.role == Customer && CustomerWarningResponse(s.customers[uid].isVip, u.warningCount + 1).terminate {
      CustomerWarningListed(s, uid, ComplaintSource, reason, now);
    }
  }

  // ---------------------------------------------------------------- the invariant is kept

  /** New ratings, all weighted, and new notices keep the invariant. */
  lemma RatingsKeepInv(s: Tables, ratings: seq<Rating>, outbox: seq<Notification>)
    requires Inv(s) && RatingsWeighted(ratings)
    ensures Inv(s.(ratings := ratings, outbox := outbox))
  {
  }

  lemma SubmitOrderRatingKeepsInv(s: Tables, cid: UserId, o: OrderId, food: int, delivery: int, comment: string, now: Time)
    requires Inv(s)
    ensures Inv(SubmitOrderRating(s, cid, o, food, delivery, comment, now).state)
  {
    var r := SubmitOrderRating(s, cid, o, food, delivery, comment, now);
    if o in s.orders && s.orders[o].customerId == cid && s.orders[o].status == Delivered
       && !Rated(s.ratings, o) && 1 <= food <= 5 && 1 <= delivery <= 5 {
      RatingAccepted(s, cid, o, food, delivery, comment, now);
    } else {
      RatingRefusals(s, cid, o, food, delivery, comment, now);
    }
    RatingsKeepInv(s, r.state.ratings, r.state.outbox);
  }

  /** Complaints and compliments are not part of the invariant. */
  lemma FeedbackKeepsInv(s: Tables, complaints: seq<Complaint>, compliments: seq<Compliment>)
    requires Inv(s)
    ensures Inv(s.(complaints := complaints)) && Inv(s.(compliments := compliments))
  {
  }

  lemma SanctionedKeepsInv(s: Tables, uid: UserId, reason: string, managerId: UserId, critical: bool, now: Time)
    requires Inv(s) && uid in s.users
    ensures Registered(s, uid) && Inv(Sanctioned(s, uid, reason, managerId, critical, now))
  {
    AddWarningKeepsInv(s, uid, ComplaintSource, reason, now);
    var warned := AddWarning(s, uid, ComplaintSource, reason, now);
    CheckWarningThresholdKeepsInv(warned, uid, managerId, now);
    var checked := CheckWarningThreshold(warned, uid, managerId, now);
    if critical {
      SuspendKeepsInv(checked, uid);
    }
  }

  lemma SuspendKeepsInv(s: Tables, uid: UserId)
    requires Inv(s) && uid in s.users
    ensures Inv(Suspend(s, uid))
  {
    var u := s.users[uid];
    AccountsAfterUserUpdate(s.users, s.customers, s.employees, uid, u.(status := Suspended));
    CascadeAfterUserUpdate(s.users, s.blacklist, uid, u.(status := Suspended));
  }

  lemma ResolveComplaintKeepsInv(s: Tables, managerId: UserId, k: nat, uphold: bool, note: string, critical: bool, now: Time)
    requires Inv(s)
    ensures Inv(ResolveComplaint(s, managerId, k, uphold, note, critical, now).state)
  {
    if IsManager(s.users, managerId) && k < |s.complaints| && s.complaints[k].status == ComplaintPending {
      var c := s.complaints[k];
      var decided := s.complaints[k := Decided(c, managerId, uphold, note, now)];
      if !uphold {
        FeedbackKeepsInv(s, decided, s.compliments);
      } else if Registered(s, c.againstUserId) {
        var s2 := Sanctioned(s, c.againstUserId, c.complaintType, managerId, critical, now);
        SanctionedKeepsInv(s, c.againstUserId, c.complaintType, managerId, critical, now);
        FeedbackKeepsInv(s2, decided, s2.compliments);
      }
    }
  }
}

=== FILE: knowledge.dfy ===
/** Ratings of knowledge-base answers. Every rating recomputes the answer's
    average and its count of zero ratings (flags) from all of its ratings,
    and a zero rating switches the answer off for good. */
module Knowledge {
  import opened Domain

  /** The values rated for entry `k`, in the order they were given. */
  function ValuesFor(ratings: seq<KbRating>, k: KbId): seq<int> {
    if ratings == [] then []
    else
      var last := ratings[|ratings| - 1];
      ValuesFor(ratings[..|ratings| - 1], k) + (if last.kbId == k then [last.value] else [])
  }

  function Sum(s: seq<int>): int {
    if s == [] then 0 else Sum(s[..|s| - 1]) + s[|s| - 1]
  }

  /** The number of zero ratings: the flag count. */
  function ZeroCount(s: seq<int>): (n: nat)
    ensures n <= |s|
  {
    if s == [] then 0 else ZeroCount(s[..|s| - 1]) + (if s[|s| - 1] == 0 then 1 else 0)
  }

  lemma {:induction false} ZeroCountPositive(s: seq<int>)
    ensures ZeroCount(s) > 0 <==> 0 in s
  {
    if s != [] {
      ZeroCountPositive(s[..|s| - 1]);
      assert s == s[..|s| - 1] + [s[|s| - 1]];
    }
  }

  lemma ValuesForAppend(ratings: seq<KbRating>, r: KbRating, k: KbId)
    ensures ValuesFor(ratings + [r], k) == ValuesFor(ratings, k) + (if r.kbId == k then [r.value] else [])
  {
    assert (ratings + [r])[..|ratings|] == ratings;
  }

  lemma AppendStats(s: seq<int>, v: int)
    ensures Sum(s + [v]) == Sum(s) + v
    ensures ZeroCount(s + [v]) == ZeroCount(s) + (if v == 0 then 1 else 0)
  {
    assert (s + [v])[..|s|] == s;
  }

  /** The answers and their ratings. */
  class KnowledgeBase {
    var entries: map<KbId, KbEntry>
    var ratings: seq<KbRating>

    /** A flagged answer (one with a zero rating) is never active. */
    ghost predicate Valid()
      reads this
    {
      forall k :: k in entries && ZeroCount(ValuesFor(ratings, k)) > 0 ==> !entries[k].isActive
    }

    constructor (initial: map<KbId, KbEntry>)
      ensures Valid()
      ensures entries == initial && ratings == []
    {
      entries := initial;
      ratings := [];
    }

    /** rate_answer: a rating outside 0..5 or for an unknown answer is
        refused; otherwise it is recorded and the answer's average and flag
        count are recomputed from all its ratings. A zero rating deactivates
        the answer whatever its average; any other rating leaves the active
        flag as it was. */
    method RateAnswer(userId: UserId, kbId: KbId, value: int, now: Time) returns (r: Outcome)
      requires Valid()
      modifies this
      ensures Valid()
      ensures r == Fail(InvalidRating) <==> value < 0 || value > 5
      ensures r == Fail(NotFound) <==> 0 <= value <= 5 && kbId !in old(entries)
      ensures r.Fail? ==> entries == old(entries) && ratings == old(ratings)
      ensures r.Ok? ==>
        && ratings == old(ratings) + [KbRating(userId, kbId, value, now)]
        && kbId in old(entries)
        && var values := ValuesFor(ratings, kbId);
           entries == old(entries)[kbId := KbEntry(Sum(values), |values|, ZeroCount(values),
                                                    old(entries)[kbId].isActive && value != 0, now)]
      ensures r.Ok? ==> (entries[kbId].isActive ==> value != 0) && (value == 0 ==> entries[kbId].flagCount > 0)
    {
      if value < 0 || value > 5 {
        return Fail(InvalidRating);
      }
      if kbId !in entries {
        return Fail(NotFound);
      }
      var rating := KbRating(userId, kbId, value, now);
      ratings := ratings + [rating];
      var values := ValuesFor(ratings, kbId);
      var entry := entries[kbId];
      entry := entry.(ratingSum := Sum(values), ratingCount := |values|, flagCount := ZeroCount(values), updatedAt := now);
      if value == 0 {
        entry := entry.(isActive := false);
      }
      forall k | k in entries && k != kbId
        ensures ValuesFor(ratings, k) == ValuesFor(old(ratings), k)
      {
        ValuesForAppend(old(ratings), rating, k);
      }
      ValuesForAppend(old(ratings), rating, kbId);
      AppendStats(ValuesFor(old(ratings), kbId), value);
      entries := entries[kbId := entry];
      r := Ok;
    }
  }
}

=== FILE: ledger.dfy ===
/** The ledger: every change to a customer's or delivery person's balance,
    as a movement. A customer's balance moves by order debits and refunds,
    a delivery person's by delivery credits. Summing the movements of one
    account gives how far its balance has moved since the store opened. */
module Ledger {
  import opened Domain

  datatype Movement =
    | Debit(who: UserId, orderId: OrderId, amount: Cents)   // an order charged to a customer
    | Credit(who: UserId, orderId: OrderId, amount: Cents)  // a delivery paid to a delivery person
    | Payout(who: UserId, amount: Cents)                   // a balance refunded through the gateway

  /** The signed effect of one movement on account `u`. */
  function Delta(m: Movement, u: UserId): int {
    if m.who != u then 0
    else match m
      case Debit(_, _, amount) => -amount
      case Credit(_, _, amount) => amount
      case Payout(_, amount) => -amount
  }

  /** The net effect of a sequence of movements on account `u`. */
  function Net(ledger: seq<Movement>, u: UserId): int {
    if ledger == [] then 0
    else Net(ledger[..|ledger| - 1], u) + Delta(ledger[|ledger| - 1], u)
  }

  /** How many times order `o` has been charged. */
  function DebitsOf(ledger: seq<Movement>, o: OrderId): (n: nat)
    ensures n <= |ledger|
  {
    if ledger == [] then 0
    else
      var last := ledger[|ledger| - 1];
      DebitsOf(ledger[..|ledger| - 1], o) + (if last.Debit? && last.orderId == o then 1 else 0)
  }

  /** Total charged to customer `c` by debits. */
  function Charged(ledger: seq<Movement>, c: UserId): int {
    if ledger == [] then 0
    else
      var last := ledger[|ledger| - 1];
      Charged(ledger[..|ledger| - 1], c) + (if last.Debit? && last.who == c then last.amount else 0)
  }

  /** Recording one more movement moves the account by that movement alone. */
  lemma NetAppend(ledger: seq<Movement>, m: Movement, u: UserId)
    ensures Net(ledger + [m], u) == Net(ledger, u) + Delta(m, u)
    ensures Charged(ledger + [m], u) == Charged(ledger, u) + (if m.Debit? && m.who == u then m.amount else 0)
  {
    assert (ledger + [m])[..|ledger|] == ledger;
  }

  lemma DebitsAppend(ledger: seq<Movement>, m: Movement, o: OrderId)
    ensures DebitsOf(ledger + [m], o) == DebitsOf(ledger, o) + (if m.Debit? && m.orderId == o then 1 else 0)
  {
    assert (ledger + [m])[..|ledger|] == ledger;
  }

  /** An order the ledger never mentions has never been charged. */
  lemma {:induction false} NoDebitsOfUnknownOrder(ledger: seq<Movement>, o: OrderId)
    requires forall i :: 0 <= i < |ledger| && ledger[i].Debit? ==> ledger[i].orderId != o
    ensures DebitsOf(ledger, o) == 0
  {
    if ledger != [] {
      NoDebitsOfUnknownOrder(ledger[..|ledger| - 1], o);
    }
  }

  /** A customer's balance moves only by what the ledger charges and pays
      out: with no payout, the balance has fallen by exactly what was charged. */
  lemma {:induction false} NetIsChargedWithoutPayouts(ledger: seq<Movement>, c: UserId)
    requires forall i :: 0 <= i < |ledger| && ledger[i].who == c ==> ledger[i].Debit?
    ensures Net(ledger, c) == -Charged(ledger, c)
  {
    if ledger != [] {
      NetIsChargedWithoutPayouts(ledger[..|ledger| - 1], c);
    }
  }
}

=== FILE: menu.dfy ===
/** filter_menu: keeps the menu items that match an optional chef, a price
    range and a minimum rating, in their original order. */
module Menu {
  import opened Domain

  /** The filter criteria. The price bounds are exact amounts in cents, which
      need not be whole; the minimum rating is an exact number of stars. */
  datatype Criteria = Criteria(chefId: Option<UserId>, minPrice: real, maxPrice: real, minRating: real)

  predicate Matches(item: MenuItem, c: Criteria) {
    && (c.chefId.None? || item.chefId == c.chefId.value)
    && c.minPrice <= item.price as real <= c.maxPrice
    && item.averageRating >= c.minRating
  }

  /** The items of `items` that match, in order. */
  function Filtered(items: seq<MenuItem>, c: Criteria): seq<MenuItem> {
    if items == [] then []
    else
      var last := items[|items| - 1];
      Filtered(items[..|items| - 1], c) + (if Matches(last, c) then [last] else [])
  }

  /** The loop of the source: skip an item that fails any test, add the rest. */
  method FilterMenu(items: seq<MenuItem>, c: Criteria) returns (result: seq<MenuItem>)
    ensures result == Filtered(items, c)
  {
    result := [];
    for i := 0 to |items|
      invariant result == Filtered(items[..i], c)
    {
      assert items[..i + 1][..i] == items[..i];
      var item := items[i];
      if c.chefId.Some? && item.chefId != c.chefId.value {
        continue;
      }
      if (item.price as real) < c.minPrice || item.price as real > c.maxPrice {
        continue;
      }
      if item.averageRating < c.minRating {
        continue;
      }
      result := result + [item];
    }
    assert items[..|items|] == items;
  }

  /** An item is in the filtered menu exactly when it is on the menu and
      matches every criterion. */
  lemma {:induction false} FilteredMembership(items: seq<MenuItem>, c: Criteria, x: MenuItem)
    ensures x in Filtered(items, c) <==> x in items && Matches(x, c)
  {
    if items != [] {
      FilteredMembership(items[..|items| - 1], c, x);
      assert items == items[..|items| - 1] + [items[|items| - 1]];
    }
  }

  /** Filtering again with the same criteria changes nothing. */
  lemma {:induction false} FilteredIdempotent(items: seq<MenuItem>, c: Criteria)
    ensures Filtered(Filtered(items, c), c) == Filtered(items, c)
  {
    if items != [] {
      var init := items[..|items| - 1];
      var last := items[|items| - 1];
      FilteredIdempotent(init, c);
      FilteredAppend(Filtered(init, c), if Matches(last, c) then [last] else [], c);
      if Matches(last, c) {
        assert [last][..0] == [];
      }
    }
  }

  lemma {:induction false} FilteredAppend(a: seq<MenuItem>, b: seq<MenuItem>, c: Criteria)
    ensures Filtered(a + b, c) == Filtered(a, c) + Filtered(b, c)
  {
    if b == [] {
      assert a + b == a;
    } else {
      FilteredAppend(a, b[..|b| - 1], c);
      assert (a + b)[..|a + b| - 1] == a + b[..|b| - 1];
    }
  }
}

=== FILE: ordering.dfy ===
/** Order placement on the whole state: the guards on the account and the
    cart, the charge, the order and its item snapshot, the customer's
    aggregates, the VIP check and the opening of the delivery auction. */
module Ordering {
  import opened Domain
  import opened Pricing
  import opened Ledger
  import opened Discipline
  import opened StoreState
  import opened Cascade
  import opened Auction

  /** A cart line whose item is on the menu and available. A line naming an
      item the menu does not hold counts as unavailable. */
  predicate Available(menu: map<ItemId, MenuItem>, line: CartItem) {
    line.itemId in menu && menu[line.itemId].isAvailable
  }

  predicate AllAvailable(menu: map<ItemId, MenuItem>, cart: seq<CartItem>) {
    forall i :: 0 <= i < |cart| ==> Available(menu, cart[i])
  }

  /** What the cart costs customer `c`: the VIP discount and the free
      delivery of every third VIP order applied. */
  function Charge(s: Tables, c: CustomerAccount, cart: seq<CartItem>): nat
    requires InCatalog(s.menu, cart)
  {
    Total(Subtotal(s.menu, cart), c.isVip, FreeDeliveryEligible(c), s.tariff)
  }

  /** The order place_order creates, before the auction opens. */
  function NewOrder(s: Tables, cid: UserId, c: CustomerAccount, cart: seq<CartItem>, now: Time): (order: Order)
    requires InCatalog(s.menu, cart)
    ensures order.customerId == cid && order.status == Placed && order.totalPrice == Charge(s, c, cart)
    ensures order.deliveryId == None && order.isFreeDelivery == FreeDeliveryEligible(c)
    ensures order.discountBp != 0 <==> c.isVip
  {
    var free := FreeDeliveryEligible(c);
    Order(cid, Placed, Charge(s, c, cart), DiscountBp(c.isVip), free, DeliveryFee(free, s.tariff), None, now, None, None)
  }

  /** The charge, the order, its items and the customer's aggregates, all
      recorded: the customer's balance falls by the total, one order more
      and the total more spent; the ledger records the debit. */
  function Recorded(s: Tables, cid: UserId, cart: seq<CartItem>, now: Time): (s': Tables)
    requires cid in s.customers && InCatalog(s.menu, cart)
    ensures s' == s.(customers := s'.customers, ledger := s'.ledger, orders := s'.orders,
                     nextOrderId := s'.nextOrderId, orderItems := s'.orderItems)
    ensures s'.customers.Keys == s.customers.Keys && s'.orders.Keys == s.orders.Keys + {s.nextOrderId}
  {
    var c := s.customers[cid];
    var total := Charge(s, c, cart);
    var o := s.nextOrderId;
    s.(customers := s.customers[cid := c.(balance := c.balance - total, totalOrders := c.totalOrders + 1,
                                          totalSpent := c.totalSpent + total)],
       ledger := s.ledger + [Debit(cid, o, total)],
       orders := s.orders[o := NewOrder(s, cid, c, cart, now)],
       nextOrderId := o + 1,
       orderItems := s.orderItems + Snapshot(o, s.menu, cart))
  }

  /** place_order: an unknown customer, an account that is not ACTIVE, one
      with three warnings, or an unavailable item is refused with nothing
      changed. A balance short of the total only earns an ORDER warning
      (which runs the warning cascade). Otherwise the order is recorded,
      the VIP upgrade is checked and the auction opens. */
  function PlaceOrder(s: Tables, cid: UserId, cart: seq<CartItem>, now: Time): (r: Step<Result<OrderId>>)
  {
    if cid !in s.customers || !Registered(s, cid) then Step(s, Error(NotFound))
    else if s.users[cid].status != Active then Step(s, Error(AccountInactive))
    else if s.users[cid].warningCount >= WARNING_LIMIT then Step(s, Error(AccountSuspended))
    else if !AllAvailable(s.menu, cart) then Step(s, Error(ItemUnavailable))
    else if s.customers[cid].balance < Charge(s, s.customers[cid], cart) then
      Step(AddWarning(s, cid, OrderSource, "Insufficient balance", now), Error(NotEnoughBalance))
    else
      Step(PlacedState(s, cid, cart, now), Success(s.nextOrderId))
  }

  /** The order recorded, the VIP upgrade checked and the auction opened. */
  function PlacedState(s: Tables, cid: UserId, cart: seq<CartItem>, now: Time): (s': Tables)
    requires cid in s.customers && cid in s.users && InCatalog(s.menu, cart)
  {
    OpenBidding(CheckVipUpgrade(Recorded(s, cid, cart, now), cid, now), s.nextOrderId, now)
  }

  // ---------------------------------------------------------------- what place_order does

  /** The guards, in order: an order is placed exactly when the customer is
      known, ACTIVE, below three warnings, every item is available and the
      balance covers the total; every refusal but the short balance changes
      nothing. */
  lemma PlaceOrderGuards(s: Tables, cid: UserId, cart: seq<CartItem>, now: Time)
    ensures var r := PlaceOrder(s, cid, cart, now);
      && (r.result == Error(NotFound) <==> cid !in s.customers || !Registered(s, cid))
      && (r.result == Error(AccountInactive) <==>
            cid in s.customers && Registered(s, cid) && s.users[cid].status != Active)
      && (r.result == Error(AccountSuspended) <==>
            cid in s.customers && Registered(s, cid) && s.users[cid].status == Active
            && s.users[cid].warningCount >= WARNING_LIMIT)
      && (r.result.Success? <==>
            && cid in s.customers && Registered(s, cid) && s.users[cid].status == Active
            && s.users[cid].warningCount < WARNING_LIMIT && AllAvailable(s.menu, cart)
            && s.customers[cid].balance >= Charge(s, s.customers[cid], cart))
      && (r.result.Error? && r.result.failure != NotEnoughBalance ==> r.state == s)
  {
  }

  /** A balance short of the total places nothing: the customer gets one
      ORDER warning, and no order, item or other account changes. */
  lemma PlaceOrderShortBalance(s: Tables, cid: UserId, cart: seq<CartItem>, now: Time)
    requires cid in s.customers && Registered(s, cid) && s.users[cid].status == Active
    requires s.users[cid].warningCount < WARNING_LIMIT && AllAvailable(s.menu, cart)
    requires s.customers[cid].balance < Charge(s, s.customers[cid], cart)
    ensures var r := PlaceOrder(s, cid, cart, now);
      && r.result == Error(NotEnoughBalance)
      && r.state.warnings == s.warnings + [Warning(cid, OrderSource, "Insufficient balance", now)]
      && r.state.orders == s.orders && r.state.orderItems == s.orderItems && r.state.nextOrderId == s.nextOrderId
      && OthersUnchanged(s, r.state, cid)
  {
    WarningRecorded(s, cid, OrderSource, "Insufficient balance", now);
  }

  /** What recording the order does: the balance falls by the total, the
      ledger records the debit, and the new order and its items appear. */
  lemma RecordedEffects(s: Tables, cid: UserId, cart: seq<CartItem>, now: Time)
    requires cid in s.customers && InCatalog(s.menu, cart)
    ensures var s' := Recorded(s, cid, cart, now);
      var o := s.nextOrderId;
      var c := s.customers[cid];
      var total := Charge(s, c, cart);
      && s'.customers == s.customers[cid := c.(balance := c.balance - total, totalOrders := c.totalOrders + 1,
                                                totalSpent := c.totalSpent + total)]
      && s'.ledger == s.ledger + [Debit(cid, o, total)]
      && s'.orders == s.orders[o := NewOrder(s, cid, c, cart, now)]
      && s'.orderItems == s.orderItems + Snapshot(o, s.menu, cart) && s'.nextOrderId == o + 1
  {
  }

  /** A placed order gets the next id and awaits bids in an open window;
      no other order changes. */
  lemma PlaceOrderPlaced(s: Tables, cid: UserId, cart: seq<CartItem>, now: Time)
    requires cid in s.customers && Registered(s, cid) && s.users[cid].status == Active
    requires s.users[cid].warningCount < WARNING_LIMIT && AllAvailable(s.menu, cart)
    requires s.customers[cid].balance >= Charge(s, s.customers[cid], cart)
    ensures var r := PlaceOrder(s, cid, cart, now);
      var o := s.nextOrderId;
      var s' := r.state;
      && r.result == Success(o) && s' == PlacedState(s, cid, cart, now) && s'.nextOrderId == o + 1
      && o in s'.orders && s'.orders[o].customerId == cid && s'.orders[o].status == AwaitingBids
      && s'.orders[o].totalPrice == Charge(s, s.customers[cid], cart) && s'.orders[o].deliveryId == None
      && s'.orders[o].isFreeDelivery == FreeDeliveryEligible(s.customers[cid])
      && (forall p :: p in s.orders && p != o ==> p in s'.orders && s'.orders[p] == s.orders[p])
      && WindowOpen(s'.windows, o) && s'.outbox == s.outbox + [NewOrderBroadcast(o)]
  {
    var s1 := Recorded(s, cid, cart, now);
    var s2 := CheckVipUpgrade(s1, cid, now);
    RecordedEffects(s, cid, cart, now);
    assert s2.orders == s1.orders && s2.windows == s.windows && s2.outbox == s.outbox && s2.nextOrderId == s1.nextOrderId;
  }

  /** Placing an order charges the customer its total, counts it, never
      leaves a negative balance and keeps a VIP a VIP; the ledger records
      the debit and the order's items are the cart at catalog prices. */
  lemma PlacedCharges(s: Tables, cid: UserId, cart: seq<CartItem>, now: Time)
    requires cid in s.customers && cid in s.users && InCatalog(s.menu, cart)
    requires s.customers[cid].balance >= Charge(s, s.customers[cid], cart)
    ensures var o := s.nextOrderId;
      var c := s.customers[cid];
      var total := Charge(s, c, cart);
      var s' := PlacedState(s, cid, cart, now);
      && s'.customers[cid].balance == c.balance - total >= 0
      && s'.customers[cid].totalOrders == c.totalOrders + 1 && s'.customers[cid].totalSpent == c.totalSpent + total
      && (c.isVip ==> s'.customers[cid].isVip)
      && s'.ledger == s.ledger + [Debit(cid, o, total)]
      && s'.orderItems == s.orderItems + Snapshot(o, s.menu, cart)
  {
    var s1 := Recorded(s, cid, cart, now);
    var s2 := CheckVipUpgrade(s1, cid, now);
    var s' := PlacedState(s, cid, cart, now);
    RecordedEffects(s, cid, cart, now);
    VipUpgrade(s1, cid, now);
    assert s'.customers == s2.customers && s'.ledger == s1.ledger && s'.orderItems == s1.orderItems;
  }

  // ---------------------------------------------------------------- the invariant is kept

  /** Charging a customer `amount` and recording the debit keeps every
      balance equal to its opening balance moved by the ledger. */
  lemma DebitConserves(customers: map<UserId, CustomerAccount>, employees: map<UserId, Employee>,
                       opening: map<UserId, Cents>, ledger: seq<Movement>, cid: UserId, o: OrderId,
                       amount: Cents, nc: CustomerAccount)
    requires Conserved(customers, employees, opening, ledger) && cid in customers && cid !in employees
    requires nc.balance == customers[cid].balance - amount
    ensures Conserved(customers[cid := nc], employees, opening, ledger + [Debit(cid, o, amount)])
  {
    var m := Debit(cid, o, amount);
    forall u ensures Net(ledger + [m], u) == Net(ledger, u) + Delta(m, u) {
      NetAppend(ledger, m, u);
    }
  }

  /** The debit of a fresh order backed by that order is its only debit,
      and every older movement stays backed. */
  lemma FreshDebitBacked(ledger: seq<Movement>, orders: map<OrderId, Order>, o: OrderId, no: Order)
    requires LedgerBacked(ledger, orders) && o !in orders
    ensures LedgerBacked(ledger + [Debit(no.customerId, o, no.totalPrice)], orders[o := no])
  {
    var m := Debit(no.customerId, o, no.totalPrice);
    forall i | 0 <= i < |ledger| ensures Backed(ledger[i], orders[o := no]) && (ledger[i].Debit? ==> ledger[i].orderId != o) {
      assert Backed(ledger[i], orders);
    }
    NoDebitsOfUnknownOrder(ledger, o);
    forall p ensures DebitsOf(ledger + [m], p) == DebitsOf(ledger, p) + (if p == o then 1 else 0) {
      DebitsAppend(ledger, m, p);
    }
    assert (ledger + [m])[|ledger|] == m;
  }

  /** Charging a customer for a fresh order they own, within their
      balance, keeps the books. */
  lemma DebitKeepsBooks(s: Tables, s': Tables, cid: UserId, o: OrderId, amount: Cents, nc: CustomerAccount, no: Order)
    requires Books(s) && cid in s.customers && cid !in s.employees && o !in s.orders
    requires amount <= s.customers[cid].balance && nc.balance == s.customers[cid].balance - amount
    requires no.customerId == cid && no.totalPrice == amount
    requires s'.customers == s.customers[cid := nc] && s'.ledger == s.ledger + [Debit(cid, o, amount)]
    requires s'.orders == s.orders[o := no] && s'.employees == s.employees && s'.opening == s.opening
    ensures Books(s')
  {
    DebitConserves(s.customers, s.employees, s.opening, s.ledger, cid, o, amount, nc);
    FreshDebitBacked(s.ledger, s.orders, o, no);
  }

  /** The new order's debit balances the customer's account and is the only
      debit of the new order. */
  lemma RecordedKeepsBooks(s: Tables, cid: UserId, cart: seq<CartItem>, now: Time)
    requires Books(s) && cid in s.customers && cid !in s.employees && InCatalog(s.menu, cart)
    requires s.nextOrderId !in s.orders
    requires s.customers[cid].balance >= Charge(s, s.customers[cid], cart)
    ensures Books(Recorded(s, cid, cart, now))
  {
    var c := s.customers[cid];
    var total := Charge(s, c, cart);
    RecordedEffects(s, cid, cart, now);
    DebitKeepsBooks(s, Recorded(s, cid, cart, now), cid, s.nextOrderId, total,
                    c.(balance := c.balance - total, totalOrders := c.totalOrders + 1, totalSpent := c.totalSpent + total),
                    NewOrder(s, cid, c, cart, now));
  }

  /** Appending a fresh order's items leaves every older order's items as
      they were, and gives the fresh order exactly those items. */
  lemma ItemsAfterFresh(items: seq<OrderItem>, snap: seq<OrderItem>, o: OrderId, p: OrderId)
    requires forall i :: 0 <= i < |items| ==> items[i].orderId != o
    requires forall i :: 0 <= i < |snap| ==> snap[i].orderId == o
    ensures ItemsOf(items + snap, p) == if p == o then snap else ItemsOf(items, p)
  {
    ItemsOfAppend(items, snap, p);
    if p == o {
      ItemsOfOther(items, o);
      ItemsOfOwn(snap, o);
    } else {
      ItemsOfOther(snap, p);
    }
  }

  /** A fresh order priced by its own items keeps every order priced. */
  lemma FreshOrderPriced(orders: map<OrderId, Order>, items: seq<OrderItem>, next: OrderId, t: Tariff,
                         no: Order, snap: seq<OrderItem>)
    requires OrdersPriced(orders, items, next, t)
    requires forall i :: 0 <= i < |snap| ==> snap[i].orderId == next
    requires PricedAsCharged(no, snap, t)
    ensures OrdersPriced(orders[next := no], items + snap, next + 1, t)
  {
    var orders' := orders[next := no];
    assert forall i :: 0 <= i < |items| ==> items[i].orderId != next by {
      assert forall i :: 0 <= i < |items| ==> items[i].orderId in orders;
    }
    forall p | p in orders' ensures PricedAsCharged(orders'[p], ItemsOf(items + snap, p), t) {
      ItemsAfterFresh(items, snap, next, p);
    }
  }

  /** The order place_order creates is priced by the cart's snapshot. */
  lemma NewOrderPriced(s: Tables, cid: UserId, c: CustomerAccount, cart: seq<CartItem>, now: Time)
    requires InCatalog(s.menu, cart)
    ensures PricedAsCharged(NewOrder(s, cid, c, cart, now), Snapshot(s.nextOrderId, s.menu, cart), s.tariff)
  {
    SnapshotReproducesSubtotal(s.nextOrderId, s.menu, cart);
  }

  /** The new order is priced by its snapshot, and no older order gains an
      item. */
  lemma RecordedKeepsPriced(s: Tables, cid: UserId, cart: seq<CartItem>, now: Time)
    requires OrdersPriced(s.orders, s.orderItems, s.nextOrderId, s.tariff) && cid in s.customers && InCatalog(s.menu, cart)
    ensures var s' := Recorded(s, cid, cart, now); OrdersPriced(s'.orders, s'.orderItems, s'.nextOrderId, s'.tariff)
  {
    var o := s.nextOrderId;
    var no := NewOrder(s, cid, s.customers[cid], cart, now);
    RecordedEffects(s, cid, cart, now);
    NewOrderPriced(s, cid, s.customers[cid], cart, now);
    FreshOrderPriced(s.orders, s.orderItems, o, s.tariff, no, Snapshot(o, s.menu, cart));
  }

  /** A fresh order joins no auction: bids, windows and memos are about
      older orders. */
  lemma FreshOrderKeepsAuction(bids: seq<Bid>, orders: map<OrderId, Order>, windows: map<OrderId, Window>, memos: seq<Memo>,
                               o: OrderId, no: Order)
    requires AuctionConsistent(bids, orders, windows, memos) && o !in orders
    ensures AuctionConsistent(bids, orders[o := no], windows, memos)
  {
    forall i | 0 <= i < |bids| && bids[i].isSelected
      ensures orders[o := no][bids[i].orderId].status != AwaitingBids
    {
      assert bids[i].orderId in orders;
    }
  }

  lemma RecordedKeepsInv(s: Tables, cid: UserId, cart: seq<CartItem>, now: Time)
    requires Inv(s) && cid in s.customers && InCatalog(s.menu, cart)
    requires s.customers[cid].balance >= Charge(s, s.customers[cid], cart)
    ensures Inv(Recorded(s, cid, cart, now))
  {
    var s' := Recorded(s, cid, cart, now);
    var o := s.nextOrderId;
    RecordedEffects(s, cid, cart, now);
    RecordedKeepsBooks(s, cid, cart, now);
    RecordedKeepsPriced(s, cid, cart, now);
    FreshOrderKeepsAuction(s.bids, s.orders, s.windows, s.memos, o, NewOrder(s, cid, s.customers[cid], cart, now));
    assert s'.users == s.users && s'.customers.Keys == s.customers.Keys && s'.employees == s.employees;
    assert s'.bids == s.bids && s'.windows == s.windows && s'.memos == s.memos && s'.ratings == s.ratings;
  }

  /** A placed order keeps the invariant: it is recorded, the VIP upgrade
      checked and its auction opened on a fresh order no bid is on. */
  lemma PlacedKeepsInv(s: Tables, cid: UserId, cart: seq<CartItem>, now: Time)
    requires Inv(s) && cid in s.customers && InCatalog(s.menu, cart)
    requires s.customers[cid].balance >= Charge(s, s.customers[cid], cart)
    ensures cid in s.users && Inv(PlacedState(s, cid, cart, now))
  {
    var o := s.nextOrderId;
    var s1 := Recorded(s, cid, cart, now);
    RecordedKeepsInv(s, cid, cart, now);
    CheckVipUpgradeKeepsInv(s1, cid, now);
    var s2 := CheckVipUpgrade(s1, cid, now);
    assert s2.bids == s.bids && s2.orders.Keys == s.orders.Keys + {o};
    forall i | 0 <= i < |s2.bids| ensures s2.bids[i].orderId != o {
      assert s.bids[i].orderId in s.orders;
    }
    OpenBiddingKeepsInv(s2, o, now);
  }

  lemma AvailableInCatalog(menu: map<ItemId, MenuItem>, cart: seq<CartItem>)
    requires AllAvailable(menu, cart)
    ensures InCatalog(menu, cart)
  {
    forall i | 0 <= i < |cart| ensures cart[i].itemId in menu {
      assert Available(menu, cart[i]);
    }
  }

  /** The guards place_order checks before looking at the balance. */
  predicate MayOrder(s: Tables, cid: UserId, cart: seq<CartItem>) {
    && cid in s.customers && Registered(s, cid) && s.users[cid].status == Active
    && s.users[cid].warningCount < WARNING_LIMIT && AllAvailable(s.menu, cart)
  }

  /** A short balance only warns, which keeps the invariant. */
  lemma ShortBalanceKeepsInv(s: Tables, cid: UserId, cart: seq<CartItem>, now: Time)
    requires Inv(s) && MayOrder(s, cid, cart)
    requires InCatalog(s.menu, cart) && s.customers[cid].balance < Charge(s, s.customers[cid], cart)
    ensures Inv(PlaceOrder(s, cid, cart, now).state)
  {
    AddWarningKeepsInv(s, cid, OrderSource, "Insufficient balance", now);
  }

  /** A covered balance places the order, which keeps the invariant. */
  lemma CoveredBalanceKeepsInv(s: Tables, cid: UserId, cart: seq<CartItem>, now: Time)
    requires Inv(s) && MayOrder(s, cid, cart)
    requires InCatalog(s.menu, cart) && s.customers[cid].balance >= Charge(s, s.customers[cid], cart)
    ensures Inv(PlaceOrder(s, cid, cart, now).state)
  {
    PlacedKeepsInv(s, cid, cart, now);
  }

  /** place_order keeps the invariant: refusals change nothing. */
  lemma PlaceOrderKeepsInv(s: Tables, cid: UserId, cart: seq<CartItem>, now: Time)
    requires Inv(s)
    ensures Inv(PlaceOrder(s, cid, cart, now).state)
  {
    if MayOrder(s, cid, cart) {
      AvailableInCatalog(s.menu, cart);
      if s.customers[cid].balance < Charge(s, s.customers[cid], cart) {
        ShortBalanceKeepsInv(s, cid, cart, now);
      } else {
        CoveredBalanceKeepsInv(s, cid, cart, now);
      }
    }
  }
}

=== FILE: pricing.dfy ===
/** Order pricing: the subtotal of a cart, the VIP discount, tax, the
    delivery fee with its every-third-order VIP waiver, and the rounded
    total; and the order-item snapshot that records unit prices at
    placement time. */
module Pricing {
  import opened Domain

  /** The VIP discount, 5%, in basis points. */
  const VIP_DISCOUNT_BP: nat := 500

  /** A VIP's order ships free when its position in the customer's order
      history is a multiple of this. */
  const FREE_DELIVERY_PERIOD: nat := 3

  /** One whole, in basis points; amounts are computed exactly in units of
      1/10000 cent before rounding to cents. */
  const BP: nat := 10000

  /** TAX_RATE (in basis points) and BASE_DELIVERY_FEE (in cents). The
      source names both constants without fixing their values, so they are
      parameters of the model. */
  datatype Tariff = Tariff(taxRateBp: nat, baseDeliveryFee: nat)

  /** Every cart line names an item the catalog knows. */
  predicate InCatalog(menu: map<ItemId, MenuItem>, cart: seq<CartItem>) {
    forall i :: 0 <= i < |cart| ==> cart[i].itemId in menu
  }

  /** The sum of price × quantity over the cart, at current catalog prices. */
  function Subtotal(menu: map<ItemId, MenuItem>, cart: seq<CartItem>): nat
    requires InCatalog(menu, cart)
  {
    if cart == [] then 0
    else
      var last := cart[|cart| - 1];
      Subtotal(menu, cart[..|cart| - 1]) + menu[last.itemId].price * last.quantity
  }

  /** Free delivery: a VIP whose order about to be placed is a multiple of
      three in their history (the count does not yet include it). */
  function FreeDeliveryEligible(c: CustomerAccount): bool {
    c.isVip && (c.totalOrders + 1) % FREE_DELIVERY_PERIOD == 0
  }

  function DeliveryFee(isFreeDelivery: bool, t: Tariff): (fee: nat)
    ensures fee == 0 <==> isFreeDelivery || t.baseDeliveryFee == 0
    ensures fee <= t.baseDeliveryFee
    ensures !isFreeDelivery ==> fee == t.baseDeliveryFee
  {
    if isFreeDelivery then 0 else t.baseDeliveryFee
  }

  function DiscountBp(isVip: bool): (bp: nat)
    ensures bp != 0 <==> isVip
  {
    if isVip then VIP_DISCOUNT_BP else 0
  }

  /** subtotal − discount + taxes + delivery fee, exactly, in 1/10000 cent. */
  function ExactTotal(subtotal: nat, isVip: bool, isFreeDelivery: bool, t: Tariff): nat {
    subtotal * (BP - DiscountBp(isVip) + t.taxRateBp) + DeliveryFee(isFreeDelivery, t) * BP
  }

  /** The order total rounded to whole cents (half up). */
  function Total(subtotal: nat, isVip: bool, isFreeDelivery: bool, t: Tariff): nat {
    (ExactTotal(subtotal, isVip, isFreeDelivery, t) + BP / 2) / BP
  }

  /** calculate_order_total: accumulates the subtotal line by line, then
      applies discount, tax and delivery fee and rounds. */
  method CalculateOrderTotal(menu: map<ItemId, MenuItem>, cart: seq<CartItem>, isVip: bool, isFreeDelivery: bool, t: Tariff)
    returns (total: nat)
    requires InCatalog(menu, cart)
    ensures total == Total(Subtotal(menu, cart), isVip, isFreeDelivery, t)
  {
    var subtotal: nat := 0;
    for i := 0 to |cart|
      invariant subtotal == Subtotal(menu, cart[..i])
    {
      assert cart[..i + 1][..i] == cart[..i];
      subtotal := subtotal + menu[cart[i].itemId].price * cart[i].quantity;
    }
    assert cart[..|cart|] == cart;
    var discount := if isVip then subtotal * VIP_DISCOUNT_BP else 0;
    var taxes := subtotal * t.taxRateBp;
    var deliveryFee := if isFreeDelivery then 0 else t.baseDeliveryFee;
    var exact := subtotal * BP - discount + taxes + deliveryFee * BP;
    assert exact == ExactTotal(subtotal, isVip, isFreeDelivery, t);
    total := (exact + BP / 2) / BP;
  }

  /** Waiving the delivery fee lowers the rounded total by exactly the fee:
      rounding never eats into it. */
  lemma FreeDeliverySavesBaseFee(subtotal: nat, isVip: bool, t: Tariff)
    ensures Total(subtotal, isVip, false, t) == Total(subtotal, isVip, true, t) + t.baseDeliveryFee
  {
    var x := ExactTotal(subtotal, isVip, true, t) + BP / 2;
    assert ExactTotal(subtotal, isVip, false, t) + BP / 2 == x + t.baseDeliveryFee * BP;
    DivAddMultiple(x, t.baseDeliveryFee);
  }

  lemma DivAddMultiple(x: nat, k: nat)
    ensures (x + k * BP) / BP == x / BP + k
  {
    var q, r := x / BP, x % BP;
    assert x == q * BP + r;
    assert x + k * BP == (q + k) * BP + r;
  }

  /** The VIP discount never makes an order dearer. */
  lemma VipNeverPaysMore(subtotal: nat, isFreeDelivery: bool, t: Tariff)
    ensures Total(subtotal, true, isFreeDelivery, t) <= Total(subtotal, false, isFreeDelivery, t)
  {
    assert ExactTotal(subtotal, true, isFreeDelivery, t) <= ExactTotal(subtotal, false, isFreeDelivery, t);
  }

  /** Without discount or tax the total is the subtotal plus the fee, to the cent. */
  lemma UntaxedTotalIsExact(subtotal: nat, isFreeDelivery: bool, t: Tariff)
    requires t.taxRateBp == 0
    ensures Total(subtotal, false, isFreeDelivery, t) == subtotal + DeliveryFee(isFreeDelivery, t)
  {
    DivAddMultiple(BP / 2, subtotal + DeliveryFee(isFreeDelivery, t));
  }

  /** Among any three consecutive orders of a VIP exactly one ships free;
      a customer who is not a VIP never gets free delivery. */
  lemma OneFreeDeliveryInThree(c: CustomerAccount)
    ensures !c.isVip ==> !FreeDeliveryEligible(c)
    ensures c.isVip ==>
      (if FreeDeliveryEligible(c) then 1 else 0)
      + (if FreeDeliveryEligible(c.(totalOrders := c.totalOrders + 1)) then 1 else 0)
      + (if FreeDeliveryEligible(c.(totalOrders := c.totalOrders + 2)) then 1 else 0) == 1
  {
  }

  // ---------------------------------------------------------------- order items

  /** The order items place_order creates for `cart`: one per cart line,
      with the catalog price of the moment as its unit price. */
  function Snapshot(o: OrderId, menu: map<ItemId, MenuItem>, cart: seq<CartItem>): (items: seq<OrderItem>)
    requires InCatalog(menu, cart)
    ensures |items| == |cart|
    ensures forall i :: 0 <= i < |items| ==> items[i].orderId == o && items[i].itemId == cart[i].itemId
    ensures forall i :: 0 <= i < |items| ==>
      items[i].quantity == cart[i].quantity && items[i].unitPrice == menu[cart[i].itemId].price
  {
    if cart == [] then []
    else
      var last := cart[|cart| - 1];
      Snapshot(o, menu, cart[..|cart| - 1]) + [OrderItem(o, last.itemId, last.quantity, menu[last.itemId].price)]
  }

  /** Sum of unit price × quantity over recorded order items. */
  function ItemsSubtotal(items: seq<OrderItem>): nat {
    if items == [] then 0
    else
      var last := items[|items| - 1];
      ItemsSubtotal(items[..|items| - 1]) + last.unitPrice * last.quantity
  }

  /** The items recorded for order `o`, in recording order. It filters by
      order the way `Bidding.BidsFor` does, but over the order items table;
      the two tables hold different records, so each keeps its own filter
      and its own lemmas. */
  function ItemsOf(items: seq<OrderItem>, o: OrderId): (r: seq<OrderItem>)
    ensures |r| <= |items|
    ensures forall i :: 0 <= i < |r| ==> r[i].orderId == o
  {
    if items == [] then []
    else
      var last := items[|items| - 1];
      ItemsOf(items[..|items| - 1], o) + (if last.orderId == o then [last] else [])
  }

  /** The snapshot prices reproduce the subtotal the order was charged on. */
  lemma {:induction false} SnapshotReproducesSubtotal(o: OrderId, menu: map<ItemId, MenuItem>, cart: seq<CartItem>)
    requires InCatalog(menu, cart)
    ensures ItemsSubtotal(Snapshot(o, menu, cart)) == Subtotal(menu, cart)
  {
    if cart != [] {
      var init := cart[..|cart| - 1];
      SnapshotReproducesSubtotal(o, menu, init);
      var s := Snapshot(o, menu, cart);
      assert s[..|s| - 1] == Snapshot(o, menu, init);
    }
  }

  lemma {:induction false} ItemsOfAppend(a: seq<OrderItem>, b: seq<OrderItem>, o: OrderId)
    ensures ItemsOf(a + b, o) == ItemsOf(a, o) + ItemsOf(b, o)
  {
    if b == [] {
      assert a + b == a;
    } else {
      var init := b[..|b| - 1];
      ItemsOfAppend(a, init, o);
      assert (a + b)[..|a + b| - 1] == a + init;
    }
  }

  /** Items all recorded for other orders contribute nothing to `o`. */
  lemma {:induction false} ItemsOfOther(items: seq<OrderItem>, o: OrderId)
    requires forall i :: 0 <= i < |items| ==> items[i].orderId != o
    ensures ItemsOf(items, o) == []
  {
    if items != [] {
      ItemsOfOther(items[..|items| - 1], o);
    }
  }

  /** Items all recorded for `o` are all of `o`'s items. */
  lemma {:induction false} ItemsOfOwn(items: seq<OrderItem>, o: OrderId)
    requires forall i :: 0 <= i < |items| ==> items[i].orderId == o
    ensures ItemsOf(items, o) == items
  {
    if items != [] {
      ItemsOfOwn(items[..|items| - 1], o);
    }
  }
}

=== FILE: reputation.dfy ===
/** What an employee's evaluation reads: the weighted scores the employee
    received (delivery scores for the delivery person of a rated order, food
    scores for every chef who cooked an item of it), the upheld complaints
    against the employee and the compliments the employee received; and the
    notice the manager then receives. */
module Reputation {
  import opened Domain
  import opened Discipline

  /** Order `o` holds an item cooked by `chef`. */
  predicate CookedFor(items: seq<OrderItem>, menu: map<ItemId, MenuItem>, o: OrderId, chef: UserId) {
    exists i :: 0 <= i < |items| && items[i].orderId == o && items[i].itemId in menu && menu[items[i].itemId].chefId == chef
  }

  /** The scores employee `emp` received, rating by rating. */
  function ScoresOf(ratings: seq<Rating>, items: seq<OrderItem>, menu: map<ItemId, MenuItem>, emp: UserId): seq<Score> {
    if ratings == [] then []
    else
      var r := ratings[|ratings| - 1];
      ScoresOf(ratings[..|ratings| - 1], items, menu, emp)
        + (if r.deliveryId == Some(emp) then [Score(r.weight, r.delivery)] else [])
        + (if CookedFor(items, menu, r.orderId, emp) then [Score(r.weight, r.food)] else [])
  }

  /** Every rating carries a positive weight, so every score does. */
  lemma {:induction false} ScoresWeighted(ratings: seq<Rating>, items: seq<OrderItem>, menu: map<ItemId, MenuItem>, emp: UserId)
    requires forall i :: 0 <= i < |ratings| ==> ratings[i].weight > 0
    ensures PositiveWeights(ScoresOf(ratings, items, menu, emp))
  {
    if ratings != [] {
      ScoresWeighted(ratings[..|ratings| - 1], items, menu, emp);
    }
  }

  /** A rating that names neither the employee as delivery person nor an
      order the employee cooked for leaves the employee's scores as they were. */
  lemma ScoresOfAppendUnrelated(ratings: seq<Rating>, items: seq<OrderItem>, menu: map<ItemId, MenuItem>, emp: UserId, r: Rating)
    requires r.deliveryId != Some(emp) && !CookedFor(items, menu, r.orderId, emp)
    ensures ScoresOf(ratings + [r], items, menu, emp) == ScoresOf(ratings, items, menu, emp)
  {
    assert (ratings + [r])[..|ratings|] == ratings;
  }

  /** Upheld complaints against `emp`. */
  function UpheldAgainst(complaints: seq<Complaint>, emp: UserId): (n: nat)
    ensures n <= |complaints|
  {
    if complaints == [] then 0
    else
      var c := complaints[|complaints| - 1];
      UpheldAgainst(complaints[..|complaints| - 1], emp) + (if c.againstUserId == emp && c.status == Upheld then 1 else 0)
  }

  /** Deciding complaint `k` changes the count against `emp` by what the
      decision itself counts. */
  lemma {:induction false} UpheldAfterDecision(complaints: seq<Complaint>, k: nat, d: Complaint, emp: UserId)
    requires k < |complaints|
    ensures UpheldAgainst(complaints[k := d], emp)
      == UpheldAgainst(complaints, emp)
         - (if complaints[k].againstUserId == emp && complaints[k].status == Upheld then 1 else 0)
         + (if d.againstUserId == emp && d.status == Upheld then 1 else 0)
  {
    var n := |complaints|;
    var cs := complaints[k := d];
    assert cs[..n - 1] == if k == n - 1 then complaints[..n - 1] else complaints[..n - 1][k := d];
    if k < n - 1 {
      UpheldAfterDecision(complaints[..n - 1], k, d, emp);
    }
  }

  /** Compliments addressed to `emp`. */
  function ComplimentsTo(compliments: seq<Compliment>, emp: UserId): (n: nat)
    ensures n <= |compliments|
  {
    if compliments == [] then 0
    else
      var c := compliments[|compliments| - 1];
      ComplimentsTo(compliments[..|compliments| - 1], emp) + (if c.toUserId == emp then 1 else 0)
  }

  /** The manager is told to demote or to reward; otherwise nothing is sent. */
  function Notice(emp: UserId, rec: Recommendation): (notes: seq<Notification>)
    ensures |notes| <= 1
    ensures notes == [RecommendDemotion(emp)] <==> rec == Demote
    ensures notes == [RecommendBonus(emp)] <==> rec == Bonus
  {
    match rec
    case Demote => [RecommendDemotion(emp)]
    case Bonus => [RecommendBonus(emp)]
    case _ => []
  }
}

=== FILE: store.dfy ===
/** The restaurant back end as the program runs it: one object holding every
    table, whose operations update the tables in place, step by step, as
    the source does. Each operation's new state is the state the function
    of the same name (in Cascade, Auction, Ordering and Feedback) computes
    from the old one, so every property proved about those functions, the
    invariant first of all, holds of the object. */
module Restaurant {
  import opened Domain
  import opened Pricing
  import opened Ledger
  import opened Bidding
  import opened Discipline
  import opened Reputation
  import opened StoreState
  import opened Cascade
  import opened Auction
  import opened Ordering
  import opened Feedback

  /** The state of a store that has just opened: no orders, bids, warnings,
      memos, complaints, ratings or blacklist entries yet, and every
      balance as it was at opening. */
  function Opened(menu: map<ItemId, MenuItem>, tariff: Tariff, users: map<UserId, User>,
                  customers: map<UserId, CustomerAccount>, employees: map<UserId, Employee>): (s: Tables)
    ensures s.ledger == [] && s.orders == map[] && s.bids == [] && s.blacklist == []
  {
    Tables(menu, tariff, users, customers, employees, map[], 0, [], [], map[], [], [], [], [], [], [], [], [],
           OpeningBalances(customers, employees), [])
  }

  function OpeningBalances(customers: map<UserId, CustomerAccount>, employees: map<UserId, Employee>): (m: map<UserId, Cents>)
    ensures m.Keys == customers.Keys + employees.Keys
    ensures forall u :: u in customers ==> m[u] == customers[u].balance
    ensures forall u :: u in employees && u !in customers ==> m[u] == employees[u].balance
  {
    map u | u in customers.Keys + employees.Keys :: if u in customers then customers[u].balance else employees[u].balance
  }

  /** A store opens in a state that satisfies the invariant when its
      accounts are consistent, no balance is negative and no customer
      starts with three warnings. */
  lemma OpenedInv(menu: map<ItemId, MenuItem>, tariff: Tariff, users: map<UserId, User>,
                  customers: map<UserId, CustomerAccount>, employees: map<UserId, Employee>)
    requires AccountsConsistent(users, customers, employees) && Solvent(customers)
    requires forall u :: u in users && users[u].role == Customer ==> users[u].warningCount < WARNING_LIMIT
    ensures Inv(Opened(menu, tariff, users, customers, employees))
  {
    var s := Opened(menu, tariff, users, customers, employees);
    forall u | u in employees ensures u !in customers {
      assert users[u].role.IsEmployee();
    }
    assert Conserved(s.customers, s.employees, s.opening, s.ledger);
  }

  class Store {
    var menu: map<ItemId, MenuItem>
    var tariff: Tariff
    var users: map<UserId, User>
    var customers: map<UserId, CustomerAccount>
    var employees: map<UserId, Employee>
    var orders: map<OrderId, Order>
    var nextOrderId: OrderId
    var orderItems: seq<OrderItem>
    var bids: seq<Bid>
    var windows: map<OrderId, Window>
    var warnings: seq<Warning>
    var memos: seq<Memo>
    var complaints: seq<Complaint>
    var compliments: seq<Compliment>
    var ratings: seq<Rating>
    var blacklist: seq<BlacklistEntry>
    var outbox: seq<Notification>
    var refunds: seq<Refund>
    ghost var opening: map<UserId, Cents>
    ghost var ledger: seq<Movement>

    /** The tables as one value. */
    ghost function State(): Tables
      reads this
    {
      Tables(menu, tariff, users, customers, employees, orders, nextOrderId, orderItems, bids, windows, warnings,
             memos, complaints, compliments, ratings, blacklist, outbox, refunds, opening, ledger)
    }

    constructor (menu: map<ItemId, MenuItem>, tariff: Tariff, users: map<UserId, User>,
                 customers: map<UserId, CustomerAccount>, employees: map<UserId, Employee>)
      ensures State() == Opened(menu, tariff, users, customers, employees)
    {
      this.menu := menu;
      this.tariff := tariff;
      this.users := users;
      this.customers := customers;
      this.employees := employees;
      orders := map[];
      nextOrderId := 0;
      orderItems := [];
      bids := [];
      windows := map[];
      warnings := [];
      memos := [];
      complaints := [];
      compliments := [];
      ratings := [];
      blacklist := [];
      outbox := [];
      refunds := [];
      opening := OpeningBalances(customers, employees);
      ledger := [];
    }

    // ---------------------------------------------------------------- the database writes
    // Each saves one row (a new one, or a new version of an existing one)
    // and changes nothing else.

    method SaveUser(uid: UserId, u: User)
      modifies this
      ensures State() == old(State()).(users := old(users)[uid := u])
    {
      users := users[uid := u];
    }

    method SaveCustomer(cid: UserId, c: CustomerAccount)
      modifies this
      ensures State() == old(State()).(customers := old(customers)[cid := c])
    {
      customers := customers[cid := c];
    }

    method SaveEmployee(emp: UserId, e: Employee)
      modifies this
      ensures State() == old(State()).(employees := old(employees)[emp := e])
    {
      employees := employees[emp := e];
    }

    method SaveOrder(o: OrderId, order: Order)
      modifies this
      ensures State() == old(State()).(orders := old(orders)[o := order])
    {
      orders := orders[o := order];
    }

    /** Hands out the next order id. */
    method NewOrderId() returns (o: OrderId)
      modifies this
      ensures o == old(nextOrderId) && State() == old(State()).(nextOrderId := o + 1)
    {
      o := nextOrderId;
      nextOrderId := o + 1;
    }

    method InsertOrderItem(item: OrderItem)
      modifies this
      ensures State() == old(State()).(orderItems := old(orderItems) + [item])
    {
      orderItems := orderItems + [item];
    }

    method InsertBid(b: Bid)
      modifies this
      ensures State() == old(State()).(bids := old(bids) + [b])
    {
      bids := bids + [b];
    }

    method SaveBid(k: nat, b: Bid)
      requires k < |bids|
      modifies this
      ensures State() == old(State()).(bids := old(bids)[k := b])
    {
      bids := bids[k := b];
    }

    method SaveWindow(o: OrderId, w: Window)
      modifies this
      ensures State() == old(State()).(windows := old(windows)[o := w])
    {
      windows := windows[o := w];
    }

    method InsertWarning(w: Warning)
      modifies this
      ensures State() == old(State()).(warnings := old(warnings) + [w])
    {
      warnings := warnings + [w];
    }

    method InsertMemo(m: Memo)
      modifies this
      ensures State() == old(State()).(memos := old(memos) + [m])
    {
      memos := memos + [m];
    }

    method InsertComplaint(c: Complaint)
      modifies this
      ensures State() == old(State()).(complaints := old(complaints) + [c])
    {
      complaints := complaints + [c];
    }

    method SaveComplaint(k: nat, c: Complaint)
      requires k < |complaints|
      modifies this
      ensures State() == old(State()).(complaints := old(complaints)[k := c])
    {
      complaints := complaints[k := c];
    }

    method InsertCompliment(c: Compliment)
      modifies this
      ensures State() == old(State()).(compliments := old(compliments) + [c])
    {
      compliments := compliments + [c];
    }

    method InsertRating(r: Rating)
      modifies this
      ensures State() == old(State()).(ratings := old(ratings) + [r])
    {
      ratings := ratings + [r];
    }

    method InsertBlacklistEntry(e: BlacklistEntry)
      modifies this
      ensures State() == old(State()).(blacklist := old(blacklist) + [e])
    {
      blacklist := blacklist + [e];
    }

    /** Sends notifications, in order. */
    method Notify(notes: seq<Notification>)
      modifies this
      ensures State() == old(State()).(outbox := old(outbox) + notes)
    {
      outbox := outbox + notes;
    }

    /** Pays a refund out through the payment gateway. */
    method IssueRefund(r: Refund)
      modifies this
      ensures State() == old(State()).(refunds := old(refunds) + [r])
    {
      refunds := refunds + [r];
    }

    /** Records a movement of money in the ledger. */
    ghost method Post(m: Movement)
      modifies this
      ensures State() == old(State()).(ledger := old(ledger) + [m])
    {
      ledger := ledger + [m];
    }

    // ---------------------------------------------------------------- blacklist

    /** is_blacklisted: scans the entries for the email or the phone. */
    method IsBlacklisted(email: string, phone: string) returns (listed: bool)
      ensures listed == Listed(blacklist, email, phone)
    {
      listed := false;
      var i := 0;
      while i < |blacklist|
        invariant 0 <= i <= |blacklist|
        invariant listed == exists j :: 0 <= j < i && (blacklist[j].email == email || blacklist[j].phone == phone)
      {
        if blacklist[i].email == email || blacklist[i].phone == phone {
          listed := true;
        }
        i := i + 1;
      }
    }

    /** add_to_blacklist. */
    method AddToBlacklist(email: string, phone: string, now: Time)
      modifies this
      ensures State() == old(State()).(blacklist := AddEntry(old(blacklist), email, phone, now))
    {
      var listed := IsBlacklisted(email, phone);
      if !listed {
        InsertBlacklistEntry(BlacklistEntry(email, phone, now));
      }
    }

    // ---------------------------------------------------------------- discipline

    /** Refunds a positive balance through the payment gateway and zeroes it. */
    method RefundBalance(uid: UserId)
      requires uid in customers
      modifies this
      ensures State() == Cascade.RefundBalance(old(State()), uid)
    {
      var c := customers[uid];
      if c.balance > 0 {
        IssueRefund(Refund(uid, c.balance));
        Post(Payout(uid, c.balance));
        SaveCustomer(uid, c.(balance := 0));
      }
    }

    /** terminate_and_blacklist_customer. */
    method TerminateAndBlacklistCustomer(uid: UserId, now: Time)
      requires uid in users && uid in customers
      modifies this
      ensures State() == Terminate(old(State()), uid, now)
    {
      var u := users[uid];
      RefundBalance(uid);
      SaveUser(uid, u.(status := Terminated, isBlacklisted := true));
      AddToBlacklist(u.email, u.phone, now);
    }

    /** handle_warning_added_to_customer. */
    method HandleWarningAddedToCustomer(uid: UserId, now: Time)
      requires Registered(State(), uid)
      modifies this
      ensures State() == HandleWarning(old(State()), uid, now)
    {
      if users[uid].role != Customer {
        return;
      }
      if customers[uid].isVip && users[uid].warningCount >= VIP_WARNING_LIMIT {
        SaveCustomer(uid, customers[uid].(isVip := false));
        SaveUser(uid, users[uid].(warningCount := 0));
      }
      if users[uid].warningCount >= WARNING_LIMIT {
        TerminateAndBlacklistCustomer(uid, now);
      }
    }

    /** add_warning_to_user. */
    method AddWarningToUser(uid: UserId, source: WarningSource, reason: string, now: Time)
      requires Registered(State(), uid)
      modifies this
      ensures State() == AddWarning(old(State()), uid, source, reason, now)
    {
      InsertWarning(Warning(uid, source, reason, now));
      SaveUser(uid, users[uid].(warningCount := users[uid].warningCount + 1));
      HandleWarningAddedToCustomer(uid, now);
    }

    /** fire_employee. */
    method FireEmployee(emp: UserId, reason: string, managerId: UserId, now: Time)
      requires emp in employees && emp in users
      modifies this
      ensures State() == Fire(old(State()), emp, reason, managerId, now)
    {
      SaveEmployee(emp, employees[emp].(employmentStatus := Fired));
      SaveUser(emp, users[emp].(status := Terminated));
      InsertMemo(Memo(managerId, None, emp, Termination, reason, now));
    }

    /** check_warning_threshold. */
    method CheckWarningThreshold(uid: UserId, managerId: UserId, now: Time)
      requires Registered(State(), uid)
      modifies this
      ensures State() == Cascade.CheckWarningThreshold(old(State()), uid, managerId, now)
    {
      var u := users[uid];
      if u.role == Customer && u.warningCount >= WARNING_LIMIT {
        TerminateAndBlacklistCustomer(uid, now);
      } else if u.role.IsEmployee() && u.warningCount >= WARNING_LIMIT {
        FireEmployee(uid, "Too many warnings", managerId, now);
      }
    }

    /** apply_demotion_or_bonus. */
    method ApplyDemotionOrBonus(emp: UserId, managerId: UserId, action: string, memoText: string, now: Time)
      returns (r: Outcome)
      modifies this
      ensures var step := Cascade.ApplyDemotionOrBonus(old(State()), emp, managerId, action, memoText, now);
        State() == step.state && r == step.result
    {
      if !IsManager(users, managerId) {
        return Fail(NoPermission);
      }
      if emp !in employees {
        return Fail(NotFound);
      }
      var e := employees[emp];
      SaveEmployee(emp, Appraised(e, action));
      InsertMemo(Memo(managerId, None, emp, Performance(action), memoText, now));
      if action == "DEMOTE" && FiredAfterDemotion(e.demotionCount) {
        if emp !in users {
          return Fail(NotFound);
        }
        FireEmployee(emp, "Max demotions", managerId, now);
      }
      r := Ok;
    }

    /** Whether some complaint against `cid` is still pending, found by one scan. */
    method PendingComplaintAgainst(cid: UserId) returns (pending: bool)
      ensures pending == HasPendingComplaint(complaints, cid)
    {
      pending := false;
      var i := 0;
      while i < |complaints|
        invariant 0 <= i <= |complaints|
        invariant pending == exists j :: 0 <= j < i && complaints[j].againstUserId == cid && complaints[j].status == ComplaintPending
      {
        if complaints[i].againstUserId == cid && complaints[i].status == ComplaintPending {
          pending := true;
        }
        i := i + 1;
      }
    }

    /** check_vip_upgrade. */
    method CheckVipUpgrade(cid: UserId, now: Time)
      requires cid in customers && cid in users
      modifies this
      ensures State() == Cascade.CheckVipUpgrade(old(State()), cid, now)
    {
      var pending := PendingComplaintAgainst(cid);
      var c := customers[cid];
      if VipUpgradeDue(c, users[cid], pending) {
        SaveCustomer(cid, c.(isVip := true, vipActivatedAt := Some(now)));
      }
    }

    /** close_customer_account. */
    method CloseCustomerAccount(managerId: UserId, cid: UserId) returns (r: Outcome)
      modifies this
      ensures var step := Cascade.CloseCustomerAccount(old(State()), managerId, cid);
        State() == step.state && r == step.result
    {
      if !IsManager(users, managerId) {
        return Fail(NoPermission);
      }
      if cid !in customers || cid !in users {
        return Fail(NotFound);
      }
      var u := users[cid];
      RefundBalance(cid);
      SaveUser(cid, u.(status := Closed));
      r := Ok;
    }

    // ---------------------------------------------------------------- ordering

    /** place_order: the guards, the total, the charge, the order and its
        item snapshot, the customer's aggregates, the VIP check and the
        auction; a short balance earns an ORDER warning instead. */
    method PlaceOrder(cid: UserId, cart: seq<CartItem>, now: Time) returns (r: Result<OrderId>)
      modifies this
      ensures var step := Ordering.PlaceOrder(old(State()), cid, cart, now);
        State() == step.state && r == step.result
    {
      if cid !in customers || cid !in users || (users[cid].role.IsEmployee() && cid !in employees) {
        return Error(NotFound);
      }
      if users[cid].status != Active {
        return Error(AccountInactive);
      }
      if users[cid].warningCount >= WARNING_LIMIT {
        return Error(AccountSuspended);
      }
      for i := 0 to |cart|
        invariant forall j :: 0 <= j < i ==> Available(menu, cart[j])
      {
        if cart[i].itemId !in menu || !menu[cart[i].itemId].isAvailable {
          return Error(ItemUnavailable);
        }
      }
      r := ChargeAndPlace(cid, cart, now);
    }

    /** place_order once the guards have passed: the total is computed, a
        short balance earns an ORDER warning, and a covered one places the
        order, checks the VIP upgrade and opens the auction. */
    method ChargeAndPlace(cid: UserId, cart: seq<CartItem>, now: Time) returns (r: Result<OrderId>)
      requires MayOrder(State(), cid, cart)
      modifies this
      ensures var step := Ordering.PlaceOrder(old(State()), cid, cart, now);
        State() == step.state && r == step.result
    {
      AvailableInCatalog(menu, cart);
      ghost var s0 := State();
      var c := customers[cid];
      var total := CalculateOrderTotal(menu, cart, c.isVip, FreeDeliveryEligible(c), tariff);
      assert total == Charge(s0, c, cart);
      if c.balance < total {
        AddWarningToUser(cid, OrderSource, "Insufficient balance", now);
        return Error(NotEnoughBalance);
      }
      var o := Place(cid, cart, total, now);
      r := Success(o);
    }

    /** The order recorded, the VIP upgrade checked and the auction opened. */
    method Place(cid: UserId, cart: seq<CartItem>, total: nat, now: Time) returns (o: OrderId)
      requires cid in customers && cid in users && InCatalog(menu, cart) && total == Charge(State(), customers[cid], cart)
      modifies this
      ensures o == old(nextOrderId) && State() == PlacedState(old(State()), cid, cart, now)
    {
      o := RecordOrder(cid, cart, total, now);
      CheckVipUpgrade(cid, now);
      OpenBidding(o, now);
    }

    /** The transaction of place_order: the balance charged, the order
        created, its items recorded line by line, and then the customer's
        order count and spending raised. */
    method RecordOrder(cid: UserId, cart: seq<CartItem>, total: nat, now: Time) returns (o: OrderId)
      requires cid in customers && InCatalog(menu, cart) && total == Charge(State(), customers[cid], cart)
      modifies this
      ensures o == old(nextOrderId) && State() == Recorded(old(State()), cid, cart, now)
    {
      var c := customers[cid];
      var free := FreeDeliveryEligible(c);
      SaveCustomer(cid, c.(balance := c.balance - total));
      o := NewOrderId();
      Post(Debit(cid, o, total));
      SaveOrder(o, Order(cid, Placed, total, DiscountBp(c.isVip), free, DeliveryFee(free, tariff), None, now, None, None));
      RecordItems(o, cart);
      SaveCustomer(cid, c.(balance := c.balance - total, totalOrders := c.totalOrders + 1, totalSpent := c.totalSpent + total));
    }

    /** One order item per cart line, at the catalog price of the moment. */
    method RecordItems(o: OrderId, cart: seq<CartItem>)
      requires InCatalog(menu, cart)
      modifies this
      ensures State() == old(State()).(orderItems := old(orderItems) + Snapshot(o, old(menu), cart))
    {
      for i := 0 to |cart|
        invariant InCatalog(old(menu), cart[..i])
        invariant State() == old(State()).(orderItems := old(orderItems) + Snapshot(o, old(menu), cart[..i]))
      {
        assert cart[..i + 1][..i] == cart[..i];
        InsertOrderItem(OrderItem(o, cart[i].itemId, cart[i].quantity, menu[cart[i].itemId].price));
      }
      assert cart[..|cart|] == cart;
    }

    // ---------------------------------------------------------------- the auction

    /** open_bidding. */
    method OpenBidding(o: OrderId, now: Time)
      requires o in orders
      modifies this
      ensures State() == Auction.OpenBidding(old(State()), o, now)
    {
      SaveOrder(o, orders[o].(status := AwaitingBids));
      Notify([NewOrderBroadcast(o)]);
      SaveWindow(o, Window(now, WINDOW_MINUTES, false));
    }

    /** The bids placed on order `o`, collected in the order they were placed. */
    method BidsOn(o: OrderId) returns (mine: seq<Bid>)
      ensures mine == BidsFor(bids, o)
    {
      mine := [];
      for i := 0 to |bids|
        invariant mine == BidsFor(bids[..i], o)
      {
        assert bids[..i + 1][..i] == bids[..i];
        if bids[i].orderId == o {
          mine := mine + [bids[i]];
        }
      }
      assert bids[..|bids|] == bids;
    }

    /** submit_bid: the bid is appended, then the order's bids are counted
        and the window closes at the quorum. */
    method SubmitBid(dp: UserId, o: OrderId, amount: Cents, eta: int, now: Time) returns (r: Outcome)
      modifies this
      ensures var step := Auction.SubmitBid(old(State()), dp, o, amount, eta, now);
        State() == step.state && r == step.result
    {
      if o !in windows || windows[o].closed {
        return Fail(WindowClosed);
      }
      if o !in orders {
        return Fail(NotFound);
      }
      if orders[o].status != AwaitingBids {
        return Fail(NotAccepting);
      }
      InsertBid(Bid(o, dp, amount, eta, now, false));
      var mine := BidsOn(o);
      if |mine| >= QUORUM {
        SaveWindow(o, windows[o].(closed := true));
      }
      r := Ok;
    }

    /** close_bidding. */
    method CloseBidding(o: OrderId)
      modifies this
      ensures State() == Auction.CloseBidding(old(State()), o)
    {
      if o in windows {
        SaveWindow(o, windows[o].(closed := true));
      }
      var mine := BidsOn(o);
      if mine == [] {
        return;
      }
      Notify([SortedBidsToManager(o, SortByAmount(mine))]);
    }

    /** The lowest amount among `bs`, found by one scan. */
    method Lowest(bs: seq<Bid>) returns (lowest: Cents)
      requires bs != []
      ensures lowest == LowestAmount(bs)
    {
      lowest := bs[0].amount;
      ghost var at := 0;
      for i := 1 to |bs|
        invariant 0 <= at < i && bs[at].amount == lowest
        invariant forall j :: 0 <= j < i ==> lowest <= bs[j].amount
      {
        if bs[i].amount < lowest {
          lowest := bs[i].amount;
          at := i;
        }
      }
      assert LowestAmount(bs) <= bs[at].amount;
    }

    /** assign_delivery, with the selected bid required to be on the order. */
    method AssignDelivery(managerId: UserId, o: OrderId, selected: Option<nat>, memoText: string,
                          available: Option<UserId>, now: Time) returns (r: Outcome)
      modifies this
      ensures var step := Auction.AssignDelivery(old(State()), managerId, o, selected, memoText, available, now);
        State() == step.state && r == step.result
    {
      if !IsManager(users, managerId) {
        return Fail(NoPermission);
      }
      var mine := BidsOn(o);
      if mine == [] {
        if available.None? {
          return Fail(NoDeliveryPerson);
        }
        if o !in orders {
          return Fail(NotFound);
        }
        SaveOrder(o, orders[o].(deliveryId := available, status := ReadyForDelivery));
        return Ok;
      }
      if selected.None? || selected.value >= |bids| || bids[selected.value].orderId != o {
        return Fail(NotFound);
      }
      r := AwardBid(managerId, o, selected.value, memoText, available, now);
    }

    /** assign_delivery once the manager has selected bid `k` of the order:
        a bid dearer than the lowest needs a memo, which is recorded; the
        order goes to the bid's delivery person and the bid is selected. */
    method AwardBid(managerId: UserId, o: OrderId, k: nat, memoText: string, available: Option<UserId>, now: Time)
      returns (r: Outcome)
      requires IsManager(users, managerId) && k < |bids| && bids[k].orderId == o
      modifies this
      ensures var step := Auction.AssignDelivery(old(State()), managerId, o, Some(k), memoText, available, now);
        State() == step.state && r == step.result
    {
      var b := bids[k];
      var mine := BidsOn(o);
      InBidsFor(bids, o, b);
      var lowest := Lowest(mine);
      if b.amount > lowest {
        if memoText == "" {
          return Fail(MemoNeeded);
        }
        InsertMemo(Memo(managerId, Some(o), b.deliveryId, DeliveryBidOverride, memoText, now));
      }
      if o !in orders {
        return Fail(NotFound);
      }
      SaveOrder(o, orders[o].(deliveryId := Some(b.deliveryId), status := ReadyForDelivery));
      SaveBid(k, b.(isSelected := true));
      r := Ok;
    }

    /** update_order_status. */
    method UpdateOrderStatus(dp: UserId, o: OrderId, newStatus: OrderStatus, now: Time) returns (r: Outcome)
      modifies this
      ensures var step := Auction.UpdateOrderStatus(old(State()), dp, o, newStatus, now);
        State() == step.state && r == step.result
    {
      if o !in orders {
        return Fail(NotFound);
      }
      var order := orders[o];
      if order.deliveryId != Some(dp) {
        return Fail(NotAssigned);
      }
      if newStatus == OutForDelivery {
        SaveOrder(o, order.(status := OutForDelivery, pickedUpAt := Some(now)));
      } else if newStatus == Delivered {
        SaveOrder(o, order.(status := Delivered, deliveredAt := Some(now)));
        if dp !in employees {
          return Fail(NotFound);
        }
        var e := employees[dp];
        SaveEmployee(dp, e.(balance := e.balance + order.deliveryPrice));
        Post(Credit(dp, o, order.deliveryPrice));
      }
      r := Ok;
    }

    // ---------------------------------------------------------------- feedback

    /** Whether order `o` already has a rating, found by one scan. */
    method HasRating(o: OrderId) returns (rated: bool)
      ensures rated == Rated(ratings, o)
    {
      rated := false;
      var i := 0;
      while i < |ratings|
        invariant 0 <= i <= |ratings|
        invariant rated == exists j :: 0 <= j < i && ratings[j].orderId == o
      {
        if ratings[i].orderId == o {
          rated := true;
        }
        i := i + 1;
      }
    }

    /** evaluate_employee. */
    method EvaluateEmployee(emp: UserId)
      requires RatingsWeighted(ratings)
      modifies this
      ensures State() == Feedback.EvaluateEmployee(old(State()), emp)
    {
      ScoresWeighted(ratings, orderItems, menu, emp);
      var rec := Evaluate(ScoresOf(ratings, orderItems, menu, emp), UpheldAgainst(complaints, emp), ComplimentsTo(compliments, emp));
      Notify(Notice(emp, rec));
    }

    /** submit_order_rating. */
    method SubmitOrderRating(cid: UserId, o: OrderId, food: int, delivery: int, comment: string, now: Time)
      returns (r: Outcome)
      requires RatingsWeighted(ratings)
      modifies this
      ensures var step := Feedback.SubmitOrderRating(old(State()), cid, o, food, delivery, comment, now);
        State() == step.state && r == step.result
    {
      if o !in orders {
        return Fail(NotFound);
      }
      var order := orders[o];
      if order.customerId != cid {
        return Fail(NotYourOrder);
      }
      if order.status != Delivered {
        return Fail(NotDelivered);
      }
      var rated := HasRating(o);
      if rated {
        return Fail(AlreadyRated);
      }
      if food < 1 || food > 5 || delivery < 1 || delivery > 5 {
        return Fail(InvalidRating);
      }
      var weight := if cid in customers && customers[cid].isVip then 2 else 1;
      InsertRating(Rating(o, order.deliveryId, cid, food, delivery, weight, comment, now));
      if order.deliveryId.Some? {
        EvaluateEmployee(order.deliveryId.value);
      }
      r := Ok;
    }

    /** file_complaint. */
    method FileComplaint(from: UserId, against: UserId, targetType: string, complaintType: string,
                         description: string, o: OrderId, now: Time) returns (r: Outcome)
      modifies this
      ensures var step := Feedback.FileComplaint(old(State()), from, against, targetType, complaintType, description, o, now);
        State() == step.state && r == step.result
    {
      if from !in users {
        return Fail(NotFound);
      }
      var weight := if from in customers && customers[from].isVip then 2 else 1;
      InsertComplaint(Complaint(from, against, targetType, complaintType, description, o,
                                ComplaintPending, now, weight, None, "", None));
      r := Ok;
    }

    /** file_compliment. */
    method FileCompliment(from: UserId, to: UserId, comment: string, o: OrderId, now: Time)
      modifies this
      ensures State() == Feedback.FileCompliment(old(State()), from, to, comment, o, now)
    {
      InsertCompliment(Compliment(from, to, comment, o, now));
    }

    /** resolve_complaint. */
    method ResolveComplaint(managerId: UserId, k: nat, uphold: bool, note: string, critical: bool, now: Time)
      returns (r: Outcome)
      modifies this
      ensures var step := Feedback.ResolveComplaint(old(State()), managerId, k, uphold, note, critical, now);
        State() == step.state && r == step.result
    {
      if !IsManager(users, managerId) {
        return Fail(NoPermission);
      }
      if k >= |complaints| {
        return Fail(NotFound);
      }
      var c := complaints[k];
      if c.status != ComplaintPending {
        return Fail(AlreadyHandled);
      }
      var against := c.againstUserId;
      if uphold {
        if against !in users || (users[against].role == Customer && against !in customers)
           || (users[against].role.IsEmployee() && against !in employees) {
          return Fail(NotFound);
        }
        Sanction(against, c.complaintType, managerId, critical, now);
      }
      SaveComplaint(k, Decided(c, managerId, uphold, note, now));
      r := Ok;
    }

    /** What upholding a complaint does to the user it was against: a
        COMPLAINT warning, the threshold checked, and a suspension when
        the complaint is critical. */
    method Sanction(uid: UserId, reason: string, managerId: UserId, critical: bool, now: Time)
      requires Registered(State(), uid)
      modifies this
      ensures State() == Sanctioned(old(State()), uid, reason, managerId, critical, now)
    {
      ghost var s0 := State();
      AddWarningToUser(uid, ComplaintSource, reason, now);
      SameAccountsKeepRegistration(s0, State(), uid);
      CheckWarningThreshold(uid, managerId, now);
      if critical {
        SaveUser(uid, users[uid].(status := Suspended));
      }
    }
  }
}

=== FILE: tables.dfy ===
/** The restaurant back end's state as a value: one component per database
    table, the catalog and tariff orders are priced with, and the ledger of
    balance movements; the queries the operations share; and the invariant
    every operation keeps, table group by table group. */
module StoreState {
  import opened Domain
  import opened Pricing
  import opened Ledger
  import opened Bidding
  import opened Discipline
  import opened Reputation

  /** The database. `bids` and `complaints` are identified by their index;
      `nextOrderId` is the id the next order receives. `opening` holds every
      balance as it was when the store opened and `ledger` every movement of
      money into or out of a balance since, oldest first; neither is a table
      of the source, they exist to state that money is conserved. */
  datatype Tables = Tables(
    menu: map<ItemId, MenuItem>,
    tariff: Tariff,
    users: map<UserId, User>,
    customers: map<UserId, CustomerAccount>,
    employees: map<UserId, Employee>,
    orders: map<OrderId, Order>,
    nextOrderId: OrderId,
    orderItems: seq<OrderItem>,
    bids: seq<Bid>,
    windows: map<OrderId, Window>,
    warnings: seq<Warning>,
    memos: seq<Memo>,
    complaints: seq<Complaint>,
    compliments: seq<Compliment>,
    ratings: seq<Rating>,
    blacklist: seq<BlacklistEntry>,
    outbox: seq<Notification>,
    refunds: seq<Refund>,
    opening: map<UserId, Cents>,
    ledger: seq<Movement>)

  /** The state an operation leaves behind and what it reports. */
  datatype Step<T> = Step(state: Tables, result: T)

  // ---------------------------------------------------------------- shared queries

  predicate IsManager(users: map<UserId, User>, id: UserId) {
    id in users && users[id].role == Manager
  }

  /** The user exists, and so does the account record their role calls for. */
  predicate Registered(s: Tables, uid: UserId) {
    && uid in s.users
    && (s.users[uid].role == Customer ==> uid in s.customers)
    && (s.users[uid].role.IsEmployee() ==> uid in s.employees)
  }

  /** Some complaint against `cid` is still pending. */
  predicate HasPendingComplaint(complaints: seq<Complaint>, cid: UserId) {
    exists i :: 0 <= i < |complaints| && complaints[i].againstUserId == cid && complaints[i].status == ComplaintPending
  }

  /** The bidding window of order `o` exists and is not closed. */
  predicate WindowOpen(windows: map<OrderId, Window>, o: OrderId) {
    o in windows && !windows[o].closed
  }

  /** Order `o` has been rated. */
  predicate Rated(ratings: seq<Rating>, o: OrderId) {
    exists i :: 0 <= i < |ratings| && ratings[i].orderId == o
  }

  predicate RatingsWeighted(ratings: seq<Rating>) {
    forall i :: 0 <= i < |ratings| ==> ratings[i].weight > 0
  }

  /** evaluate_employee's recommendation for `emp` in state `s`. */
  function Evaluation(s: Tables, emp: UserId): Recommendation
    requires RatingsWeighted(s.ratings)
  {
    ScoresWeighted(s.ratings, s.orderItems, s.menu, emp);
    Evaluate(ScoresOf(s.ratings, s.orderItems, s.menu, emp), UpheldAgainst(s.complaints, emp), ComplimentsTo(s.compliments, emp))
  }

  // ---------------------------------------------------------------- the invariant, table group by table group

  /** Every customer user has a customer record and every chef or delivery
      person an employee record, and no record exists without its user. */
  predicate AccountsConsistent(users: map<UserId, User>, customers: map<UserId, CustomerAccount>,
                               employees: map<UserId, Employee>) {
    && (forall u :: u in customers ==> u in users && users[u].role == Customer)
    && (forall u :: u in employees ==> u in users && users[u].role.IsEmployee())
    && (forall u :: u in users && users[u].role == Customer ==> u in customers)
    && (forall u :: u in users && users[u].role.IsEmployee() ==> u in employees)
  }

  /** No customer balance is negative. */
  predicate Solvent(customers: map<UserId, CustomerAccount>) {
    forall c :: c in customers ==> customers[c].balance >= 0
  }

  /** Money is conserved: every balance is its opening balance moved by
      exactly the ledger's movements for that account. */
  predicate Conserved(customers: map<UserId, CustomerAccount>, employees: map<UserId, Employee>,
                      opening: map<UserId, Cents>, ledger: seq<Movement>) {
    && (forall u :: u in customers ==> u in opening && customers[u].balance == opening[u] + Net(ledger, u))
    && (forall u :: u in employees ==> u in opening && employees[u].balance == opening[u] + Net(ledger, u))
  }

  /** A ledger movement backed by an order: a debit is the order's total
      charged to its customer, a credit the order's delivery price. */
  predicate Backed(m: Movement, orders: map<OrderId, Order>) {
    match m
    case Debit(c, o, amount) => o in orders && orders[o].customerId == c && orders[o].totalPrice == amount
    case Credit(_, o, amount) => o in orders && orders[o].deliveryPrice == amount
    case Payout(_, amount) => amount > 0
  }

  /** Every movement is backed by an order, and every order was charged
      exactly once. */
  predicate LedgerBacked(ledger: seq<Movement>, orders: map<OrderId, Order>) {
    && (forall i :: 0 <= i < |ledger| ==> Backed(ledger[i], orders))
    && (forall o :: o in orders ==> DebitsOf(ledger, o) == 1)
  }

  /** Every order belongs to a known customer. */
  predicate OrdersOwned(orders: map<OrderId, Order>, customers: map<UserId, CustomerAccount>) {
    forall o :: o in orders ==> orders[o].customerId in customers
  }

  /** The order's total is what its recorded items, discount, delivery fee
      and tax come to. */
  predicate PricedAsCharged(order: Order, items: seq<OrderItem>, t: Tariff) {
    && (order.discountBp == 0 || order.discountBp == VIP_DISCOUNT_BP)
    && order.totalPrice == Total(ItemsSubtotal(items), order.discountBp == VIP_DISCOUNT_BP, order.isFreeDelivery, t)
    && order.deliveryPrice == DeliveryFee(order.isFreeDelivery, t)
  }

  /** Orders have ids below the next one and a total that matches their
      items; items belong to known orders. */
  predicate OrdersPriced(orders: map<OrderId, Order>, orderItems: seq<OrderItem>, nextOrderId: OrderId, t: Tariff) {
    && (forall o :: o in orders ==> o < nextOrderId)
    && (forall o :: o in orders ==> PricedAsCharged(orders[o], ItemsOf(orderItems, o), t))
    && (forall i :: 0 <= i < |orderItems| ==> orderItems[i].orderId in orders)
  }

  /** The manager left a bid-override memo for order `o`. */
  predicate OverrideMemoed(memos: seq<Memo>, o: OrderId) {
    exists k :: 0 <= k < |memos| && memos[k].memoType == DeliveryBidOverride && memos[k].orderId == Some(o)
  }

  /** Every selected bid that is dearer than another bid on the same order
      is backed by an override memo for that order. */
  predicate SelectionsJustified(bids: seq<Bid>, memos: seq<Memo>) {
    forall i, j :: 0 <= i < |bids| && 0 <= j < |bids| && bids[i].isSelected
      && bids[j].orderId == bids[i].orderId && bids[j].amount < bids[i].amount
      ==> OverrideMemoed(memos, bids[i].orderId)
  }

  /** Bids and windows belong to known orders; a selected bid's order has
      left the auction; and a selected bid above some other bid on the same
      order is justified by an override memo. */
  predicate AuctionConsistent(bids: seq<Bid>, orders: map<OrderId, Order>, windows: map<OrderId, Window>, memos: seq<Memo>) {
    && (forall i :: 0 <= i < |bids| ==> bids[i].orderId in orders)
    && (forall o :: o in windows ==> o in orders)
    && (forall i :: 0 <= i < |bids| && bids[i].isSelected ==> orders[bids[i].orderId].status != AwaitingBids)
    && SelectionsJustified(bids, memos)
  }

  /** The warning cascade holds for every user. */
  predicate CascadeHolds(users: map<UserId, User>, blacklist: seq<BlacklistEntry>) {
    forall u :: u in users ==> Disciplined(users[u], blacklist)
  }

  /** The books: balances are never negative, move only by the ledger, and
      every movement is backed by an order of a known customer. */
  predicate Books(s: Tables) {
    && Solvent(s.customers)
    && Conserved(s.customers, s.employees, s.opening, s.ledger)
    && LedgerBacked(s.ledger, s.orders)
    && OrdersOwned(s.orders, s.customers)
  }

  /** Everything but the warning cascade: the state a cascade step starts from. */
  predicate Core(s: Tables) {
    && AccountsConsistent(s.users, s.customers, s.employees)
    && Books(s)
    && OrdersPriced(s.orders, s.orderItems, s.nextOrderId, s.tariff)
    && AuctionConsistent(s.bids, s.orders, s.windows, s.memos)
    && RatingsWeighted(s.ratings)
  }

  predicate Inv(s: Tables) {
    Core(s) && CascadeHolds(s.users, s.blacklist)
  }

  // ---------------------------------------------------------------- facts the operations share

  /** `s'` has the users, roles and account records of `s`: only their
      contents may differ. */
  predicate SameAccounts(s: Tables, s': Tables) {
    && s'.users.Keys == s.users.Keys
    && (forall u :: u in s.users ==> s'.users[u].role == s.users[u].role)
    && s'.customers.Keys == s.customers.Keys
    && s'.employees.Keys == s.employees.Keys
  }

  /** No user and no customer record other than `uid`'s differs between
      `s` and `s'`. */
  predicate OthersUnchanged(s: Tables, s': Tables, uid: UserId) {
    && (forall v :: v in s.users && v != uid ==> v in s'.users && s'.users[v] == s.users[v])
    && (forall v :: v in s.customers && v != uid ==> v in s'.customers && s'.customers[v] == s.customers[v])
  }

  lemma OthersUnchangedChain(s1: Tables, s2: Tables, s3: Tables, uid: UserId)
    requires OthersUnchanged(s1, s2, uid) && OthersUnchanged(s2, s3, uid)
    ensures OthersUnchanged(s1, s3, uid)
  {
  }

  /** Keeping the accounts keeps every user registered and every record
      with its user. */
  lemma SameAccountsKeepRegistration(s: Tables, s': Tables, uid: UserId)
    requires SameAccounts(s, s')
    ensures Registered(s, uid) ==> Registered(s', uid)
    ensures AccountsConsistent(s.users, s.customers, s.employees) ==> AccountsConsistent(s'.users, s'.customers, s'.employees)
  {
  }

  /** New bids and windows that keep the auction consistent keep the
      invariant. */
  lemma BiddingKeepsInv(s: Tables, bids: seq<Bid>, windows: map<OrderId, Window>)
    requires Inv(s) && AuctionConsistent(bids, s.orders, windows, s.memos)
    ensures Inv(s.(bids := bids, windows := windows))
  {
  }

  /** Recast orders and selected bids that keep the books, the prices and
      the auction keep the invariant. */
  lemma AwardingKeepsInv(s: Tables, orders: map<OrderId, Order>, bids: seq<Bid>)
    requires Inv(s) && Books(s.(orders := orders)) && OrdersPriced(orders, s.orderItems, s.nextOrderId, s.tariff)
    requires AuctionConsistent(bids, orders, s.windows, s.memos)
    ensures Inv(s.(orders := orders, bids := bids))
  {
    var s1 := s.(orders := orders);
    var s2 := s.(orders := orders, bids := bids);
    assert s2.customers == s1.customers && s2.employees == s1.employees && s2.ledger == s1.ledger && s2.orders == s1.orders;
  }

  /** Under the invariant a known user is a registered one. */
  lemma KnownIsRegistered(s: Tables, uid: UserId)
    requires AccountsConsistent(s.users, s.customers, s.employees) && uid in s.users
    ensures Registered(s, uid)
  {
  }

  /** Memos are never withdrawn, so a justified selection stays justified. */
  lemma MemoKeepsSelectionsJustified(bids: seq<Bid>, memos: seq<Memo>, m: Memo)
    requires SelectionsJustified(bids, memos)
    ensures SelectionsJustified(bids, memos + [m])
  {
    forall o: OrderId | OverrideMemoed(memos, o)
      ensures OverrideMemoed(memos + [m], o)
    {
      var k :| 0 <= k < |memos| && memos[k].memoType == DeliveryBidOverride && memos[k].orderId == Some(o);
      assert (memos + [m])[k] == memos[k];
    }
  }

  /** Changing one user, role kept, keeps every account record with its user. */
  lemma AccountsAfterUserUpdate(users: map<UserId, User>, customers: map<UserId, CustomerAccount>,
                                employees: map<UserId, Employee>, uid: UserId, nu: User)
    requires AccountsConsistent(users, customers, employees)
    requires uid in users && nu.role == users[uid].role
    ensures AccountsConsistent(users[uid := nu], customers, employees)
  {
  }

  /** The cascade holds when it holds for every user but `uid` and for `uid`. */
  lemma CascadeFromOthers(users: map<UserId, User>, blacklist: seq<BlacklistEntry>, uid: UserId)
    requires forall u :: u in users && u != uid ==> Disciplined(users[u], blacklist)
    requires uid in users ==> Disciplined(users[uid], blacklist)
    ensures CascadeHolds(users, blacklist)
  {
  }

  /** Changing one user keeps the cascade when the others kept it and the
      changed user keeps it too. */
  lemma CascadeAfterUserUpdate(users: map<UserId, User>, blacklist: seq<BlacklistEntry>, uid: UserId, nu: User)
    requires forall u :: u in users && u != uid ==> Disciplined(users[u], blacklist)
    requires Disciplined(nu, blacklist)
    ensures CascadeHolds(users[uid := nu], blacklist)
  {
  }

  /** Two versions of an order that charge the same: the same customer,
      total, discount, free-delivery flag and delivery price. Status,
      delivery person and timestamps may differ. */
  predicate SameCharge(a: Order, b: Order) {
    && a.customerId == b.customerId && a.totalPrice == b.totalPrice && a.discountBp == b.discountBp
    && a.isFreeDelivery == b.isFreeDelivery && a.deliveryPrice == b.deliveryPrice
  }

  /** Moving an order along its lifecycle keeps every movement backed. */
  lemma RecastKeepsLedgerBacked(ledger: seq<Movement>, orders: map<OrderId, Order>, o: OrderId, no: Order)
    requires LedgerBacked(ledger, orders) && o in orders && SameCharge(orders[o], no)
    ensures LedgerBacked(ledger, orders[o := no])
  {
    forall i | 0 <= i < |ledger|
      ensures Backed(ledger[i], orders[o := no])
    {
      assert Backed(ledger[i], orders);
    }
  }

  /** Moving an order along its lifecycle keeps it priced as charged. */
  lemma RecastKeepsPriced(orders: map<OrderId, Order>, items: seq<OrderItem>, next: OrderId, t: Tariff, o: OrderId, no: Order)
    requires OrdersPriced(orders, items, next, t) && o in orders && SameCharge(orders[o], no)
    ensures OrdersPriced(orders[o := no], items, next, t)
  {
    assert PricedAsCharged(orders[o], ItemsOf(items, o), t);
  }

  /** Moving an order out of the auction, or into it when none of its bids
      is selected, keeps the auction consistent. */
  lemma RecastKeepsAuction(bids: seq<Bid>, orders: map<OrderId, Order>, windows: map<OrderId, Window>, memos: seq<Memo>,
                           o: OrderId, no: Order)
    requires AuctionConsistent(bids, orders, windows, memos) && o in orders
    requires no.status == AwaitingBids ==> forall i :: 0 <= i < |bids| && bids[i].isSelected ==> bids[i].orderId != o
    ensures AuctionConsistent(bids, orders[o := no], windows, memos)
  {
  }

  /** Moving an order along its lifecycle keeps everything but the
      auction, which RecastKeepsAuction covers. */
  lemma RecastKeepsBooksAndPrices(s: Tables, o: OrderId, no: Order)
    requires Books(s) && OrdersPriced(s.orders, s.orderItems, s.nextOrderId, s.tariff)
    requires o in s.orders && SameCharge(s.orders[o], no)
    ensures var s' := s.(orders := s.orders[o := no]);
      Books(s') && OrdersPriced(s'.orders, s'.orderItems, s'.nextOrderId, s'.tariff)
  {
    RecastKeepsLedgerBacked(s.ledger, s.orders, o, no);
    RecastKeepsPriced(s.orders, s.orderItems, s.nextOrderId, s.tariff, o, no);
  }

  /** A window for a known order keeps the auction consistent. */
  lemma WindowKeepsAuction(bids: seq<Bid>, orders: map<OrderId, Order>, windows: map<OrderId, Window>, memos: seq<Memo>,
                           o: OrderId, w: Window)
    requires AuctionConsistent(bids, orders, windows, memos) && o in orders
    ensures AuctionConsistent(bids, orders, windows[o := w], memos)
  {
  }

  /** An unselected bid on an order still awaiting bids keeps the auction
      consistent: no bid on that order is selected yet, so no selection
      can become unjustified. */
  lemma BidKeepsAuction(bids: seq<Bid>, orders: map<OrderId, Order>, windows: map<OrderId, Window>, memos: seq<Memo>, b: Bid)
    requires AuctionConsistent(bids, orders, windows, memos)
    requires b.orderId in orders && orders[b.orderId].status == AwaitingBids && !b.isSelected
    ensures AuctionConsistent(bids + [b], orders, windows, memos)
  {
    var bids' := bids + [b];
    forall i, j | 0 <= i < |bids'| && 0 <= j < |bids'| && bids'[i].isSelected
      && bids'[j].orderId == bids'[i].orderId && bids'[j].amount < bids'[i].amount
      ensures OverrideMemoed(memos, bids'[i].orderId)
    {
      assert bids'[i] == bids[i];
      if j == |bids| {
        assert false;
      }
      assert bids'[j] == bids[j];
    }
  }

  /** Selecting bid `k` keeps every selection justified when a cheaper bid
      on its order implies an override memo for that order. */
  lemma SelectKeepsJustified(bids: seq<Bid>, memos: seq<Memo>, k: nat)
    requires SelectionsJustified(bids, memos) && k < |bids|
    requires (exists j :: 0 <= j < |bids| && bids[j].orderId == bids[k].orderId && bids[j].amount < bids[k].amount)
             ==> OverrideMemoed(memos, bids[k].orderId)
    ensures SelectionsJustified(bids[k := bids[k].(isSelected := true)], memos)
  {
    var bids' := bids[k := bids[k].(isSelected := true)];
    forall i, j | 0 <= i < |bids'| && 0 <= j < |bids'| && bids'[i].isSelected
      && bids'[j].orderId == bids'[i].orderId && bids'[j].amount < bids'[i].amount
      ensures OverrideMemoed(memos, bids'[i].orderId)
    {
      assert bids[j].orderId == bids'[j].orderId && bids[j].amount == bids'[j].amount;
      if i != k {
        assert bids[i] == bids'[i];
      }
    }
  }

  /** Handing order `o` to the delivery person of its bid `k` and selecting
      that bid keeps the auction consistent when a cheaper bid on the
      order implies an override memo. */
  lemma AwardKeepsAuction(bids: seq<Bid>, orders: map<OrderId, Order>, windows: map<OrderId, Window>, memos: seq<Memo>,
                          o: OrderId, k: nat, no: Order)
    requires AuctionConsistent(bids, orders, windows, memos) && o in orders && no.status != AwaitingBids
    requires k < |bids| && bids[k].orderId == o
    requires (exists j :: 0 <= j < |bids| && bids[j].orderId == o && bids[j].amount < bids[k].amount)
             ==> OverrideMemoed(memos, o)
    ensures AuctionConsistent(bids[k := bids[k].(isSelected := true)], orders[o := no], windows, memos)
  {
    var bids' := bids[k := bids[k].(isSelected := true)];
    SelectKeepsJustified(bids, memos, k);
    forall i | 0 <= i < |bids'|
      ensures bids'[i].orderId in orders[o := no]
      ensures bids'[i].isSelected ==> orders[o := no][bids'[i].orderId].status != AwaitingBids
    {
      if i != k {
        assert bids'[i] == bids[i];
      }
    }
  }
}
